=== FILE: README.md ===
# Lesion, modelled in Dafny

Lesion is a GNOME Shell extension with a preferences application. It docks
the dash, moves and reformats the panel clock, rounds window corners, saves
window geometry, swaps wallpapers and stylesheets, and adds a "show
applications" button. The preferences side has a page tree with a search, a
styles page, a geometry page, an About page, settings import and export, and
two demo shells (a sidebar window and a tabbed window).

This project models the decision logic of those components as pure functions
over immutable data. Widgets, GSettings, files and the shell are reduced to
the values the code reads and writes:

- A panel box is an ordered child list.
- A settings object is a record of the keys that are read.
- A stylesheet directory is a list of entries with their read results.
- A window's actions are a map from action name to tab number.

Host calls whose results the code only consumes become parameters. These are
whether a file exists, what a file holds, whether a `GLib.Variant` accepts a
value, what `strftime` produces, and the measured widget sizes.

One module per source file, plus shared modules:

- `Wrappers` holds `Option`.
- `Text` holds the JavaScript string operations used: trim, `startsWith`,
  `split`, `join`, number rendering and ASCII case mapping.
- `Lists` holds child-list editing.
- `Order` holds the default `Array.prototype.sort()` on strings, which compares
  UTF-16 code units.
- `Js` holds JavaScript values with truthiness, `||` and `??`.

Where the extension's documentation and its code differ, the model
follows the code. The documentation mentions an intellihide that hides
the dock when a window overlaps it. The dock code has none: its auto-hide
only eases the opacity when the mouse enters and leaves, so no overlap detector is
modelled.

## Model

| member | source | states |
|---|---|---|
| PageTree.FindPageDefinition | app/window.js:45-74 | A page the lookup returns has the requested id. |
| PageTree.ScanListIsFirst | app/window.js:48-66 | `scanList` returns the first page with the id in the list's depth-first pre-order. That order is an item, then its `pages`, then the pages of its `groups`. |
| PageTree.FindIsFirstInPreOrder | app/window.js:45-74 | `findPageDefinition` returns the first page with the id over all sections in pre-order. It returns nothing exactly when no page of the tree has the id. |
| PageTree.FirstWithIdAppend | app/window.js:68-72 | Scanning sections one after another finds the first match of the concatenated page order. |
| PageTree.PerformSearch | app/window.js:277-312 | Every hit is a searchable page whose title, description and keywords contain the lower-cased query. |
| PageTree.SearchIsFilteredPreOrder | app/window.js:277-312 | The hit pages are exactly the matching pages among those the search visits, in visit order. A page marked `searchable: false` prunes its whole subtree. |
| PageTree.CheckListHits | app/window.js:282-302 | Each hit of a list is an item of the list carrying the caller's parent id and title, or a child hit of some page below it. |
| PageTree.SearchHitParents | app/window.js:282-310 | A hit is either a top-level item, with its own id as `parentId` and no breadcrumb, or a page listed directly under a parent. The latter carries the parent's id and the breadcrumb "Parent > Title", or "Parent > Group > Title" for group children. |
| PageTree.SearchView | app/window.js:314-333 | An empty query shows the standard menu. A query without hits shows the no-results row. Otherwise the rows are the search hits in order. |
| PageTree.Activate | app/window.js:334-342 | A hit whose page id differs from its `parentId` navigates to the parent with the page as sub-page. Any other hit navigates to the page itself. |
| PageTree.SearchResultsNavigate | app/window.js:213-214 | Every result row navigates to pages that `findPageDefinition` finds: the target page and any sub-page. |
| Dock.UpdatePosition | app/components/dock.js:229-271 | Without an allocation nothing happens. Otherwise the dock is placed against the edge the position names: centred along it, or spanning it from the monitor's origin in panel mode. An unknown position leaves it at (0, 0). |
| Dock.PlacementOnEdge | app/components/dock.js:229-271 | A dock no larger than the monitor lies inside the monitor against its edge. In panel mode it covers that whole edge. |
| Dock.HexRun | app/components/dock.js:285-289 | The leading run of hex digits `parseInt(…, 16)` reads: all hex digits, followed by a non-digit or the end. |
| Dock.Slice | app/components/dock.js:287-289 | `String.prototype.slice` agrees with the sequence slice when the bounds are in range. |
| Dock.BackgroundColor | app/components/dock.js:284-291 | The background is the fixed default exactly when the colour does not start with '#'. |
| Dock.WellFormedColorChannels | app/components/dock.js:284-291 | A `#rrggbb` colour yields each channel as the value of its two hex digits. |
| Dock.HexColorRoundTrip | app/components/dock.js:284-291 | Writing channels 0..255 as `#rrggbb` and parsing them back gives the same channels. |
| Dock.ParseTwoHexDigits | app/components/dock.js:287-289 | Two hex digits parse to 16 × first + second. |
| Dock.PanelCornersOnEdge | app/components/dock.js:293-300 | In panel mode the two corners against the dock's screen edge are square and the other two get the radius. Outside panel mode all four get the radius. |
| Dock.ConstraintAcrossLayout | app/components/dock.js:302-309 | The thickness constraint is `min-width` exactly for a left or right dock, and is 24 pixels more than the icon size. |
| Dock.DefaultBackgroundWithoutHash | app/components/dock.js:284-291 | A colour without '#' gives the fixed default declaration whatever the opacity. |
| Clock.Detach | app/components/clock.js:129 | After `remove_child`, no box holds the date-menu container. |
| Clock.DetachChildren | app/components/clock.js:129 | Detaching removes the container from each box and keeps the other children in order. |
| Clock.Move | app/components/clock.js:126-136 | After `_move` the container is in the target box exactly once and in no other box. |
| Clock.MoveKeepsOthers | app/components/clock.js:126-136 | Leaving the container aside, every box keeps its children in order. |
| Clock.MovePosition | app/components/clock.js:131-135 | The container lands just before the anchor in mode 0 and just after it otherwise. Without a found anchor it goes first in the left box in mode 0, and last in any other box. |
| Clock.MoveIdempotent | app/components/clock.js:126-136 | Running `_move` twice with the same arguments gives the same panel as once. |
| Clock.RestorePos | app/components/clock.js:138-145 | A container already in the centre box stays put. Otherwise it is detached and inserted first in the centre box. |
| Clock.RestoreKeepsOthers | app/components/clock.js:138-145 | Restoring keeps every other child in order, and restoring twice is restoring once. |
| Clock.SyncPos | app/components/clock.js:115-124 | With moving disabled the container is restored. Otherwise it moves to the left box by Activities (target 0) or to the right box by the system menu. |
| Clock.SyncPosIdempotent | app/components/clock.js:115-124 | Re-running `_syncPos` with unchanged settings changes nothing. |
| Clock.EffectiveFormat | app/components/clock.js:156 | An empty custom format falls back to `%H:%M\n%A, %d %B`. |
| Clock.SourceText | app/components/clock.js:154-160 | Custom mode uses what `GLib.DateTime.format` returns, which is `null` for an unsupported format: that call does not throw, so the `catch` never runs. Any other mode uses the original clock text or a single space. |
| Clock.SourceTextGuarded | app/components/clock.js:158 | The text as the `catch` means it: a `null` format result falls back to the original clock text or a single space. The text is never empty, and a non-empty formatted text is kept. Beyond the `catch`, an empty formatted text also becomes a single space. |
| Clock.FirstMatchFrom | app/components/clock.js:178-182 | The leftmost start at or after a position where the time pattern matches. |
| Clock.SplitTime | app/components/clock.js:178-182 | The first three pieces of `split` on the time pattern: the text before the first match, the match, and the text up to the next match. There are none exactly when the pattern matches nowhere. |
| Clock.CollapseRuns | app/components/clock.js:184 | Collapsing white-space runs keeps the text empty or non-empty and keeps whether it starts or ends with white space. |
| Clock.CollapseRunsNoDoubleSpace | app/components/clock.js:184 | After collapsing, no two white-space characters are adjacent. |
| Clock.CollapseRunsWords | app/components/clock.js:184 | Collapsing keeps every non-space character, in order. |
| Clock.MultilineWithTime | app/components/clock.js:182-185 | With a time in the text, the time label is the trimmed first match. The date label is a single space, or holds exactly the non-space characters around the time with no outer or double white space. |
| Clock.DateLabelShape | app/components/clock.js:184 | The date line is a single space, or has no outer white space, no double spaces, and the words before and after the time. |
| Clock.MultilineWithoutTime | app/components/clock.js:186-190 | Without a time, the labels are the text before and after the first space, each a single space when empty. When both are non-empty they rebuild the text. |
| Clock.UndimDim | app/components/clock.js:196 | Dimming separators only adds markup: reading the spans back gives the escaped text. |
| Clock.DimBlank | app/components/clock.js:197-198 | The dimmed text is blank exactly when the escaped text is, since only separators gain markup. |
| Clock.DimmedMarkup | app/components/clock.js:197-198 | The markup is never empty: a non-breaking space for a blank escaped text, the dimmed text otherwise. |
| Clock.DimmedClockShowsText | app/components/clock.js:195-199 | Accepted markup of a non-blank text reads back, spans removed, as the escaped text. A blank text shows a non-breaking space. When `set_markup` throws, the label shows the text, or a single space when it is empty. |
| Clock.UpdateClockText | app/components/clock.js:147-205 | Multiline shows a vertical box with an opaque date label. Single-line hides the date label. Without dimming it shows the text plain. With dimming it shows the dimmed markup when `set_markup` accepts it, and otherwise the text, or a single space when the text is empty. A `null` text leaves the time and date labels of the last update in multiline mode, where `split` throws, and the time label in dimmed mode, where the escaping throws. The plain label shows it as the empty text. |
| Clock.NullFormatStaleClock | app/components/clock.js:157-202 | An unsupported custom format leaves the multiline and dimmed clocks showing the last update's labels, and empties the plain clock. |
| Clock.GuardedClockIsFresh | app/components/clock.js:158 | With the guarded text, the view no longer depends on the previous one, and a plain time label is never empty. |
| CssPage.CommentBody | app/page/css.js:70-72 | The leading-comment pattern matches only when the text, after leading white space, opens with `/*`. A match counts only when its capture is non-empty. |
| CssPage.FindCloseSpec | app/page/css.js:70 | The lazy capture ends at the first `*…*/` closing after the opening stars, and no earlier position closes it. |
| CssPage.StripStar | app/page/css.js:75 | Removing a `*` prefix from a comment line leaves a suffix of the line. |
| CssPage.CleanLines | app/page/css.js:74-76 | After map and filter, every remaining line is non-empty with no white space at either end. |
| CssPage.ExtractDescription | app/page/css.js:62-83 | A description exists only for a text whose first non-space characters are `/*`. |
| CssPage.DescriptionShape | app/page/css.js:62-83 | A description is one line: it holds no line break and, when non-empty, has no white space at either end. |
| CssPage.DescriptionOfOneLineComment | app/page/css.js:62-83 | The comment `/* d */` describes its stylesheet as `d` when `d` is one trimmed line without stars. |
| CssPage.CssFiles | app/page/css.js:46-55 | The listing holds exactly the entry names ending in `.css`. |
| CssPage.CssFilesAppend | app/page/css.js:50-55 | The listing keeps the enumeration order: it filters entry by entry. |
| CssPage.ToggleBundled | app/page/css.js:120-130 | Switching on adds the file once at the end, unless it is already listed. Switching off removes its first occurrence. |
| CssPage.SpliceIsRemoveFirst | app/page/css.js:122-128 | `splice(indexOf(file), 1)` removes exactly the first occurrence. |
| CssPage.RemoveFirstMultiset | app/page/css.js:126-128 | Switching a file off removes one copy of it and nothing else. |
| CssPage.ToggleOnOff | app/page/css.js:120-130 | Switching an unlisted file on and then off restores the list. |
| CssPage.ToggleKeepsNoDuplicates | app/page/css.js:120-130 | A list without duplicates keeps none after either switch. |
| CssPage.RemoveCustom | app/page/css.js:221-225 | The remove button never lengthens the list. |
| CssPage.RemoveCustomMembers | app/page/css.js:221-225 | The remove button keeps exactly the entries whose URI differs. |
| CssPage.RemoveCustomAbsent | app/page/css.js:221-225 | Removing a URI that is not listed changes nothing. |
| CssPage.RemoveCustomAppend | app/page/css.js:221-225 | Removal filters entry by entry, keeping the order. |
| CssPage.ToggleCustom | app/page/css.js:228-233 | The custom switch sets the flag of every entry with that URI and leaves every other entry and every URI as it was. |
| CssPage.RemoveAfterToggle | app/page/css.js:221-233 | Switching a style and then removing it is the same as removing it. |
| CssPage.ToggleTwice | app/page/css.js:228-233 | The last switch wins. |
| CssPage.AddCustom | app/page/css.js:266-274 | A chosen URI is appended, enabled, unless an entry already has it. |
| CssPage.AddCustomSpec | app/page/css.js:221-274 | Adding keeps URIs unique. Adding a new URI and then removing it restores the list. |
| GeometryPage.SubtitleInjective | app/page/geometry.js:109 | Two rectangles with the same subtitle text are the same rectangle, so the subtitle comparison detects every change. |
| GeometryPage.TitleShape | app/page/geometry.js:119 | A new row's title is the window class after its last '.'. A class without '.', or one ending in '.', is its own title. |
| GeometryPage.KeepRows | app/page/geometry.js:75-80 | Stale-row removal keeps exactly the children that are not rows of vanished keys. |
| GeometryPage.CreatedMembers | app/page/geometry.js:107-161 | The rows created in a pass are exactly the stored keys that had no row. |
| GeometryPage.CreatedSorted | app/page/geometry.js:70-107 | Created rows follow sorted key order. |
| GeometryPage.RefreshRowAt | app/page/geometry.js:107-162 | After the row loop, a key has a row exactly when it had one or was visited. Unvisited rows are untouched. Visited rows carry the current subtitle and keep their title when they existed. |
| GeometryPage.RefreshRewrittenAt | app/page/geometry.js:111-116 | A key's subtitle is rewritten exactly when it had a row whose subtitle differed from the current one. |
| GeometryPage.UpdateListRows | app/page/geometry.js:62-163 | After `updateList` there is a row exactly for each stored key. An existing row keeps its title with the current subtitle. A new row is titled after the window class. |
| GeometryPage.UpdateListRewritten | app/page/geometry.js:62-163 | A pass rewrites exactly the rows that existed, are still stored, and showed a different subtitle. |
| GeometryPage.UpdateListEmptyState | app/page/geometry.js:82-104 | The empty-state row is shown exactly once when nothing is stored, and not at all otherwise. |
| GeometryPage.UpdateListInStep | app/page/geometry.js:62-163 | Rows in the group and entries of `activeRows` stay in step. |
| GeometryPage.UpdateListOrder | app/page/geometry.js:70-162 | New rows follow the surviving ones, one per new key, sorted and without repeats. |
| GeometryPage.OnChanged | app/page/geometry.js:170-176 | A change signal marks an update pending. While one is pending, a further signal changes nothing. |
| GeometryPage.ChangesCoalesce | app/page/geometry.js:170-176 | Any burst of change signals before the timeout is the same as one. |
| GeometryPage.Destroy | app/page/geometry.js:178-181 | The destroy handler empties `activeRows` and leaves the pending flag and the group as they were. |
| GeometryPage.PendingUpdateAfterDestroy | app/page/geometry.js:170-181 | An update pending at destroy still fires, and its pass re-creates a row for every stored key. |
| GeometryPage.Fire | app/page/geometry.js:172-175 | The timeout clears the pending flag. |
| GeometryPage.FireReadsStore | app/page/geometry.js:172-175 | After the timeout the rows are exactly the keys stored at that moment. |
| GeometryPage.Delete | app/page/geometry.js:135-145 | The delete button removes the row from the group and from `activeRows` at once, and leaves every other row. The store is written only when it holds the key. |
| GeometryPage.DeleteStored | app/page/geometry.js:141-145 | After a delete only that key is gone from the store. The other keys keep their order and rectangles. |
| GeometryPage.ValueOfDistinct | app/page/geometry.js:108 | In a parsed object, where no key repeats, `data[key]` is the rectangle stored under that key. |
| GeometryPage.RemoveKey | app/page/geometry.js:143 | `delete data[key]` keeps exactly the properties with another key. |
| GeometryPage.RemoveKeyDistinct | app/page/geometry.js:141-145 | Deleting a key from a parsed object, where no key repeats, leaves an object where no key repeats. |
| GeometryPage.RemoveKeyKeys | app/page/geometry.js:143 | `delete` removes the key from the object's key list and keeps the others in order. |
| GeometryPage.ClearAllEmpties | app/page/geometry.js:198-202 | The pass after "Clear All" removes every window row and shows the empty-state row once. |
| ShowApps.ActIndex | app/panel/showapps.js:85-90 | As intended, the anchor index is the first position of Activities' container in the box, or 0 when Activities is missing or absent from the box. |
| ShowApps.Sync | app/panel/showapps.js:61-109 | Disabled: the button is destroyed and Activities shown. Enabled with a known position: the button is in the box exactly once. Activities is hidden for "replace" and shown for "after" and "before". An unknown position leaves Activities as it was. |
| ShowApps.SyncPlacement | app/panel/showapps.js:95-108 | With Activities in the box, "replace" and "before" put the button where Activities was and Activities just after it. "after" puts the button just after Activities. |
| ShowApps.SyncWithoutActivities | app/panel/showapps.js:85-108 | Without Activities in the box, "replace" and "before" put the button first. |
| ShowApps.SyncKeepsOthers | app/panel/showapps.js:79-108 | `_sync` moves only the button: the other children stay, in order. |
| ShowApps.SyncIdempotent | app/panel/showapps.js:61-109 | Re-running `_sync` with unchanged settings gives the same box. |
| ShowApps.SyncAsWritten | app/panel/showapps.js:84-108 | As written, the box is arranged as if there were no Activities button, because `indexOf` looks for the button and the box holds its container. Activities is still shown or hidden as the position demands. |
| ShowApps.SyncAsWrittenAfterLandsBefore | app/panel/showapps.js:88 | As written, with another indicator before Activities, "after" puts the button before Activities. Through the container it goes just after Activities. |
| ShowApps.Disable | app/panel/showapps.js:44-59 | `disable` shows Activities and removes the button. |
| ShowApps.DisableMatchesSyncOff | app/panel/showapps.js:44-71 | `disable` leaves the box as `_sync` does with the feature switched off. |
| ShowApps.OnPress | app/panel/showapps.js:126-153 | Without settings the press propagates. Action 1 hides the overview when the app grid is open and shows the app grid otherwise. Any other action toggles the overview. |
| GeometryManager.LoadCache | app/components/geometry.js:46-54 | A stored object is the cache. Text that does not parse (the `catch`) or parses to a falsy value (the empty-object fallback) gives the empty cache. |
| GeometryManager.Start | app/components/geometry.js:8-16 | Enabling starts with no tracked windows, no pending save, and the cache loaded from the store. |
| GeometryManager.Restore | app/components/geometry.js:78-91 | A window is moved exactly when its class is non-empty, cached, and its saved rectangle is larger than 50 × 50. It is moved to that rectangle. |
| GeometryManager.ChangeThenRestore | app/components/geometry.js:78-111 | After an accepted change, any window of the same class is restored to the recorded frame when it is larger than 50 × 50, and not moved otherwise. |
| GeometryManager.RestoreAfterRestart | app/components/geometry.js:8-16 | Once the debounced save has fired, a manager enabled afresh from the store restores the recorded frame for a window of the same class. |
| GeometryManager.OnWindowCreated | app/components/geometry.js:56-76 | With saving on, every window but a missing one or the desktop is restored and tracked. Otherwise nothing changes. |
| GeometryManager.HookAll | app/components/geometry.js:26-28 | Hooking the existing windows tracks exactly those `_onWindowCreated` accepts. It requests one move per window: with saving on, a window that is present and not the desktop goes to its class's cached rectangle under the `Restore` rule, and every other window stays put. |
| GeometryManager.EnableAfterSave | app/components/geometry.js:13-28 | Once the save of an accepted change has fired, enabling again moves every existing window of that class to the recorded frame, when the frame is larger than 50×50. |
| GeometryManager.OnWindowChanged | app/components/geometry.js:93-122 | An accepted change records the frame rectangle and time under the window class and replaces the pending save by a new one. A rejected change does nothing. A change is accepted when saving is on, the window is neither maximized nor fullscreen, and it has a class. |
| GeometryManager.ChangeKeepsOthers | app/components/geometry.js:105-111 | A change touches only its own window class's entry. |
| GeometryManager.SaveToDisk | app/components/geometry.js:124-133 | The save clears the pending id and writes the whole cache. |
| GeometryManager.TimerFired | app/components/geometry.js:114-121 | Only the scheduled save runs. A removed source never fires. |
| GeometryManager.SaveLoadRoundTrip | app/components/geometry.js:46-54 | `_saveToDisk` stores the cache as an object, which is truthy even when empty. So a later `_loadCache` gets the cache back and never the empty-object fallback. |
| GeometryManager.DebounceKeepsLastSave | app/components/geometry.js:113-121 | After an accepted change the replaced save no longer fires. The new one writes a cache holding the change. |
| GeometryManager.CleanupWindows | app/components/geometry.js:135-144 | Cleanup forgets every tracked window and touches nothing else. |
| GeometryManager.OnEnabledChanged | app/components/geometry.js:31-35 | Switching saving off cleans up the tracked windows. Switching it on changes nothing. |
| GeometryManager.Disable | app/components/geometry.js:38-44 | `onDisable` drops the pending save and the tracked windows and keeps the store. |
| GeometryManager.DisableDropsPendingSave | app/components/geometry.js:38-44 | After `onDisable` no timer can write the store. |
| Corners.EffectiveRadius | app/components/corners.js:43-44 | The flat look forces radius 0. Otherwise the configured radius is used. |
| Corners.RemoveBetween | app/components/corners.js:156-157 | Cleaning never lengthens the text. |
| Corners.NoStartKept | app/components/corners.js:156-157 | A text without the start marker is left as it is. |
| Corners.RemoveBlocksNoMarker | app/components/corners.js:156-157 | A text without the extension's start marker is left as it is. |
| Corners.RemoveStep | app/components/corners.js:156-157 | When a start marker is found and an end marker follows it, the first match runs from that start to that end, and the search resumes after it. |
| Corners.RemoveLeadingBlock | app/components/corners.js:156-157 | Take a block preceded by text that has no start marker and ends a line, whose body has no end marker. The block is cut out along with one following line break. The text before it is kept unchanged. |
| Corners.WriteConfig | app/components/corners.js:141-175 | Empty content only cleans the file. Other content is appended to the cleaned text, with a line break between them exactly when the text is non-empty and does not end in one. |
| Corners.Separator | app/components/corners.js:161 | The inserted separator is a line break exactly when the kept text is non-empty and does not end in one, and is empty otherwise. |
| Corners.GtkRulesWellFormed | app/components/corners.js:105-129 | The rules `_syncGtk` writes never contain the end marker and end in a line break. Cleaning therefore stops exactly at the written end marker. |
| Corners.RulesHaveNoLetterO | app/components/corners.js:105-129 | The generated rules contain no capital O for any radius. The end marker does contain one. |
| Corners.ReapplyBlock | app/components/corners.js:156-162 | Writing a block and then cleaning leaves the kept text, its separator and one extra line break. A second write appends the block after that line break, so the rewrite is not idempotent. |
| Corners.ReapplyLeavesLineBreak | app/components/corners.js:103-162 | The same holds for the block `_syncGtk` writes, for every radius. |
| Corners.CleanOnlyRemoves | app/components/corners.js:135-139 | `_cleanGtkConfig` only removes blocks. A file without a start marker is unchanged. |
| Corners.SyncGtk | app/components/corners.js:33-51 | Disabled: both files are cleaned. Enabled: each file is its old text with the blocks removed, a separating newline where needed, and the block for the effective radius at the end. |
| Corners.AppendedEndsWith | app/components/corners.js:160-163 | Non-empty content always ends the written file. |
| Corners.EscapeRoundTrip | app/components/corners.js:177-179 | Unescaping an escaped text gives it back. A text without special characters is unchanged by escaping. |
| Corners.EscapeLength | app/components/corners.js:177-179 | Escaping adds exactly one backslash per special character. |
| Order.BeforeTotal | app/page/geometry.js:70 | Any two strings are ordered one way or the other by the default string order of `sort()`. |
| Order.BeforeAntisymmetric | app/page/geometry.js:70 | Strings ordered both ways are equal. |
| Order.BeforeTransitive | app/page/geometry.js:70 | The order is transitive. |
| Order.Sort | app/page/geometry.js:70 | `keys.sort()` is a permutation of the keys. |
| Order.SortSorted | app/page/geometry.js:70 | The result of `keys.sort()` is in ascending order of the keys' UTF-16 code units. |
| Order.Units | app/page/geometry.js:70 | A character below U+10000 is one code unit of its own value. Any other character is a high and a low surrogate that together encode it. |
| Order.Utf16Injective | app/page/geometry.js:70 | Strings with the same code units are the same string, so comparing code units orders distinct strings. |
| Order.AstralBeforeLastBmp | app/page/geometry.js:70 | U+10000 sorts before U+FFFF, as its surrogate pair starts at 0xD800. |
| Order.BeforeOneUnit | app/page/geometry.js:70 | Below U+10000, single characters compare by their own values. |
| Order.SortUnique | app/page/geometry.js:70 | Every sorted permutation of the keys equals `Sort`'s result, so the choice of sorting algorithm does not matter. |
| Order.SortMembers | app/page/geometry.js:70 | Sorting keeps the length and exactly the same keys. |
| Styles.BundledPart | app/components/styles.js:40-54 | Bundled files are loaded exactly for the enabled names whose file exists. |
| Styles.CustomPart | app/components/styles.js:56-75 | Custom files are loaded exactly for the enabled custom entries whose file exists. |
| Styles.WantedOrder | app/components/styles.js:40-75 | All bundled files are loaded before any custom file. |
| Styles.BundledAppend | app/components/styles.js:42-54 | Names are handled one by one in settings order. A missing file is skipped without affecting the others. |
| Styles.CustomAppend | app/components/styles.js:59-72 | Custom entries are handled one by one in settings order. |
| Styles.DisabledCustomSkipped | app/components/styles.js:60 | A switched-off custom style contributes nothing. |
| Styles.RemoveStyles | app/components/styles.js:80-89 | Every tracked file is unloaded and the list emptied. Other stylesheets in the theme stay loaded. |
| Styles.ApplyStyles | app/components/styles.js:32-78 | After `_applyStyles` the tracked list is the wanted files. The theme holds them plus whatever it held that was not ours. |
| Styles.ApplyIdempotent | app/components/styles.js:32-78 | Re-applying with the same settings changes nothing, so loads never pile up. |
| Styles.Disable | app/components/styles.js:27-30 | After `onDisable` none of our files is loaded and nothing is tracked. Others' stylesheets are untouched. |
| Styles.EnableDisableRestoresTheme | app/components/styles.js:9-30 | Enabling and then disabling gives back the original theme, provided it did not already hold one of our files. |
| StyleCompose.FileCssAppend | core/styleManager.js:41-57 | Directory entries contribute in enumeration order. Once a `.css` read throws, nothing after it is gathered. |
| StyleCompose.FileCssSingle | core/styleManager.js:44-52 | One entry contributes its text plus a newline exactly when it is a `.css` file that reads successfully. |
| StyleCompose.NonCssIgnored | core/styleManager.js:45 | A file not ending in `.css` never affects the result. |
| StyleCompose.Compose | core/styleManager.js:27-67 | With the custom theme off the provider gets the empty string. With it on, the text is the snippet alone when custom styles are off or the directory is missing. Otherwise it is the text of the listed `.css` files followed by the `custom-css` snippet. |
| StyleCompose.ComposeFilesFirst | core/styleManager.js:33-64 | With both switches on, the file texts come first, each newline-terminated, and the snippet last. |
| Wallpaper.Set | app/components/wallpaper.js:55-59 | Setting one background key changes that key and no other. |
| Wallpaper.Snapshot | app/components/wallpaper.js:24-30 | The backup object holds exactly the five background keys, each with its current value. |
| Wallpaper.Backup | app/components/wallpaper.js:17-41 | A backup is written only when none exists. An existing one is kept. |
| Wallpaper.RestoreKey | app/components/wallpaper.js:55-59 | A restore line changes at most its own key. |
| Wallpaper.RestoreAll | app/components/wallpaper.js:55-59 | Each key gets its saved value when that value is a non-empty string, and keeps its current value otherwise. |
| Wallpaper.Restore | app/components/wallpaper.js:43-68 | A usable backup is written back and the file deleted. A missing or unparseable backup changes nothing. |
| Wallpaper.BackupRestoreRoundTrip | app/components/wallpaper.js:8-68 | Whatever is set in between, disable gives each key the non-empty value saved at enable, and removes the backup. |
| Wallpaper.BackupRestoreExact | app/components/wallpaper.js:8-68 | When all saved values are non-empty, an enable/disable cycle restores the background settings exactly. |
| Wallpaper.StaleBackupKept | app/components/wallpaper.js:21 | A backup left over from an earlier session wins over the current values. |
| Component.Construct | app/components/base.js:10-15 | A new component has no settings, no signals and is disabled. |
| Component.GetSettings | app/components/base.js:20-29 | An existing settings object is returned as is. Otherwise one is made for the configured schema, or for the default schema when that throws, and then cached. |
| Component.GetSettingsCached | app/components/base.js:20-29 | Once made, later calls return the same object whatever the schema lookup would give. |
| Component.Observe | app/components/base.js:36-40 | Exactly one handler is connected on the settings object and exactly one record of it appended. Earlier records are kept. |
| Component.Enable | app/components/base.js:45-48 | Enabling sets the flag. Each of the `n` observations adds one fresh handler on the shared settings object, in order. |
| Component.Cleanup | app/components/base.js:72-76 | Every recorded handler is disconnected, other handlers stay connected, and the list and settings object are dropped. |
| Component.Disable | app/components/base.js:53-57 | `disable` clears the flag and cleans up, and the records stay consistent. |
| Component.EnableDisableRoundTrip | app/components/base.js:10-76 | A fresh component that is enabled and then disabled leaves exactly the handlers connected before it, and no settings object. |
| Config.Init | app/config.js:36-49 | `init` spreads the given metadata over the current one. A falsy name becomes the default title, and the prefix brackets the resulting name. |
| Config.InitDebug | app/config.js:41 | `debug` keeps a given `false`, `0` or `""`. Only a missing or null value becomes `false`. |
| Config.InitAppId | app/config.js:48 | `appId` reads only this call's metadata: `uuid`, then `application-id`, then the default id. |
| Config.Uuid | app/config.js:51-53 | The `uuid` getter is the metadata uuid when truthy, else the default id. |
| Config.Name | app/config.js:55-57 | The `name` getter is the metadata name when truthy, else the default title. |
| Config.SchemaId | app/config.js:59-65 | `settings-schema` is preferred, then `schema-id`, then the extension's own schema. The result is always truthy. |
| Config.Developer | app/config.js:67-69 | The `developer` getter is the metadata developer name when truthy, else "Lethil". |
| Config.InitNamePrefix | app/config.js:43-57 | After `init`, the prefix and the `name` getter agree. |
| Config.FirstInitSchema | app/config.js:25-34 | On a first `init` without `schema-id`, the schema is `settings-schema` when non-empty and the default otherwise. |
| About.LabelText | app/page/about.js:31-34 | A label shows a string value as is, and nothing for `null` or `undefined`. |
| About.MakeHeader | app/page/about.js:19-34 | The logo is the `build_filenamev` path of `app/icon/icon.svg` under the root when that file exists, else the generic executable icon. The version is prefixed with "v". A falsy developer name shows "Unknown Developer" and a falsy description shows nothing. |
| About.IconPathSpec | app/page/about.js:20-21 | The icon path is the root without its trailing slashes, one '/', then `app/icon/icon.svg`. A root made only of slashes is kept whole, and the empty root gives the relative path. |
| About.BuildFilenameEmptyEnds | app/page/about.js:20-21 | Empty elements are skipped before the ends are taken: `["", "/a"]` gives "/a" and `["a/", ""]` gives "a/". |
| About.IconPathAtFilesystemRoot | app/page/about.js:20-21 | At the filesystem root the separators collapse: the path is `/app/icon/icon.svg`. |
| About.Base | app/page/about.js:74 | The base is the site URL minus at most one trailing slash. |
| About.Path | app/page/about.js:75 | The path is the link minus at most one leading slash. |
| About.Resolve | app/page/about.js:69-77 | `http://` and `https://` links, and every link when the site URL is empty, are used unchanged. |
| About.ResolveSeam | app/page/about.js:73-77 | Relative links are joined to the site URL with exactly one slash, whether either side already had one. |
| About.ResolveIdempotent | app/page/about.js:69-77 | With a web site URL, resolving an already resolved link changes nothing. |
| About.Capitalise | app/page/about.js:79 | Capitalising a word keeps its length. |
| About.Unify | app/page/about.js:79 | Unifying the separators keeps the key's length and non-separator characters. The separator positions are exactly those of `-` and `_`. |
| About.TitleOfUnified | app/page/about.js:79 | On a key with `-` separators only, splitting, capitalising and joining equals the per-character title. |
| About.LinkTitleSpec | app/page/about.js:79 | The row title has the key's length. Each `-` or `_` becomes a space, each word's first character is upper-cased, and every other character is kept. |
| About.LinkRows | app/page/about.js:68-81 | One row per link entry, in entry order, each with its derived title and resolved URL. |
| About.DocGroup | app/page/about.js:48-84 | The documentation group exists exactly when there is at least one link. |
| SettingsIO.Accepted | app/util/io.js:60-81 | A key is written exactly when the schema lists it and its value converts, and it is written with the file's value. |
| SettingsIO.Import | app/util/io.js:43-92 | A syntax error yields its own message. Missing settings or metadata yields "Invalid configuration file format.". Success reports the number of keys written, and only schema keys are ever written. |
| SettingsIO.ImportWrites | app/util/io.js:60-81 | On a well-formed file, an unknown key or a failed conversion skips only that key. |
| SettingsIO.SuccessMessageCount | app/util/io.js:86 | The success message determines the imported count. |
| SettingsIO.Export | app/util/io.js:12-31 | The export holds metadata of version 1 and every schema key with its current value, and no other key. |
| SettingsIO.ExportImportRoundTrip | app/util/io.js:12-92 | Importing an export under the same schema, with values that convert, writes back exactly every key with its exported value. |
| ShellWindow.Titles | ui/window.js:154-163 | Above 390 pixels both title and subtitle are shown. Above 250 only the title is shown. Below that neither is. |
| ShellWindow.Round | ui/window.js:174 | `Math.round` gives the nearest integer, with halves rounded up. |
| ShellWindow.Clamp | ui/window.js:173 | The clamped value lies in range and equals the input when the input is in range. |
| ShellWindow.SidebarWidth | ui/window.js:172-174 | The unfolded sidebar width is always between 180 and 250. It is 180 or 250 at the ends of the range. |
| ShellWindow.SidebarWidthBand | ui/window.js:172-174 | Within the band, the sidebar width is 28% of the window rounded to the nearest pixel. |
| ShellWindow.SidebarWidthMonotone | ui/window.js:172-174 | A wider window never gets a narrower sidebar. |
| ShellWindow.OverlayWidth | ui/window.js:178-184 | Up to 250 wide, the folded overlay is the window less the 50-pixel margin. Beyond that it is 250. |
| ShellWindow.Allocate | ui/window.js:149-188 | Unfolded: the flap is revealed and sized proportionally. Folded: the reveal state is kept and the overlay width used. The titles follow the width. |
| ShellWindow.Rows | ui/window.js:100-135 | Every group and page entry adds its row, including a page whose content class is missing. Every row comes from some entry. |
| ShellWindow.StackNames | ui/window.js:128-130 | The view stack holds exactly the pages that have a content class. |
| ShellWindow.FirstPage | ui/window.js:137 | The result is the first page entry, or none when there is no page. |
| ShellWindow.LastRowNamed | ui/window.js:125-142 | The row found for a name is the last page row with that name. |
| ShellWindow.ShownChild | ui/window.js:139 | The stack shows the requested child when it has one with that name, and otherwise keeps its first child. The shown child is always one of the stack's children. |
| ShellWindow.Populate | ui/window.js:97-147 | The first page is requested as the visible child and used as subtitle. The stack shows it when it has content. Otherwise it shows the first page that has content, or nothing. The selected row is the last row with the first page's name. With no page, nothing is shown or selected. |
| ShellWindow.BrokenFirstPageShowsNext | ui/window.js:127-139 | A first page without content leaves "home", the next page, visible, while the subtitle still names the first page. |
| ShellWindow.MissingContentRowOnly | ui/window.js:118-131 | A page without a content class gets a sidebar row but no stack child. |
| ShellWindow.RowsAppend | ui/window.js:100-135 | Rows are built entry by entry, so two registrations in sequence give their rows in sequence. |
| ShellWindow.OnlyPagesSelectable | ui/window.js:102-126 | A row is selectable exactly when it came from a page entry. |
| Tabs.AddTabAsWritten | ui/window-cgpt.js:134-167 | As written, `_addTab` appends the next numbered tab, checks and shows it, and leaves earlier buttons as they were. |
| Tabs.AddTabAsWrittenTwoActive | ui/window-cgpt.js:164 | As written, two tabs added in a row are both left checked. |
| Tabs.AddTab | ui/window-cgpt.js:134-167 | The next numbered tab is appended and shown, it is the only checked tab, and earlier tabs are otherwise unchanged. |
| Tabs.AddTabs | ui/window-cgpt.js:120-123 | The k-th tab added to a fresh window is number k. The last one is shown and is the only checked tab. |
| Tabs.NamesDistinct | ui/window-cgpt.js:135-137 | Distinct counter values give distinct page names and distinct titles. |
| Tabs.AddTabsDistinct | ui/window-cgpt.js:135 | Tabs added to a fresh window have distinct numbers. |
| Tabs.Click | ui/window-cgpt.js:156-159 | A click shows the tab's page and checks exactly its button. |
| Tabs.OpenActionAsWritten | ui/window-cgpt.js:233-236 | As written, an overflow action shows and checks its tab and leaves every other tab as it was. An unknown action does nothing. |
| Tabs.OpenActionAsWrittenTwoActive | ui/window-cgpt.js:235 | As written, opening a hidden tab from the menu leaves the previously checked tab checked too. |
| Tabs.OpenAction | ui/window-cgpt.js:233-236 | An overflow action shows its tab and checks exactly the tab with its number. |
| Tabs.OpenActionExclusive | ui/window-cgpt.js:233-236 | With distinct tab numbers, an action for a present tab leaves exactly one tab checked. |
| Tabs.Total | ui/window-cgpt.js:186-190 | The measured total is at least the spacing of every tab. |
| Tabs.ShrinkWidth | ui/window-cgpt.js:194-197 | The shrink width is never below 80. |
| Tabs.ShrinkFits | ui/window-cgpt.js:193-198 | Unless the 80-pixel minimum wins, the shrunk tabs with their spacing fit the available width, and one more pixel each would not. |
| Tabs.HiddenFrom | ui/window-cgpt.js:202-211 | The loop yields one hidden flag per tab. |
| Tabs.HiddenFromSpec | ui/window-cgpt.js:202-211 | Tab i is hidden exactly when the widths of tabs 0 to i, spacing included, exceed the available width. |
| Tabs.TotalCons | ui/window-cgpt.js:186-190 | The running total splits off the first tab's width and spacing. |
| Tabs.TotalPrefixMonotone | ui/window-cgpt.js:202-211 | The running total never decreases along the bar. |
| Tabs.HiddenSuffix | ui/window-cgpt.js:202-211 | Once a tab overflows, every tab after it overflows too. |
| Tabs.HiddenIndices | ui/window-cgpt.js:203-210 | The hidden list holds exactly the hidden tabs, in bar order. |
| Tabs.ActionNameInjective | ui/window-cgpt.js:216 | Distinct menu positions get distinct `open_tab_` action names. |
| Tabs.ActionNameFresh | ui/window-cgpt.js:230-239 | No earlier action shares the name of the next one added. |
| Tabs.ActionsForStep | ui/window-cgpt.js:230-239 | Adding the action of one more hidden tab keeps the map exactly the actions for the hidden tabs so far. |
| Tabs.ActionMap | ui/window-cgpt.js:230-239 | The added actions are exactly `open_tab_0`, `open_tab_1`, …, one per hidden tab, each opening that tab. |
| Tabs.ActionNames | ui/window-cgpt.js:227-238 | `_currentActions` is `open_tab_j` at each position j. |
| Tabs.HiddenNumbers | ui/window-cgpt.js:203-210 | The j-th hidden tab is the tab at the j-th hidden index. |
| Tabs.Menu | ui/window-cgpt.js:213-220 | Menu entry j shows the j-th hidden tab's title and fires `win.open_tab_j`. |
| Tabs.ReplaceActions | ui/window-cgpt.js:222-239 | As intended, with old actions removed by name: each hidden tab has its action, and every new action is one of them. An old recorded name survives only if it is reused. Actions never recorded are untouched. |
| Tabs.Compact | ui/window-cgpt.js:241-251 | A tab is compact exactly when its allocated width is positive and below 90. |
| Tabs.Request | ui/window-cgpt.js:192-199 | Tabs get a size request exactly when their natural widths with spacing exceed the available width, and the request is the shrink width. |
| Tabs.UpdateTabs | ui/window-cgpt.js:169-256 | As intended: the pass returns early, changing nothing, exactly when the bar has no width or no width is left after the overflow button (counted as 30 when unallocated). Otherwise it yields the request, hidden flags, menu, replaced actions and compact flags above. The bar shows exactly from 450 pixels. |
| Tabs.UpdateMenuMatchesActions | ui/window-cgpt.js:213-239 | As intended, menu entry j, action `open_tab_j` and `_currentActions[j]` all refer to the j-th hidden tab. |
| Tabs.UpdateReplacesActions | ui/window-cgpt.js:222-239 | As intended, when every window action came from the previous pass, the actions after a pass are exactly one per menu entry. |
| Tabs.UpdateTabsAsWritten | ui/window-cgpt.js:169-256 | As written, a pass that meets a recorded action still registered stops at `remove_action`. The hidden flags, request and menu are new, but the actions, `_currentActions`, compact flags and bar state stay as before. Without such an action it is the intended pass. |
| Tabs.UpdateTabsAsWrittenStaleMenu | ui/window-cgpt.js:225 | As written, after a pass that hid tabs 2 and 3, a pass hiding only tab 3 shows a menu entry "Tab 3" whose action opens tab 2. |

## Left out

- Widget, actor and CSS-provider construction, property bindings, easing and idle or timeout scheduling are host glue. Pending timers appear only as an optional id.
- File and settings I/O: existence tests, reads, writes, directory enumeration, file monitors and `JSON.parse`/`JSON.stringify` text. The model takes their results as inputs: parsed values, maps and entry lists.
- Floating point is left out: dock opacity, easing, RGBA channel floats. Halved coordinates and the 0.28 sidebar proportion use Dafny `real`, without IEEE rounding.
- `toLowerCase`/`toUpperCase` are modelled on ASCII letters only. Unicode case mapping is left out.
- `GLib.DateTime.format` (strftime) and `GLib.markup_escape_text` are foreign calls. The clock model takes them as function parameters, and takes whether `set_markup` accepts a markup string as the parameter `markupAccepted`.
- Clock.UpdateClockText: the dimmed markup is set from an idle callback. The model gives the view that callback leaves, not the moment before it runs.
- Clock.UpdateClockText: with a `null` text the dimmed path turns markup on before the escaping throws. The model keeps the time label's content and does not model that flag, which changes how the old text is read.
- Dock: `_updateIconSizes`, the mouse enter/leave opacity handlers and the widget parts of `_updateLayout` are widget glue. Only the vertical-layout rule is modelled.
- Corners: `_syncShell`, `_unloadShellStyles` and `_cleanupShellFile` write a stylesheet and load it into the St theme. That is file and theme I/O, left out. The rewrite's `catch` that logs a failed write is not modelled either.
- Corners.RemoveLeadingBlock: text outside marker blocks is proved unchanged only for the text before the first block. Later text is described by the recursive definition rather than by a separate lemma.
- ShowApps: `_updateIcon` reads an icon file and sets a widget property, so it is left out.
- GeometryManager.LoadCache: a truthy stored value that is not an object (`true`, a number, a string, an array) would become the cache as it is. The model's stored value is unparsable, falsy or an object of entries, so such values are not modelled.
- GeometryManager: the `last_seen` time is the parameter `now`. Signal ids of tracked windows are not modelled beyond the set of tracked windows.
- GeometryPage.Destroy: the handler disconnects the change signal and clears `activeRows`, but never clears `updateTimeout`. An update pending at destroy still fires and runs `updateList` on the destroyed group. The model does not hold the disconnected signal as page state.
- GeometryPage: the stored object is a list of window classes with rectangles. Two kinds of stored data cannot be represented:
  - A truthy non-object `geometry-data`. A string, for example, gives rows named by its indices, with `undefined` in their subtitles.
  - An entry whose value is `null`. There `info.w` throws in `updateList`. Inside the timeout, `updateTimeout = null` then never runs, so the page ignores every later change.

  None of this is modelled.
- SettingsIO: `Object.entries` of an array or string `settings` value gives no entries here. Those index keys never match a schema key, which always starts with a letter.
- SettingsIO: whether `new GLib.Variant(type, value)` accepts a value is the input `convertible`. An exception raised by `new Gio.Settings` itself is not modelled.
- SettingsIO.Export: the `null` returned on an export failure and the JSON text layout are not modelled. The export date is an input string.
- StyleCompose: the constructor's early return without GSettings and an exception from the enumeration itself are not modelled. Only a throwing file read ends the file list.
- ShellWindow: the `row-activated` handler, the stylesheet text and the `overlay-visible` CSS class toggle are widget glue. `showBasedOnWindowWidth` is taken as its configured value `true`.
- Tabs.AddTab: the `_updateTabs` call at the end of `_addTab` is not folded into `AddTab`. That layout pass is `UpdateTabs` as intended and `UpdateTabsAsWritten` as written, both taking the widget measurements as inputs.
- Tabs.UpdateTabsAsWritten: the TypeError also ends the caller (`_addTab` or the size allocation) after its own work. That propagation is not modelled.
- Component: `onEnable` is modelled as `n` calls to `observe` and `onDisable` as doing nothing at base level. The subclasses' own hooks are the other modules.
- Config: `init` spreads the given metadata over the current metadata, not over a fresh copy of the defaults. A second `init` therefore still sees keys from the first. The model follows this.
- `app/ext/styles.js` and `app/ext/wallpaper.js` are older copies of the `app/components` files with the same algorithms. They are not modelled separately.
- The standalone demo windows, `extension.js`, the packaging scripts, the logger, the indicator, `prefs*.js` and the settings-binding pages are host wrappers or static data, so they are not modelled.

## Findings

| source | as written | input that shows it | evidently intended | confidence | as-written member | corrected member |
|---|---|---|---|---|---|---|
| ui/window-cgpt.js:164 | `_addTab` checks the new tab's toggle button but leaves every earlier button checked. Only a click runs the handler that unchecks the others. | Two `_addTab` calls on a fresh window: tabs 1 and 2 are both checked | Exactly the new tab is checked, as after a click | medium, not executed | Tabs.AddTabAsWrittenTwoActive | Tabs.AddTabs |
| ui/window-cgpt.js:235 | An `open_tab_i` action checks its tab but leaves the previously checked tab checked. | Tabs 1 (checked) and 2 (hidden, `open_tab_0`): activating `open_tab_0` leaves both checked | Exactly the opened tab is checked | medium, not executed | Tabs.OpenActionAsWrittenTwoActive | Tabs.OpenActionExclusive |
| ui/window-cgpt.js:225 | `remove_action` is passed the action object, but it takes the action's name, so GJS throws a TypeError. A pass after one that registered actions stops there. The menu is new, but the old actions stay. | Tabs 2 and 3 hidden, then only tab 3: the entry "Tab 3" fires `open_tab_0`, which still opens tab 2 | Old actions removed by name, so menu entry j opens the j-th hidden tab | medium, not executed | Tabs.UpdateTabsAsWrittenStaleMenu | Tabs.UpdateMenuMatchesActions |
| app/panel/showapps.js:88 | `indexOf(this._activitiesButton)` searches the left box, which holds the indicator's container, not the button. It returns -1 and the anchor falls back to 0. | Another indicator before Activities, position "after": the button lands before Activities | The index of Activities' container, as the clock's `_move` looks it up | medium, not executed | ShowApps.SyncAsWrittenAfterLandsBefore | ShowApps.SyncPlacement |
| app/components/clock.js:158 | The `catch` around `now.format(format)` is meant to fall back to the original clock text. `GLib.DateTime.format` returns `null` for an unsupported format instead of throwing, so the fallback never runs and the `null` reaches the labels. | Custom mode with the format "%Q": the multiline clock keeps its old labels, and the plain clock goes empty | A failed format shows the original clock text. The corrected text also guards an empty formatted result, showing it as a single space like the labels' other fallbacks, which the `catch` alone would not | medium, not executed | Clock.NullFormatStaleClock | Clock.GuardedClockIsFresh |

=== FILE: about.dfy ===
/** The About page (app/page/about.js): the header labels taken from the
    metadata, and the documentation rows built from `metadata.links`, each
    with a title made from its key and a URL resolved against
    `metadata.url`. Widgets are reduced to the text they show. */
module About {
  import opened Wrappers
  import opened Text
  import opened Js

  // ---------------------------------------------------------------- header

  /** The logo: the bundled icon file when it exists, else a themed icon. */
  datatype Logo = IconFile(path: string) | IconName(name: string)

  datatype Header = Header(logo: Logo, name: string, version: string, developer: string, description: string)

  /** What a `Gtk.Label` shows for a `label:` value: `null` and `undefined`
      show nothing. */
  function LabelText(v: Value): (r: string)
    ensures v.Str? ==> r == v.s
    ensures v == Undefined || v == Null ==> r == ""
  {
    if v == Undefined || v == Null then "" else ToStr(v)
  }

  /** The header section; `root` is `AppConfig.path || GLib.get_current_dir()`. */
  function MakeHeader(metadata: map<string, Value>, root: string, iconExists: bool): (h: Header)
    ensures h.logo == if iconExists then IconFile(IconPath(root)) else IconName("application-x-executable")
    ensures h.version == "v" + ToStr(Get(metadata, "version"))
    ensures !Truthy(Get(metadata, "developer-name")) ==> h.developer == "Unknown Developer"
    ensures Get(metadata, "developer-name").Str? && Truthy(Get(metadata, "developer-name")) ==> h.developer == metadata["developer-name"].s
    ensures !Truthy(Get(metadata, "description")) ==> h.description == ""
    ensures h.name == LabelText(Get(metadata, "name"))
  {
    var logo := if iconExists then IconFile(IconPath(root)) else IconName("application-x-executable");
    Header(logo,
           LabelText(Get(metadata, "name")),
           "v" + ToStr(Get(metadata, "version")),
           LabelText(Or(Get(metadata, "developer-name"), Str("Unknown Developer"))),
           LabelText(Or(Get(metadata, "description"), Str(""))))
  }

  // ---------------------------------------------------------------- file paths

  /** Number of '/' the text starts with. */
  function LeadCount(s: string): (c: nat)
    ensures c <= |s|
    ensures c < |s| ==> s[c] != '/'
  {
    if |s| > 0 && s[0] == '/' then 1 + LeadCount(s[1..]) else 0
  }

  /** Number of '/' the text ends with. */
  function TrailCount(s: string): (c: nat)
    ensures c <= |s|
    ensures c < |s| ==> s[|s| - c - 1] != '/'
    decreases |s|
  {
    if |s| > 0 && s[|s| - 1] == '/' then 1 + TrailCount(s[..|s| - 1]) else 0
  }

  /** A path element with the separators at both of its ends removed. */
  function Strip(s: string): string
  {
    var t := s[LeadCount(s)..];
    t[..|t| - TrailCount(t)]
  }

  /** The stripped elements that are not empty, in order. */
  function Inner(parts: seq<string>): seq<string>
  {
    if |parts| == 0 then []
    else (if Strip(parts[0]) == "" then [] else [Strip(parts[0])]) + Inner(parts[1..])
  }

  /** The elements that are not the empty string, in order. */
  function NonEmpty(parts: seq<string>): (r: seq<string>)
    ensures forall k :: 0 <= k < |r| ==> r[k] != ""
  {
    if |parts| == 0 then []
    else (if parts[0] == "" then [] else [parts[0]]) + NonEmpty(parts[1..])
  }

  /** `GLib.build_filenamev` on a '/' system. Empty elements are skipped
      altogether. Of the rest: the first one's leading separators, then
      the elements with the separators at their ends stripped, those left
      empty skipped, joined with one '/', then the last one's trailing
      separators. A lone element made only of separators is returned as it
      is. */
  function BuildFilename(parts: seq<string>): string
  {
    var ps := NonEmpty(parts);
    if |ps| == 0 then ""
    else if |ps| == 1 && LeadCount(ps[0]) == |ps[0]| then ps[0]
    else
      var first, last := ps[0], ps[|ps| - 1];
      first[..LeadCount(first)] + Join(Inner(ps), "/") + last[|last| - TrailCount(last)..]
  }

  /** Empty elements do not decide the ends: the leading separators come
      from the first non-empty element and the trailing ones from the last. */
  lemma {:induction false} BuildFilenameEmptyEnds()
    ensures BuildFilename(["", "/a"]) == "/a"
    ensures BuildFilename(["a/", ""]) == "a/"
  {
    var p1: seq<string> := ["", "/a"];
    assert p1[1..][1..] == [];
    assert NonEmpty(p1) == ["/a"];
    assert "/a"[1..] == "a" && "/a"[..1] == "/";
    assert LeadCount("a") == 0;
    assert TrailCount("/a") == 0;
    assert Strip("/a") == "a";
    var p2: seq<string> := ["a/", ""];
    assert p2[1..][1..] == [];
    assert NonEmpty(p2) == ["a/"];
    assert "a/"[..1] == "a";
    assert TrailCount("a/") == 1;
    assert Strip("a/") == "a";
    assert "a/"[1..] == "/";
  }

  /** The bundled logo file under the extension root. */
  function IconPath(root: string): string
  {
    BuildFilename([root, "app", "icon", "icon.svg"])
  }

  /** Dropping a prefix that ends before a non-separator keeps the
      trailing separators. */
  lemma {:induction false} TrailCountSuffix(s: string, k: nat)
    requires k < |s| && s[k] != '/'
    ensures TrailCount(s[k..]) == TrailCount(s)
    decreases |s|
  {
    var n := |s| - 1;
    if s[n] == '/' {
      TrailCountSuffix(s[..n], k);
      assert s[k..][..n - k] == s[..n][k..];
    }
  }

  /** A text starting with a non-separator is not all separators. */
  lemma {:induction false} TrailCountBelow(s: string)
    requires |s| > 0 && s[0] != '/'
    ensures TrailCount(s) < |s|
    decreases |s|
  {
    var n := |s| - 1;
    if s[n] == '/' {
      assert s[..n][0] == s[0];
      TrailCountBelow(s[..n]);
    }
  }

  /** An element with no separator at either end is its own stripped
      form. */
  lemma {:induction false} StripPlain(s: string)
    requires |s| > 0 && s[0] != '/' && s[|s| - 1] != '/'
    ensures Strip(s) == s && TrailCount(s) == 0
  {
    assert s[0..] == s;
  }

  const IconRelative: string := "app/icon/icon.svg"

  /** The fixed elements after the root stay as they are. */
  lemma {:induction false} IconTailInner()
    ensures Inner(["app", "icon", "icon.svg"]) == ["app", "icon", "icon.svg"]
  {
    var tail: seq<string> := ["app", "icon", "icon.svg"];
    StripPlain("app");
    StripPlain("icon");
    StripPlain("icon.svg");
    assert tail[1..] == ["icon", "icon.svg"] && tail[1..][1..] == ["icon.svg"] && tail[1..][1..][1..] == [];
  }

  /** Joined, the fixed elements spell the path below the root. */
  lemma {:induction false} IconTailJoin()
    ensures Join(["app", "icon", "icon.svg"], "/") == IconRelative
  {
    var tail: seq<string> := ["app", "icon", "icon.svg"];
    assert tail[1..] == ["icon", "icon.svg"] && tail[1..][1..] == ["icon.svg"];
    assert Join(tail[1..], "/") == "icon" + "/" + "icon.svg";
  }

  /** Only an empty root is skipped. */
  lemma {:induction false} IconNonEmpty(root: string)
    ensures NonEmpty([root, "app", "icon", "icon.svg"])
            == (if root == "" then [] else [root]) + ["app", "icon", "icon.svg"]
  {
    var parts: seq<string> := [root, "app", "icon", "icon.svg"];
    var tail: seq<string> := ["app", "icon", "icon.svg"];
    assert parts[1..] == tail && tail[1..] == ["icon", "icon.svg"] && tail[1..][1..] == ["icon.svg"] && tail[1..][1..][1..] == [];
    assert NonEmpty(tail[1..][1..]) == ["icon.svg"];
    assert NonEmpty(tail[1..]) == ["icon", "icon.svg"];
  }

  /** The icon path is the root's leading separators and the joined inner
      elements: the last element has no trailing separator. */
  lemma {:induction false} IconPathUnfold(root: string)
    requires root != ""
    ensures IconPath(root) == root[..LeadCount(root)] + Join(Inner([root, "app", "icon", "icon.svg"]), "/")
  {
    var parts: seq<string> := [root, "app", "icon", "icon.svg"];
    IconNonEmpty(root);
    assert NonEmpty(parts) == parts;
    StripPlain("icon.svg");
    var last := parts[|parts| - 1];
    assert last == "icon.svg";
    assert last[|last| - TrailCount(last)..] == "";
  }

  /** An empty root is skipped, leaving the relative path. */
  lemma {:induction false} IconPathEmptyRoot()
    ensures IconPath("") == IconRelative
  {
    var tail: seq<string> := ["app", "icon", "icon.svg"];
    IconNonEmpty("");
    assert NonEmpty([""] + tail) == tail;
    assert [""] + tail == ["", "app", "icon", "icon.svg"];
    StripPlain("app");
    StripPlain("icon.svg");
    IconTailInner();
    IconTailJoin();
    assert "app"[..0] == "" && "icon.svg"[8..] == "";
  }

  /** The root contributes its stripped form unless that is empty. */
  lemma {:induction false} IconPathInner(root: string)
    ensures Inner([root, "app", "icon", "icon.svg"])
            == (if Strip(root) == "" then [] else [Strip(root)]) + ["app", "icon", "icon.svg"]
  {
    var parts: seq<string> := [root, "app", "icon", "icon.svg"];
    assert parts[1..] == ["app", "icon", "icon.svg"];
    IconTailInner();
  }

  /** Stripping the root and putting its leading separators back gives the
      root without its trailing separators; only a root made of separators
      strips to nothing. */
  lemma {:induction false} StripRoot(root: string)
    ensures LeadCount(root) == |root| ==> Strip(root) == ""
    ensures LeadCount(root) < |root| ==>
              Strip(root) != "" && root[..LeadCount(root)] + Strip(root) == root[..|root| - TrailCount(root)]
  {
    var l := LeadCount(root);
    if l < |root| {
      var t := root[l..];
      TrailCountSuffix(root, l);
      TrailCountBelow(t);
      assert root[..l] + t[..|t| - TrailCount(t)] == root[..|root| - TrailCount(root)];
    }
  }

  /** The icon path is the root with its trailing separators dropped and
      one '/' before `app/icon/icon.svg`. A root made only of separators
      is kept whole, and the empty root gives the relative path. */
  lemma {:induction false} IconPathSpec(root: string)
    ensures LeadCount(root) == |root| ==> IconPath(root) == root + IconRelative
    ensures LeadCount(root) < |root| ==> IconPath(root) == root[..|root| - TrailCount(root)] + "/" + IconRelative
  {
    if LeadCount(root) == |root| {
      IconPathSeparatorRoot(root);
    } else {
      IconPathNamedRoot(root);
    }
  }

  /** A root made only of separators is kept whole. */
  lemma {:induction false} IconPathSeparatorRoot(root: string)
    requires LeadCount(root) == |root|
    ensures IconPath(root) == root + IconRelative
  {
    if root == "" {
      IconPathEmptyRoot();
      return;
    }
    IconPathUnfold(root);
    IconPathInner(root);
    IconTailJoin();
    StripRoot(root);
    assert root[..LeadCount(root)] == root;
  }

  /** Any other root loses its trailing separators and gains one '/'. */
  lemma {:induction false} IconPathNamedRoot(root: string)
    requires LeadCount(root) < |root|
    ensures IconPath(root) == root[..|root| - TrailCount(root)] + "/" + IconRelative
  {
    var tail: seq<string> := ["app", "icon", "icon.svg"];
    IconPathUnfold(root);
    IconPathInner(root);
    StripRoot(root);
    var x := Strip(root);
    var l := LeadCount(root);
    JoinCons(x, tail);
    IconTailJoin();
    var joined := Join(Inner([root, "app", "icon", "icon.svg"]), "/");
    assert joined == x + "/" + IconRelative;
    assert IconPath(root) == root[..l] + joined;
    assert root[..l] + x == root[..|root| - TrailCount(root)];
  }

  /** Joining a longer list puts one separator after its first element. */
  lemma {:induction false} JoinCons(x: string, rest: seq<string>)
    requires |rest| > 0
    ensures Join([x] + rest, "/") == x + "/" + Join(rest, "/")
  {
    assert ([x] + rest)[1..] == rest;
  }

  /** At the filesystem root the separators collapse. */
  lemma {:induction false} IconPathAtFilesystemRoot()
    ensures IconPath("/") == "/" + IconRelative
  {
    assert "/"[1..] == "";
    assert LeadCount("/") == 1;
    IconPathSpec("/");
  }

  // ---------------------------------------------------------------- link URLs

  predicate IsFull(raw: string)
  {
    StartsWith(raw, "http://") || StartsWith(raw, "https://")
  }

  /** `metadata.url` with one trailing '/' removed. */
  function Base(url: string): (b: string)
    ensures url == (if EndsWith(url, "/") then b + "/" else b)
  {
    if EndsWith(url, "/") then url[..|url| - 1] else url
  }

  /** The link with one leading '/' removed. */
  function Path(raw: string): (p: string)
    ensures raw == (if StartsWith(raw, "/") then "/" + p else p)
  {
    if StartsWith(raw, "/") then raw[1..] else raw
  }

  /** A link's target: full `http://` or `https://` links, and every link
      when the base URL is empty, are used as they are; other links are
      joined to the base with one '/'. */
  function Resolve(raw: string, url: string): (r: string)
    ensures IsFull(raw) || url == "" ==> r == raw
  {
    if !IsFull(raw) && url != "" then Base(url) + "/" + Path(raw) else raw
  }

  /** Exactly one '/' sits between the base and the path: a slash the base
      ends with and one the link starts with merge, and one is added when
      neither has it. */
  lemma {:induction false} ResolveSeam(raw: string, url: string)
    requires !IsFull(raw) && url != ""
    ensures EndsWith(url, "/") && StartsWith(raw, "/") ==> Resolve(raw, url) == url + raw[1..]
    ensures EndsWith(url, "/") != StartsWith(raw, "/") ==> Resolve(raw, url) == url + raw
    ensures !EndsWith(url, "/") && !StartsWith(raw, "/") ==> Resolve(raw, url) == url + "/" + raw
  {
    var b, p := Base(url), Path(raw);
    if EndsWith(url, "/") && StartsWith(raw, "/") {
      assert url + raw[1..] == b + "/" + p;
    } else if EndsWith(url, "/") {
      assert url + raw == b + "/" + p;
    } else if StartsWith(raw, "/") {
      assert url + raw == b + "/" + p;
    }
  }

  /** A resolved link is resolved again to itself when the base URL is a
      web address. */
  lemma {:induction false} ResolveIdempotent(raw: string, url: string)
    requires IsFull(url)
    ensures Resolve(Resolve(raw, url), url) == Resolve(raw, url)
  {
    var r := Resolve(raw, url);
    if !IsFull(raw) {
      var b, p := Base(url), Path(raw);
      var tail := if EndsWith(url, "/") then p else "/" + p;
      assert r == url + tail;
      assert r[..|url|] == url;
      if StartsWith(url, "http://") {
        assert r[..7] == url[..7];
      } else {
        assert r[..8] == url[..8];
      }
    }
  }

  // ---------------------------------------------------------------- link titles

  predicate IsSeparator(c: char)
  {
    c == '-' || c == '_'
  }

  /** `word.charAt(0).toUpperCase() + word.slice(1)`. */
  function Capitalise(w: string): (r: string)
    ensures |r| == |w|
  {
    if |w| == 0 then "" else [ToUpperChar(w[0])] + w[1..]
  }

  function CapitaliseAll(words: seq<string>): (r: seq<string>)
    ensures |r| == |words|
  {
    if |words| == 0 then [] else [Capitalise(words[0])] + CapitaliseAll(words[1..])
  }

  /** Both separators written as '-', so that `split(/[-_]/)` is a split
      on one character. */
  function Unify(key: string): (r: string)
    ensures |r| == |key|
    ensures forall i :: 0 <= i < |key| ==> (r[i] == '-' <==> IsSeparator(key[i]))
    ensures forall i :: 0 <= i < |key| && !IsSeparator(key[i]) ==> r[i] == key[i]
  {
    seq(|key|, i requires 0 <= i < |key| => if key[i] == '_' then '-' else key[i])
  }

  /** The row title: the key split on '-' and '_', each word capitalised,
      joined with spaces. */
  function LinkTitle(key: string): string
  {
    Join(CapitaliseAll(Split(Unify(key), '-')), " ")
  }

  /** The title character by character: a separator becomes a space, a
      character opening a word is upper-cased, the rest is kept. */
  function TitleChar(key: string, i: nat): char
    requires i < |key|
  {
    if IsSeparator(key[i]) then ' '
    else if i == 0 || IsSeparator(key[i - 1]) then ToUpperChar(key[i])
    else key[i]
  }

  function TitleRef(key: string): (r: string)
    ensures |r| == |key|
  {
    seq(|key|, i requires 0 <= i < |key| => TitleChar(key, i))
  }

  /** Without separators the title is the capitalised key. */
  lemma {:induction false} TitleRefOneWord(n: string)
    requires forall i :: 0 <= i < |n| ==> !IsSeparator(n[i])
    ensures TitleRef(n) == Capitalise(n)
  {
    var r, c := TitleRef(n), Capitalise(n);
    forall j | 0 <= j < |n| ensures r[j] == c[j] {
      if j > 0 {
        assert c[j] == n[1..][j - 1];
      }
    }
  }

  /** The title splits at the first separator like the key does. */
  lemma {:induction false} TitleRefStep(n: string, i: nat)
    requires i < |n| && IsSeparator(n[i]) && forall j :: 0 <= j < i ==> !IsSeparator(n[j])
    ensures TitleRef(n) == Capitalise(n[..i]) + " " + TitleRef(n[i + 1..])
  {
    var head := n[..i];
    TitleRefOneWord(head);
    var rest := n[i + 1..];
    var r := TitleRef(n);
    var t := Capitalise(head) + " " + TitleRef(rest);
    assert |r| == |t|;
    forall j | 0 <= j < |n| ensures r[j] == t[j] {
      if j < i {
        assert t[j] == TitleRef(head)[j];
        assert TitleRef(head)[j] == TitleChar(head, j);
      } else if j > i {
        var k := j - i - 1;
        assert t[j] == TitleRef(rest)[k] == TitleChar(rest, k);
        assert rest[k] == n[j];
        if k > 0 {
          assert rest[k - 1] == n[j - 1];
        }
      }
    }
  }

  /** The title of a key already using '-' only, by induction on its words. */
  lemma {:induction false} TitleOfUnified(n: string)
    requires forall i :: 0 <= i < |n| ==> n[i] != '_'
    ensures Join(CapitaliseAll(Split(n, '-')), " ") == TitleRef(n)
    decreases |n|
  {
    if '-' !in n {
      assert Split(n, '-') == [n];
      assert CapitaliseAll([n]) == [Capitalise(n)];
      TitleRefOneWord(n);
    } else {
      var i := IndexOfChar(n, '-');
      var rest := n[i + 1..];
      var tail := Split(rest, '-');
      assert Split(n, '-') == [n[..i]] + tail;
      var caps := CapitaliseAll([n[..i]] + tail);
      assert ([n[..i]] + tail)[1..] == tail;
      assert caps == [Capitalise(n[..i])] + CapitaliseAll(tail);
      assert caps[1..] == CapitaliseAll(tail);
      TitleOfUnified(rest);
      assert forall j :: 0 <= j < i ==> n[j] != '-' by {
        assert forall j :: 0 <= j < i ==> n[j] == n[..i][j];
      }
      TitleRefStep(n, i);
    }
  }

  /** The row title has the key's length; each separator became a space,
      each word's first character is upper-cased and every other character
      is kept. */
  lemma {:induction false} LinkTitleSpec(key: string)
    ensures LinkTitle(key) == TitleRef(key)
  {
    var n := Unify(key);
    TitleOfUnified(n);
    var a, b := TitleRef(n), TitleRef(key);
    forall i | 0 <= i < |key| ensures a[i] == b[i] {
      assert a[i] == TitleChar(n, i) && b[i] == TitleChar(key, i);
    }
  }

  // ---------------------------------------------------------------- documentation group

  datatype LinkRow = LinkRow(title: string, uri: string)

  function LinkRows(links: seq<(string, string)>, url: string): (rows: seq<LinkRow>)
    ensures |rows| == |links|
    ensures forall i :: 0 <= i < |links| ==> rows[i] == LinkRow(LinkTitle(links[i].0), Resolve(links[i].1, url))
  {
    if |links| == 0 then []
    else [LinkRow(LinkTitle(links[0].0), Resolve(links[0].1, url))] + LinkRows(links[1..], url)
  }

  /** The documentation group: present only when `metadata.links` has an
      entry, with one row per entry in `Object.entries` order. */
  function DocGroup(links: seq<(string, string)>, url: string): (g: Option<seq<LinkRow>>)
    ensures g.Some? <==> |links| > 0
    ensures g.Some? ==> g.value == LinkRows(links, url)
  {
    if |links| == 0 then None else Some(LinkRows(links, url))
  }
}

=== FILE: clock.dfy ===
/** The clock manager (`ClockManager` in app/components/clock.js): moving the
    date-menu container between the panel's boxes, restoring it to the centre
    box, and splitting the clock text into a time line and a date line. */
module Clock {
  import opened Wrappers
  import opened Text
  import opened Lists

  // ---------------------------------------------------------------------
  // Panel child lists
  // ---------------------------------------------------------------------

  /** The actors that can sit in a panel box: the date-menu container being
      moved, the two anchors, and anything else. */
  datatype Actor = DateMenu | Activities | SystemMenu | Other(id: nat)

  datatype Box = LeftBox | CenterBox | RightBox

  /** The panel's three boxes, each an ordered child list. */
  datatype Panel = Panel(left: seq<Actor>, center: seq<Actor>, right: seq<Actor>)
  {
    function Children(b: Box): seq<Actor>
    {
      match b
      case LeftBox => left
      case CenterBox => center
      case RightBox => right
    }

    function WithChildren(b: Box, s: seq<Actor>): (p: Panel)
      ensures p.Children(b) == s
      ensures forall o :: o != b ==> p.Children(o) == Children(o)
    {
      match b
      case LeftBox => this.(left := s)
      case CenterBox => this.(center := s)
      case RightBox => this.(right := s)
    }
  }

  /** `parent.remove_child(container)`: the container leaves whichever box
      holds it. */
  function Detach(p: Panel): (q: Panel)
    ensures forall b :: DateMenu !in q.Children(b)
  {
    Panel(Without(p.left, DateMenu), Without(p.center, DateMenu), Without(p.right, DateMenu))
  }

  lemma {:induction false} DetachChildren(p: Panel, b: Box)
    ensures Detach(p).Children(b) == Without(p.Children(b), DateMenu)
  {
  }

  /** The index `_move` inserts at: the anchor's index among the target's
      children after detachment (a missing anchor counts as 0 in the left box
      and as the end elsewhere), plus one unless the mode is 0 ("before"). */
  function MoveIndex(kids: seq<Actor>, target: Box, anchor: Option<Actor>, mode: int): int
  {
    var found := if anchor.Some? then IndexOf(kids, anchor.value) else -1;
    var anchorIndex := if found == -1 then (if target == LeftBox then 0 else |kids|) else found;
    if mode == 0 then anchorIndex else anchorIndex + 1
  }

  /** `_move(targetBox, anchorObj, positionMode)`. */
  function Move(p: Panel, target: Box, anchor: Option<Actor>, mode: int): (q: Panel)
    ensures Count(q.Children(target), DateMenu) == 1
    ensures forall b :: b != target ==> DateMenu !in q.Children(b)
  {
    var d := Detach(p);
    var kids := d.Children(target);
    var r := InsertAt(kids, MoveIndex(kids, target, anchor, mode), DateMenu);
    CountInsert(kids, MoveIndex(kids, target, anchor, mode), DateMenu);
    d.WithChildren(target, r)
  }

  /** Moving changes no box except by the container: with the container
      removed, every box lists the same actors in the same order as before. */
  lemma {:induction false} MoveKeepsOthers(p: Panel, target: Box, anchor: Option<Actor>, mode: int)
    ensures forall b :: Without(Move(p, target, anchor, mode).Children(b), DateMenu)
                     == Without(p.Children(b), DateMenu)
  {
    var d := Detach(p);
    var kids := d.Children(target);
    WithoutInsert(kids, MoveIndex(kids, target, anchor, mode), DateMenu);
  }

  /** Where `_move` puts the container relative to its anchor. */
  lemma {:induction false} MovePosition(p: Panel, target: Box, anchor: Option<Actor>, mode: int)
    ensures var kids := Detach(p).Children(target);
            var r := Move(p, target, anchor, mode).Children(target);
            && (anchor.Some? && anchor.value in kids && mode == 0 ==>
                  var k := IndexOf(kids, anchor.value);
                  r[k] == DateMenu && r[k + 1] == anchor.value)
            && (anchor.Some? && anchor.value in kids && mode != 0 ==>
                  var k := IndexOf(kids, anchor.value);
                  r[k] == anchor.value && r[k + 1] == DateMenu)
            && ((anchor.None? || anchor.value !in kids) && target == LeftBox && mode == 0 ==>
                  r[0] == DateMenu)
            && ((anchor.None? || anchor.value !in kids) && target != LeftBox ==>
                  r[|r| - 1] == DateMenu)
  {
    var kids := Detach(p).Children(target);
    var at := MoveIndex(kids, target, anchor, mode);
    var r := InsertAt(kids, at, DateMenu);
    assert Move(p, target, anchor, mode).Children(target) == r;
    if anchor.Some? && anchor.value in kids {
      var k := IndexOf(kids, anchor.value);
      if mode == 0 {
        InsertBefore(kids, k, DateMenu);
      } else {
        InsertAfter(kids, k, DateMenu);
      }
    } else if target != LeftBox {
      InsertLast(kids, at, DateMenu);
    }
  }

  /** Running `_move` twice with the same arguments gives the same panel as
      running it once. */
  lemma {:induction false} MoveIdempotent(p: Panel, target: Box, anchor: Option<Actor>, mode: int)
    ensures Move(Move(p, target, anchor, mode), target, anchor, mode) == Move(p, target, anchor, mode)
  {
    var q := Move(p, target, anchor, mode);
    MoveKeepsOthers(p, target, anchor, mode);
    assert Detach(q) == Detach(p) by {
      DetachChildren(q, LeftBox);
      DetachChildren(q, CenterBox);
      DetachChildren(q, RightBox);
      DetachChildren(p, LeftBox);
      DetachChildren(p, CenterBox);
      DetachChildren(p, RightBox);
    }
  }

  /** `_restorePos`: nothing happens when the container is already in the
      centre box; otherwise it goes to the front of the centre box. */
  function RestorePos(p: Panel): (q: Panel)
    ensures DateMenu in p.center ==> q == p
    ensures DateMenu !in p.center ==>
              && |q.center| > 0 && q.center[0] == DateMenu
              && Count(q.center, DateMenu) == 1
              && DateMenu !in q.left && DateMenu !in q.right
  {
    if DateMenu in p.center then p
    else
      var d := Detach(p);
      assert d.center == p.center;
      d.(center := InsertAt(d.center, 0, DateMenu))
  }

  /** Restoring keeps the other actors of every box in order, and restoring
      twice is the same as restoring once. */
  lemma {:induction false} RestoreKeepsOthers(p: Panel)
    ensures forall b :: Without(RestorePos(p).Children(b), DateMenu) == Without(p.Children(b), DateMenu)
    ensures RestorePos(RestorePos(p)) == RestorePos(p)
  {
    if DateMenu !in p.center {
      var d := Detach(p);
      var q := RestorePos(p);
      assert q == d.(center := InsertAt(d.center, 0, DateMenu));
      WithoutInsert(d.center, 0, DateMenu);
      forall b
        ensures Without(q.Children(b), DateMenu) == Without(p.Children(b), DateMenu)
      {
        DetachChildren(p, b);
        if b != CenterBox {
          assert q.Children(b) == d.Children(b);
        }
      }
      assert DateMenu in q.center;
    }
  }

  /** `_syncPos`: restore when moving is disabled, else move into the left box
      anchored on Activities (target 0) or the right box anchored on the
      system menu. */
  function SyncPos(p: Panel, moveEnabled: bool, target: int, position: int,
                   activities: Option<Actor>, systemMenu: Option<Actor>): (q: Panel)
    ensures !moveEnabled ==> q == RestorePos(p)
    ensures moveEnabled && target == 0 ==> q == Move(p, LeftBox, activities, position)
    ensures moveEnabled && target != 0 ==> q == Move(p, RightBox, systemMenu, position)
  {
    if !moveEnabled then RestorePos(p)
    else if target == 0 then Move(p, LeftBox, activities, position)
    else Move(p, RightBox, systemMenu, position)
  }

  /** Re-running `_syncPos` with unchanged settings changes nothing. */
  lemma {:induction false} SyncPosIdempotent(p: Panel, moveEnabled: bool, target: int, position: int,
                          activities: Option<Actor>, systemMenu: Option<Actor>)
    ensures var q := SyncPos(p, moveEnabled, target, position, activities, systemMenu);
            SyncPos(q, moveEnabled, target, position, activities, systemMenu) == q
  {
    if !moveEnabled {
      RestoreKeepsOthers(p);
    } else if target == 0 {
      MoveIdempotent(p, LeftBox, activities, position);
    } else {
      MoveIdempotent(p, RightBox, systemMenu, position);
    }
  }

  // ---------------------------------------------------------------------
  // Clock text
  // ---------------------------------------------------------------------

  /** The format used when custom mode has an empty format string. */
  const DefaultFormat: string := "%H:%M\n%A, %d %B"

  /** `x || ' '`. */
  function OrSpace(s: string): (r: string)
    ensures r != ""
    ensures s != "" ==> r == s
  {
    if s == "" then " " else s
  }

  /** The format string of custom mode. */
  function EffectiveFormat(custom: string): (f: string)
    ensures custom != "" ==> f == custom
    ensures custom == "" ==> f == DefaultFormat
  {
    if custom == "" then DefaultFormat else custom
  }

  /** The text `_updateClockText` starts from, `None` standing for `null`.
      `format` stands for `GLib.DateTime.format`, which reports an
      unsupported format by returning `null` rather than throwing, so the
      `catch` around it never runs and custom mode passes the `null` on;
      `original` is the shell's own clock text. */
  function SourceText(mode: int, custom: string, format: string -> Option<string>, original: string): (t: Option<string>)
    ensures mode != 1 ==> t == Some(OrSpace(original))
    ensures mode == 1 ==> t == format(EffectiveFormat(custom))
  {
    if mode == 1 then format(EffectiveFormat(custom))
    else Some(OrSpace(original))
  }

  /** The text as the `catch` means it: a failed format shows the original
      clock text, or a single space. It also guards what the `catch` does
      not: an empty formatted text shows as a single space. */
  function SourceTextGuarded(mode: int, custom: string, format: string -> Option<string>, original: string): (t: string)
    ensures t != ""
    ensures SourceText(mode, custom, format, original).Some? && SourceText(mode, custom, format, original).value != "" ==>
              t == SourceText(mode, custom, format, original).value
    ensures SourceText(mode, custom, format, original).None? ==> t == OrSpace(original)
  {
    match SourceText(mode, custom, format, original)
    case Some(text) => OrSpace(text)
    case None => OrSpace(original)
  }

  predicate DigitAt(s: string, k: nat) { k < |s| && IsDigit(s[k]) }

  /** ':' or the ratio sign U+2236. */
  predicate ColonAt(s: string, k: nat) { k < |s| && (s[k] == ':' || s[k] as int == 0x2236) }

  predicate SpaceAt(s: string, k: nat) { k < |s| && IsSpace(s[k]) }

  predicate MeridiemAt(s: string, k: nat) { k + 1 < |s| && (s[k] == 'A' || s[k] == 'P') && s[k + 1] == 'M' }

  /** `[0-9]{1,2}[:∶][0-9]{2}` anchored at `i`: two leading digits are tried
      before one. Zero when there is no match. */
  function CoreLength(s: string, i: nat): nat
  {
    if DigitAt(s, i) && DigitAt(s, i + 1) && ColonAt(s, i + 2) && DigitAt(s, i + 3) && DigitAt(s, i + 4) then 5
    else if DigitAt(s, i) && ColonAt(s, i + 1) && DigitAt(s, i + 2) && DigitAt(s, i + 3) then 4
    else 0
  }

  /** The optional `(?:[:∶][0-9]{2})` seconds group. */
  function SecondsLength(s: string, j: nat): nat
  {
    if ColonAt(s, j) && DigitAt(s, j + 1) && DigitAt(s, j + 2) then 3 else 0
  }

  /** The optional `(?:\s?[AP]M)` group: with the space tried first. */
  function MeridiemLength(s: string, k: nat): nat
  {
    if SpaceAt(s, k) && MeridiemAt(s, k + 1) then 3
    else if MeridiemAt(s, k) then 2
    else 0
  }

  /** Length of the time pattern's match anchored at `i`, zero when none. */
  function MatchLength(s: string, i: nat): (n: nat)
    ensures n > 0 ==> 4 <= n && i + n <= |s|
  {
    var c := CoreLength(s, i);
    if c == 0 then 0
    else
      var sec := SecondsLength(s, i + c);
      c + sec + MeridiemLength(s, i + c + sec)
  }

  /** The leftmost match starting at or after `p`. */
  function FirstMatchFrom(s: string, p: nat): (r: Option<nat>)
    requires p <= |s|
    ensures r.Some? ==> p <= r.value < |s| && MatchLength(s, r.value) > 0
    ensures r.Some? ==> forall k :: p <= k < r.value ==> MatchLength(s, k) == 0
    ensures r.None? ==> forall k :: p <= k < |s| ==> MatchLength(s, k) == 0
    decreases |s| - p
  {
    if p == |s| then None
    else if MatchLength(s, p) > 0 then Some(p)
    else FirstMatchFrom(s, p + 1)
  }

  /** The first three pieces of `text.split(timeRegex)` when the pattern
      matches: the text before the first match, the match (the capture), and
      the text up to the next match or the end. */
  datatype TimeParts = TimeParts(before: string, time: string, after: string)

  function SplitTime(s: string): (r: Option<TimeParts>)
    ensures r.None? <==> forall k :: 0 <= k < |s| ==> MatchLength(s, k) == 0
    ensures r.Some? ==>
              var b, e := |r.value.before|, |r.value.before| + |r.value.time|;
              var n := e + |r.value.after|;
              && n <= |s| && s[..n] == r.value.before + r.value.time + r.value.after
              && MatchLength(s, b) == |r.value.time|
              && (forall k :: 0 <= k < b ==> MatchLength(s, k) == 0)
              && (forall k :: e <= k < n ==> MatchLength(s, k) == 0)
              && (n == |s| || MatchLength(s, n) > 0)
  {
    match FirstMatchFrom(s, 0)
    case None => None
    case Some(i) =>
      var e := i + MatchLength(s, i);
      var j := FirstMatchFrom(s, e).GetOr(|s|);
      PrefixSlices(s, i, e, j);
      Some(TimeParts(s[..i], s[i..e], s[e..j]))
  }

  /** `.replace(/\s{2,}/g, ' ')`: each maximal run of two or more white-space
      characters becomes one space. */
  function CollapseRuns(s: string): (r: string)
    ensures |r| <= |s|
    ensures |s| > 0 <==> |r| > 0
    ensures |r| > 0 ==> (IsSpace(r[0]) <==> IsSpace(s[0]))
    ensures |r| > 0 ==> (IsSpace(r[|r| - 1]) <==> IsSpace(s[|s| - 1]))
    decreases |s|
  {
    if |s| == 0 then ""
    else if IsSpace(s[0]) then
      var n := SpaceRun(s);
      (if n >= 2 then " " else [s[0]]) + CollapseRuns(s[n..])
    else [s[0]] + CollapseRuns(s[1..])
  }

  /** Length of the leading run of white space. */
  function SpaceRun(s: string): (n: nat)
    ensures n <= |s|
    ensures forall k :: 0 <= k < n ==> IsSpace(s[k])
    ensures n < |s| ==> !IsSpace(s[n])
  {
    if |s| > 0 && IsSpace(s[0]) then 1 + SpaceRun(s[1..]) else 0
  }

  /** No two adjacent white-space characters. */
  predicate NoDoubleSpace(s: string)
  {
    forall k :: 0 <= k < |s| - 1 ==> !(IsSpace(s[k]) && IsSpace(s[k + 1]))
  }

  /** The non-space characters of a text, in order. */
  function Words(s: string): string
  {
    if |s| == 0 then "" else (if IsSpace(s[0]) then "" else [s[0]]) + Words(s[1..])
  }

  lemma {:induction false} WordsAppend(s: string, t: string)
    ensures Words(s + t) == Words(s) + Words(t)
  {
    if |s| == 0 {
      assert s + t == t;
    } else {
      assert (s + t)[1..] == s[1..] + t;
      WordsAppend(s[1..], t);
    }
  }

  lemma {:induction false} WordsOfSpaces(s: string, n: nat)
    requires n <= |s| && forall k :: 0 <= k < n ==> IsSpace(s[k])
    ensures Words(s[..n]) == ""
  {
    if n > 0 {
      assert s[..n][1..] == s[1..][..n - 1];
      WordsOfSpaces(s[1..], n - 1);
    }
  }

  lemma {:induction false} NoDoubleSpaceCons(head: string, t: string)
    requires |head| == 1 && NoDoubleSpace(t) && (|t| > 0 ==> !IsSpace(t[0]))
    ensures NoDoubleSpace(head + t)
  {
    var u := head + t;
    forall k | 0 <= k < |u| - 1
      ensures !(IsSpace(u[k]) && IsSpace(u[k + 1]))
    {
      if k > 0 {
        assert u[k] == t[k - 1] && u[k + 1] == t[k];
      }
    }
  }

  /** Collapsing white-space runs leaves no two spaces side by side. */
  lemma {:induction false} CollapseRunsNoDoubleSpace(s: string)
    ensures NoDoubleSpace(CollapseRuns(s))
    decreases |s|
  {
    if |s| == 0 {
    } else if IsSpace(s[0]) {
      var n := SpaceRun(s);
      CollapseRunsNoDoubleSpace(s[n..]);
      var head: string := if n >= 2 then " " else [s[0]];
      NoDoubleSpaceCons(head, CollapseRuns(s[n..]));
    } else {
      CollapseRunsNoDoubleSpace(s[1..]);
      var t := CollapseRuns(s[1..]);
      var u := [s[0]] + t;
      forall k | 0 <= k < |u| - 1
        ensures !(IsSpace(u[k]) && IsSpace(u[k + 1]))
      {
        if k > 0 {
          assert u[k] == t[k - 1] && u[k + 1] == t[k];
        }
      }
    }
  }

  /** Collapsing white-space runs keeps every non-space character, in order. */
  lemma {:induction false} CollapseRunsWords(s: string)
    ensures Words(CollapseRuns(s)) == Words(s)
    decreases |s|
  {
    if |s| == 0 {
    } else if IsSpace(s[0]) {
      var n := SpaceRun(s);
      var head: string := if n >= 2 then " " else [s[0]];
      CollapseRunsWords(s[n..]);
      SpaceHeadWords(head, CollapseRuns(s[n..]));
      SkipSpacesWords(s, n);
    } else {
      CollapseRunsWords(s[1..]);
      CharHeadWords(s[0], CollapseRuns(s[1..]));
      assert s == [s[0]] + s[1..];
      CharHeadWords(s[0], s[1..]);
    }
  }

  /** A leading run of white space contributes no words. */
  lemma {:induction false} SkipSpacesWords(s: string, n: nat)
    requires n <= |s| && forall k :: 0 <= k < n ==> IsSpace(s[k])
    ensures Words(s) == Words(s[n..])
  {
    assert s == s[..n] + s[n..];
    WordsAppend(s[..n], s[n..]);
    WordsOfSpaces(s, n);
  }

  lemma {:induction false} SpaceHeadWords(head: string, t: string)
    requires |head| == 1 && IsSpace(head[0])
    ensures Words(head + t) == Words(t)
  {
    WordsAppend(head, t);
    assert head[1..] == [];
  }

  lemma {:induction false} CharHeadWords(c: char, t: string)
    requires !IsSpace(c)
    ensures Words([c] + t) == [c] + Words(t)
  {
    WordsAppend([c], t);
    assert [c][1..] == [];
  }

  /** The two labels of the multiline clock. */
  datatype Labels = Labels(time: string, date: string)

  /** The multiline branch of `_updateClockText`: with a time in the text, the
      time label is the first match and the date label is what surrounds it;
      without one, the text is split at its first space. */
  function MultilineLabels(text: string): (l: Labels)
    ensures l.time != "" && l.date != ""
  {
    match SplitTime(text)
    case Some(parts) =>
      TimeStartsWithDigit(text);
      TrimKeepsLeadingChar(parts.time);
      Labels(Trim(parts.time), DateLabel(parts.before, parts.after))
    case None =>
      var words := Split(text, ' ');
      Labels(OrSpace(words[0]), OrSpace(Join(words[1..], " ")))
  }

  /** The time piece begins with a digit. */
  lemma {:induction false} TimeStartsWithDigit(text: string)
    requires SplitTime(text).Some?
    ensures var t := SplitTime(text).value.time;
            |t| > 0 && IsDigit(t[0])
  {
    var parts := SplitTime(text).value;
    var b := |parts.before|;
    assert MatchLength(text, b) == |parts.time| > 0;
    assert parts.time == text[..b + |parts.time|][b..];
  }

  /** Trimming a text that starts with a non-space character leaves it
      non-empty. */
  lemma {:induction false} TrimKeepsLeadingChar(s: string)
    requires |s| > 0 && !IsSpace(s[0])
    ensures Trim(s) != ""
  {
    assert TrimStart(s) == s;
    TrimEndSpec(s);
  }

  /** With a time in the text: the time label is the first match of the time
      pattern, and the date label either is the single-space placeholder or
      has no surrounding white space, no double spaces, and exactly the
      non-space characters of the text before the time and after it. */
  lemma {:induction false} MultilineWithTime(text: string)
    requires exists k :: 0 <= k < |text| && MatchLength(text, k) > 0
    ensures var l := MultilineLabels(text);
            var parts := SplitTime(text).value;
            && l.time == Trim(parts.time)
            && l.date == DateLabel(parts.before, parts.after)
            && (l.date == " " || (
                  !IsSpace(l.date[0]) && !IsSpace(l.date[|l.date| - 1])
                  && NoDoubleSpace(l.date)
                  && Words(l.date) == Words(parts.before) + Words(parts.after)))
  {
    var parts := SplitTime(text).value;
    DateLabelShape(parts.before, parts.after);
  }

  /** The date line built from the text around the time. */
  function DateLabel(before: string, after: string): string
  {
    OrSpace(CollapseRuns(Trim(before + " " + after)))
  }

  lemma {:induction false} DateLabelShape(before: string, after: string)
    ensures var d := DateLabel(before, after);
            d == " " || (
              !IsSpace(d[0]) && !IsSpace(d[|d| - 1])
              && NoDoubleSpace(d)
              && Words(d) == Words(before) + Words(after))
  {
    var joined := before + " " + after;
    var trimmed := Trim(joined);
    var c := CollapseRuns(trimmed);
    if c != "" {
      assert DateLabel(before, after) == c;
      assert !IsSpace(c[0]) && !IsSpace(c[|c| - 1]) by {
        assert |trimmed| > 0;
      }
      assert NoDoubleSpace(c) by {
        CollapseRunsNoDoubleSpace(trimmed);
      }
      assert Words(c) == Words(before) + Words(after) by {
        CollapseRunsWords(trimmed);
        TrimWords(joined);
        JoinedWords(before, after);
      }
    } else {
      assert DateLabel(before, after) == " ";
    }
  }

  lemma {:induction false} JoinedWords(before: string, after: string)
    ensures Words(before + " " + after) == Words(before) + Words(after)
  {
    assert before + " " + after == before + (" " + after);
    WordsAppend(before, " " + after);
    WordsAppend(" ", after);
    assert Words(" ") == "" by { assert " "[1..] == ""; }
  }

  /** Trimming removes only white space. */
  lemma {:induction false} TrimWords(s: string)
    ensures Words(Trim(s)) == Words(s)
  {
    TrimStartWords(s);
    TrimEndWords(TrimStart(s));
  }

  lemma {:induction false} TrimStartWords(s: string)
    ensures Words(TrimStart(s)) == Words(s)
  {
    var a := TrimStart(s);
    TrimStartSpec(s);
    var n := |s| - |a|;
    assert s == s[..n] + a;
    WordsAppend(s[..n], a);
    WordsOfSpaces(s, n);
  }

  lemma {:induction false} TrimEndWords(a: string)
    ensures Words(TrimEnd(a)) == Words(a)
  {
    var b := TrimEnd(a);
    TrimEndSpec(a);
    var tail := a[|b|..];
    assert a == b + tail;
    WordsAppend(b, tail);
    assert tail[..|tail|] == tail;
    WordsOfSpaces(tail, |tail|);
  }

  /** Without a time in the text: the time label is the text before the first
      space and the date label the text after it, each replaced by a single
      space when empty; when both are non-empty they rebuild the text. */
  lemma {:induction false} MultilineWithoutTime(text: string)
    requires forall k :: 0 <= k < |text| ==> MatchLength(text, k) == 0
    ensures var l := MultilineLabels(text);
            && (' ' !in text ==> l.time == OrSpace(text) && l.date == " ")
            && (' ' in text ==>
                  var i := IndexOfChar(text, ' ');
                  l.time == OrSpace(text[..i]) && l.date == OrSpace(text[i + 1..]))
            && (' ' in text && l.time != " " && l.date != " " ==> l.time + " " + l.date == text)
  {
    var words := Split(text, ' ');
    var l := MultilineLabels(text);
    assert SplitTime(text).None?;
    assert l == Labels(OrSpace(words[0]), OrSpace(Join(words[1..], " ")));
    SplitHead(text, ' ');
    if ' ' in text {
      SplitTail(text, ' ');
      var i := IndexOfChar(text, ' ');
      assert l.time == OrSpace(text[..i]);
      assert l.date == OrSpace(text[i + 1..]);
      Reassemble(text, i);
    } else {
      assert words[1..] == [];
    }
  }

  lemma {:induction false} Reassemble(text: string, i: nat)
    requires i < |text| && text[i] == ' '
    ensures text == text[..i] + " " + text[i + 1..]
  {
    assert text == text[..i] + [text[i]] + text[i + 1..];
  }

  // ---------------------------------------------------------------------
  // Single-line dimmed separators
  // ---------------------------------------------------------------------

  const SpanOpen: string := "<span foreground='#888888'>"
  const SpanClose: string := "</span>"

  /** The separators the single-line clock dims: '|', '•', '-', '–' and '—'. */
  predicate IsSeparator(c: char)
  {
    c == '|' || c as int == 0x2022 || c == '-' || c as int == 0x2013 || c as int == 0x2014
  }

  /** Wraps each separator of an (already markup-escaped) text in a grey span. */
  function Dim(s: string): string
  {
    if |s| == 0 then ""
    else (if IsSeparator(s[0]) then SpanOpen + [s[0]] + SpanClose else [s[0]]) + Dim(s[1..])
  }

  /** Reads a dimmed text back: each grey span around one character becomes
      that character. */
  function Undim(t: string): string
    decreases |t|
  {
    if |t| == 0 then ""
    else if |t| >= |SpanOpen| + 1 + |SpanClose| && t[..|SpanOpen|] == SpanOpen
            && t[|SpanOpen| + 1..|SpanOpen| + 1 + |SpanClose|] == SpanClose then
      [t[|SpanOpen|]] + Undim(t[|SpanOpen| + 1 + |SpanClose|..])
    else [t[0]] + Undim(t[1..])
  }

  /** Dimming only adds markup: on escaped text (which holds no '<'), removing
      the spans gives the text back. */
  lemma {:induction false} UndimDim(s: string)
    requires '<' !in s
    ensures Undim(Dim(s)) == s
  {
    if |s| > 0 {
      var rest := Dim(s[1..]);
      assert '<' !in s[1..];
      UndimDim(s[1..]);
      if IsSeparator(s[0]) {
        var t := SpanOpen + [s[0]] + SpanClose + rest;
        assert Dim(s) == t;
        var o := |SpanOpen|;
        assert t[..o] == SpanOpen;
        assert t[o] == s[0];
        assert t[o + 1..o + 1 + |SpanClose|] == SpanClose;
        assert t[o + 1 + |SpanClose|..] == rest;
      } else {
        var t := [s[0]] + rest;
        assert Dim(s) == t;
        assert t[0] != '<';
        assert t[1..] == rest;
        assert |t| >= |SpanOpen| ==> t[..|SpanOpen|] != SpanOpen by {
          if |t| >= |SpanOpen| {
            assert t[..|SpanOpen|][0] == t[0];
          }
        }
      }
    }
  }

  /** One character's dimmed form is blank exactly when the character is
      a space: a separator's span starts with '<'. */
  lemma {:induction false} DimPieceBlank(c: char)
    ensures Blank(if IsSeparator(c) then SpanOpen + [c] + SpanClose else [c]) <==> IsSpace(c)
  {
    if IsSeparator(c) {
      var piece := SpanOpen + [c] + SpanClose;
      assert piece[0] == '<' && !IsSpace(c);
    } else {
      assert [c][0] == c;
    }
  }

  /** Dimming adds markup around separators only, so the dimmed text is
      blank exactly when the text is. */
  lemma {:induction false} DimBlank(s: string)
    ensures Blank(Dim(s)) <==> Blank(s)
  {
    if |s| > 0 {
      DimBlank(s[1..]);
      var piece := if IsSeparator(s[0]) then SpanOpen + [s[0]] + SpanClose else [s[0]];
      DimPieceBlank(s[0]);
      BlankConcat(piece, Dim(s[1..]));
      assert s == [s[0]] + s[1..];
      BlankConcat([s[0]], s[1..]);
    }
  }

  /** What the time label shows. */
  datatype TimeLabel = Plain(text: string) | Markup(markup: string)

  datatype ClockView = ClockView(vertical: bool, time: TimeLabel, date: string, dateOpacity: int)

  /** The markup the single-line clock sets: the dimmed escaped text, or a
      non-breaking space when that is blank. */
  function DimmedMarkup(escaped: string): (m: string)
    ensures m != ""
    ensures Blank(escaped) ==> m == "&nbsp;"
    ensures !Blank(escaped) ==> m == Dim(escaped)
  {
    var safe := Dim(escaped);
    TrimEmptyIffBlank(safe);
    DimBlank(escaped);
    if Trim(safe) == "" then "&nbsp;" else safe
  }

  /** `_updateClockText` after the text is chosen, from the view `prev` it
      left last time. `escape` stands for the markup escaping of the text,
      and `markupAccepted` for whether `set_markup` accepts a markup string:
      when it throws, the idle callback turns markup off and shows the text
      itself, or a single space. The view is the one the idle callback
      leaves. A `null` text stops the update where it is first used: the
      multiline `split` and the escaping both throw, leaving the time and
      date labels as they were, while the plain label shows `null` as the
      empty text. */
  function UpdateClockText(text: Option<string>, multiline: bool, dimSeparators: bool, escape: string -> string,
                           markupAccepted: string -> bool, prev: ClockView): (v: ClockView)
    ensures v.vertical == multiline
    ensures multiline ==> v.dateOpacity == 255
    ensures !multiline ==> v.dateOpacity == 0 && v.date == " "
    ensures text.Some? && multiline ==>
              v.time == Plain(MultilineLabels(text.value).time) && v.date == MultilineLabels(text.value).date
    ensures text.Some? && !multiline && !dimSeparators ==> v.time == Plain(text.value)
    ensures text.Some? && !multiline && dimSeparators && markupAccepted(DimmedMarkup(escape(text.value))) ==>
              v.time == Markup(DimmedMarkup(escape(text.value)))
    ensures text.Some? && !multiline && dimSeparators && !markupAccepted(DimmedMarkup(escape(text.value))) ==>
              v.time == Plain(OrSpace(text.value))
    ensures text.None? && multiline ==> v.time == prev.time && v.date == prev.date
    ensures text.None? && !multiline && dimSeparators ==> v.time == prev.time
    ensures text.None? && !multiline && !dimSeparators ==> v.time == Plain("")
  {
    if multiline then
      match text
      case None => ClockView(true, prev.time, prev.date, 255)
      case Some(t) =>
        var l := MultilineLabels(t);
        ClockView(true, Plain(l.time), l.date, 255)
    else if dimSeparators then
      match text
      case None => ClockView(false, prev.time, " ", 0)
      case Some(t) =>
        var safe := Dim(escape(t));
        var markup := if Trim(safe) == "" then "&nbsp;" else safe;
        if markupAccepted(markup) then ClockView(false, Markup(markup), " ", 0)
        else ClockView(false, Plain(OrSpace(t)), " ", 0)
    else ClockView(false, Plain(text.GetOr("")), " ", 0)
  }

  /** An unsupported custom format leaves a stale clock: the multiline and
      dimmed views keep the labels of the last update, and the plain view
      goes empty. */
  lemma {:induction false} NullFormatStaleClock(custom: string, format: string -> Option<string>, original: string,
                                                multiline: bool, dimSeparators: bool, escape: string -> string,
                                                markupAccepted: string -> bool, prev: ClockView)
    requires format(EffectiveFormat(custom)).None?
    ensures var v := UpdateClockText(SourceText(1, custom, format, original), multiline, dimSeparators, escape, markupAccepted, prev);
            && (multiline || dimSeparators ==> v.time == prev.time)
            && (multiline ==> v.date == prev.date)
            && (!multiline && !dimSeparators ==> v.time == Plain(""))
  {
  }

  /** With the guarded text the view no longer depends on the last one, and
      the plain label is never empty. */
  lemma {:induction false} GuardedClockIsFresh(mode: int, custom: string, format: string -> Option<string>, original: string,
                                               multiline: bool, dimSeparators: bool, escape: string -> string,
                                               markupAccepted: string -> bool, prev1: ClockView, prev2: ClockView)
    ensures var t := Some(SourceTextGuarded(mode, custom, format, original));
            && UpdateClockText(t, multiline, dimSeparators, escape, markupAccepted, prev1)
               == UpdateClockText(t, multiline, dimSeparators, escape, markupAccepted, prev2)
            && (var v := UpdateClockText(t, multiline, dimSeparators, escape, markupAccepted, prev1);
                v.time.Plain? ==> v.time.text != "")
  {
  }

  /** The dimmed single-line clock shows its text: read back without the
      spans, accepted markup is the escaped text; a blank text shows as a
      non-breaking space; rejected markup falls back to the text, never
      empty. */
  lemma {:induction false} DimmedClockShowsText(text: string, escape: string -> string, markupAccepted: string -> bool, prev: ClockView)
    ensures var v := UpdateClockText(Some(text), false, true, escape, markupAccepted, prev);
            var e := escape(text);
            && ('<' !in e && !Blank(e) && markupAccepted(Dim(e)) ==> v.time.Markup? && Undim(v.time.markup) == e)
            && (Blank(e) && markupAccepted("&nbsp;") ==> v.time == Markup("&nbsp;"))
            && (v.time.Plain? ==> v.time.text == OrSpace(text) && v.time.text != "")
  {
    var e := escape(text);
    var m := DimmedMarkup(e);
    if '<' !in e && !Blank(e) {
      UndimDim(e);
    }
  }
}

=== FILE: component.dfy ===
/** The `ExtensionComponent` base class (app/components/base.js): the
    lazily created settings object, the registry of connected settings
    signals, and the enable/disable lifecycle. GSettings objects are named
    by the schema they were made for; signal handler ids come from a
    counter; whether the explicit schema can be opened is an input. */
module Component {
  import opened Wrappers

  /** A settings object: for the configured schema, or the extension's
      default one. */
  datatype SettingsObj = ForSchema(schema: string) | DefaultSettings

  /** A `{ obj, id }` record of `_signals`. */
  datatype Record = Record(obj: SettingsObj, id: nat)

  /** The component's fields, the handlers connected at the host and the
      next handler id the host hands out. */
  datatype State = State(
    settings: Option<SettingsObj>,
    signals: seq<Record>,
    enabled: bool,
    connected: set<Record>,
    nextId: nat)

  /** Handler ids are fresh and every record names a connected handler. */
  predicate Valid(s: State)
  {
    && (forall r :: r in s.connected ==> r.id < s.nextId)
    && (forall i :: 0 <= i < |s.signals| ==> s.signals[i] in s.connected)
  }

  /** A freshly constructed component. */
  function Construct(connected: set<Record>, nextId: nat): (s: State)
    requires forall r :: r in connected ==> r.id < nextId
    ensures Valid(s) && s.settings.None? && s.signals == [] && !s.enabled
  {
    State(None, [], false, connected, nextId)
  }

  /** `getSettings`: an existing object is returned as is; otherwise one is
      made for `schemaId`, or for the default schema when that throws. */
  function GetSettings(s: State, schemaId: string, schemaOk: bool): (r: (State, SettingsObj))
    ensures r.0.settings == Some(r.1)
    ensures s.settings.Some? ==> r == (s, s.settings.value)
    ensures s.settings.None? ==> r.1 == (if schemaOk then ForSchema(schemaId) else DefaultSettings)
    ensures r.0 == s.(settings := Some(r.1))
  {
    if s.settings.Some? then (s, s.settings.value)
    else
      var obj := if schemaOk then ForSchema(schemaId) else DefaultSettings;
      (s.(settings := Some(obj)), obj)
  }

  /** Once made, the settings object is the one every later call returns,
      whatever the schema lookup would now do. */
  lemma {:induction false} GetSettingsCached(s: State, schemaId: string, schemaOk: bool, schemaId2: string, schemaOk2: bool)
    ensures var (s1, obj1) := GetSettings(s, schemaId, schemaOk);
            GetSettings(s1, schemaId2, schemaOk2) == (s1, obj1)
  {
  }

  /** `observe`: one handler connected on the settings object and exactly
      one record of it appended. */
  function Observe(s: State, schemaId: string, schemaOk: bool): (r: State)
    requires Valid(s)
    ensures Valid(r)
    ensures |r.signals| == |s.signals| + 1 && r.signals[..|s.signals|] == s.signals
    ensures r.settings.Some? && r.signals[|s.signals|] == Record(r.settings.value, s.nextId)
    ensures r.connected == s.connected + {Record(r.settings.value, s.nextId)}
    ensures r.nextId == s.nextId + 1 && r.enabled == s.enabled
  {
    var (s1, obj) := GetSettings(s, schemaId, schemaOk);
    var rec := Record(obj, s1.nextId);
    var r := s1.(signals := s1.signals + [rec], connected := s1.connected + {rec}, nextId := s1.nextId + 1);
    assert r.signals[..|s.signals|] == s.signals;
    r
  }

  /** `enable` followed by an `onEnable` that observes `n` signals: the flag
      is set first, so every observation happens on an enabled component. */
  function Enable(s: State, schemaId: string, schemaOk: bool, n: nat): (r: State)
    requires Valid(s)
    ensures Valid(r) && r.enabled
    ensures |r.signals| == |s.signals| + n && r.signals[..|s.signals|] == s.signals
    ensures r.nextId == s.nextId + n
    ensures forall i :: |s.signals| <= i < |r.signals| ==> r.signals[i].id >= s.nextId
    ensures r.connected == s.connected + set i | |s.signals| <= i < |r.signals| :: r.signals[i]
    ensures n > 0 ==> r.settings.Some? && forall i :: |s.signals| <= i < |r.signals| ==> r.signals[i].obj == r.settings.value
    ensures n == 0 ==> r.settings == s.settings
    decreases n
  {
    if n == 0 then s.(enabled := true)
    else
      var p := Enable(s, schemaId, schemaOk, n - 1);
      var r := Observe(p, schemaId, schemaOk);
      assert r.signals[..|s.signals|] == p.signals[..|s.signals|];
      assert forall i :: |s.signals| <= i < |p.signals| ==> r.signals[i] == p.signals[i];
      r
  }

  /** `_cleanup`: every recorded handler is disconnected, the list emptied
      and the settings object dropped. */
  function Cleanup(s: State): (r: State)
    ensures r.signals == [] && r.settings.None?
    ensures forall x :: x in r.connected <==> x in s.connected && x !in s.signals
    ensures r.enabled == s.enabled && r.nextId == s.nextId
  {
    s.(signals := [], settings := None, connected := s.connected - set i | 0 <= i < |s.signals| :: s.signals[i])
  }

  /** `disable`: the flag is cleared and, after the subclass's `onDisable`,
      everything is cleaned up. */
  function Disable(s: State): (r: State)
    requires Valid(s)
    ensures r == Cleanup(s.(enabled := false))
    ensures Valid(r) && !r.enabled
  {
    Cleanup(s.(enabled := false))
  }

  /** An enable/disable cycle from a fresh component leaves exactly the
      handlers that were connected before it and no settings object. */
  lemma {:induction false} EnableDisableRoundTrip(connected: set<Record>, nextId: nat, schemaId: string, schemaOk: bool, n: nat)
    requires forall r :: r in connected ==> r.id < nextId
    ensures var s := Construct(connected, nextId);
            var r := Disable(Enable(s, schemaId, schemaOk, n));
            r.connected == connected && r.signals == [] && r.settings.None? && !r.enabled
  {
    var s := Construct(connected, nextId);
    var e := Enable(s, schemaId, schemaOk, n);
    var r := Disable(e);
    forall x | x in r.connected ensures x in connected {
      assert x in e.connected && x !in e.signals;
    }
    forall x | x in connected ensures x in r.connected {
      assert x.id < nextId;
      assert x !in e.signals by {
        forall i | 0 <= i < |e.signals| ensures e.signals[i] != x {
          assert e.signals[i].id >= nextId;
        }
      }
    }
  }
}

=== FILE: config.dfy ===
/** The `AppConfig` singleton (app/config.js): metadata merged over the
    running defaults by `init`, the derived `debug`, `prefix` and `appId`
    fields, and the getters with their `||` fallback chains. */
module Config {
  import opened Js

  const DefaultId := "com.lethil.GnomeSplitViewDemo"
  const DefaultTitle := "Gnome Split View Demo"
  const DefaultSchema := "org.gnome.shell.extensions.lesion"
  const DefaultDeveloper := "Lethil"

  datatype Config = Config(
    metadata: map<string, Value>,
    path: Value,
    isExtension: bool,
    debug: Value,
    prefix: string,
    appId: Value)

  /** The object before any `init`. */
  const Initial := Config(
    map["name" := Str(""), "version" := Str("0.0.0"), "description" := Str(""), "url" := Str(""),
        "links" := Obj(map[]), "settings-schema" := Str(""), "schema-id" := Str(""),
        "developer-name" := Str("")],
    Null, false, Bool(false), "[App]", Str(""))

  /** `init`: the given metadata is spread over the current one (so an
      earlier `init` still shows through), a falsy name becomes the default
      title, and `prefix`, `debug` and `appId` are derived. */
  function Init(c: Config, given: map<string, Value>, path: Value, isExtension: bool): (r: Config)
    ensures forall k :: k != "name" ==> Get(r.metadata, k) == (if k in given then given[k] else Get(c.metadata, k))
    ensures var name := if "name" in given then given["name"] else Get(c.metadata, "name");
            Get(r.metadata, "name") == (if Truthy(name) then name else Str(DefaultTitle))
    ensures Truthy(Get(r.metadata, "name"))
    ensures r.prefix == "[" + ToStr(Get(r.metadata, "name")) + "]"
    ensures r.path == path && r.isExtension == isExtension
  {
    var merged := c.metadata + given;
    var debug := Coalesce(Get(merged, "debug"), Bool(false));
    var named := if !Truthy(Get(merged, "name")) then merged["name" := Str(DefaultTitle)] else merged;
    var appId := Or(Or(Get(given, "uuid"), Get(given, "application-id")), Str(DefaultId));
    Config(named, path, isExtension, debug, "[" + ToStr(Get(named, "name")) + "]", appId)
  }

  /** `debug` uses `??`: a stated `false`, `0` or `""` is kept, only a
      missing or `null` one becomes `false`. */
  lemma {:induction false} InitDebug(c: Config, given: map<string, Value>, path: Value, isExtension: bool)
    ensures var d := if "debug" in given then given["debug"] else Get(c.metadata, "debug");
            Init(c, given, path, isExtension).debug == (if d == Undefined || d == Null then Bool(false) else d)
  {
    var merged := c.metadata + given;
    assert Get(merged, "debug") == if "debug" in given then given["debug"] else Get(c.metadata, "debug");
  }

  /** `appId` reads the metadata passed to this `init` only, not the merged
      object: `uuid`, then `application-id`, then the default id. */
  lemma {:induction false} InitAppId(c: Config, given: map<string, Value>, path: Value, isExtension: bool)
    ensures var id := Init(c, given, path, isExtension).appId;
            && Truthy(id)
            && (Truthy(Get(given, "uuid")) ==> id == given["uuid"])
            && (!Truthy(Get(given, "uuid")) && Truthy(Get(given, "application-id")) ==> id == given["application-id"])
            && (!Truthy(Get(given, "uuid")) && !Truthy(Get(given, "application-id")) ==> id == Str(DefaultId))
  {
    OrChain(Get(given, "uuid"), Get(given, "application-id"), Str(DefaultId));
  }

  /** The `uuid` getter. */
  function Uuid(c: Config): (r: Value)
    ensures Truthy(r)
    ensures Truthy(Get(c.metadata, "uuid")) ==> r == c.metadata["uuid"]
    ensures !Truthy(Get(c.metadata, "uuid")) ==> r == Str(DefaultId)
  {
    Or(Get(c.metadata, "uuid"), Str(DefaultId))
  }

  /** The `name` getter. */
  function Name(c: Config): (r: Value)
    ensures Truthy(r)
    ensures Truthy(Get(c.metadata, "name")) ==> r == c.metadata["name"]
    ensures !Truthy(Get(c.metadata, "name")) ==> r == Str(DefaultTitle)
  {
    Or(Get(c.metadata, "name"), Str(DefaultTitle))
  }

  /** The `schemaId` getter: `settings-schema`, then `schema-id`, then the
      extension's own schema. */
  function SchemaId(c: Config): (r: Value)
    ensures Truthy(r)
    ensures Truthy(Get(c.metadata, "settings-schema")) ==> r == c.metadata["settings-schema"]
    ensures !Truthy(Get(c.metadata, "settings-schema")) && Truthy(Get(c.metadata, "schema-id")) ==> r == c.metadata["schema-id"]
    ensures !Truthy(Get(c.metadata, "settings-schema")) && !Truthy(Get(c.metadata, "schema-id")) ==> r == Str(DefaultSchema)
  {
    Or(Or(Get(c.metadata, "settings-schema"), Get(c.metadata, "schema-id")), Str(DefaultSchema))
  }

  /** The `developer` getter. */
  function Developer(c: Config): (r: Value)
    ensures Truthy(r)
    ensures Truthy(Get(c.metadata, "developer-name")) ==> r == c.metadata["developer-name"]
    ensures !Truthy(Get(c.metadata, "developer-name")) ==> r == Str(DefaultDeveloper)
  {
    Or(Get(c.metadata, "developer-name"), Str(DefaultDeveloper))
  }

  /** After `init` the `name` getter and the prefix agree on the name. */
  lemma {:induction false} InitNamePrefix(c: Config, given: map<string, Value>, path: Value, isExtension: bool)
    ensures var r := Init(c, given, path, isExtension);
            r.prefix == "[" + ToStr(Name(r)) + "]"
  {
  }

  /** With only the standard metadata keys given, the schema comes from
      `settings-schema` when it is non-empty and otherwise from the
      extension's own schema id, since the defaults leave `schema-id`
      empty. */
  lemma {:induction false} FirstInitSchema(given: map<string, Value>, path: Value, isExtension: bool)
    requires "schema-id" !in given
    ensures var r := Init(Initial, given, path, isExtension);
            SchemaId(r) == (if Truthy(Get(given, "settings-schema")) then given["settings-schema"] else Str(DefaultSchema))
  {
    var r := Init(Initial, given, path, isExtension);
    assert Get(r.metadata, "schema-id") == Str("");
    assert Get(r.metadata, "settings-schema") == if "settings-schema" in given then given["settings-schema"] else Str("");
  }
}

=== FILE: corners.dfy ===
/** Rounded corners (`CornersManager` in app/components/corners.js): the
    effective radius, and the rewrite of a user `gtk.css` that replaces the
    extension's marker-delimited block while keeping the rest of the file. */
module Corners {
  import opened Wrappers
  import opened Text

  const BlockStart: string := "/* LESION-CORNERS-START */"
  const BlockEnd: string := "/* LESION-CORNERS-END */"

  /** `_sync`: a flat look forces radius 0. */
  function EffectiveRadius(isFlat: bool, radius: int): (r: int)
    ensures isFlat ==> r == 0
    ensures !isFlat ==> r == radius
  {
    if isFlat then 0 else radius
  }

  /** One leading line break dropped, as the `\n?` after the end marker does. */
  function DropNewline(s: string): (r: string)
    ensures |r| <= |s| <= |r| + 1
  {
    if |s| > 0 && s[0] == '\n' then s[1..] else s
  }

  /** `content.replace(/START[\s\S]*?END\n?/g, '')` for markers `start` and
      `end`: repeatedly, the leftmost start marker and the nearest end marker
      after it are cut out together with what lies between them and at most
      one following line break. A start marker with no end marker after it is
      left alone, and so is everything after it. */
  function RemoveBetween(c: string, start: string, end: string): (r: string)
    requires |start| > 0
    ensures |r| <= |c|
    decreases |c|, 1
  {
    var i := FindFrom(c, start, 0);
    if i.None? then c
    else
      var j := FindFrom(c, end, i.value + |start|);
      if j.None? then c
      else Cut(c, start, end, i.value, j.value)
  }

  /** One match of the regex cut out: the start marker at `i`, the end marker
      at `j`, then the search goes on after the end marker and one optional
      line break. */
  function Cut(c: string, start: string, end: string, i: nat, j: nat): (r: string)
    requires |start| > 0 && i + |start| <= j && j + |end| <= |c|
    ensures |r| <= |c| - |start| - |end|
    decreases |c|, 0
  {
    c[..i] + RemoveBetween(DropNewline(c[j + |end|..]), start, end)
  }

  /** The cleaning regex of `_writeUserGtkConfig`, with the extension's
      markers. */
  function RemoveBlocks(c: string): (r: string)
    ensures |r| <= |c|
  {
    RemoveBetween(c, BlockStart, BlockEnd)
  }

  /** A text without a start marker is kept as it is. */
  lemma {:induction false} RemoveBlocksNoMarker(c: string)
    requires !Contains(c, BlockStart)
    ensures RemoveBlocks(c) == c
  {
    NoStartKept(c, BlockStart, BlockEnd);
  }

  lemma {:induction false} NoStartKept(c: string, start: string, end: string)
    requires |start| > 0 && !Contains(c, start)
    ensures RemoveBetween(c, start, end) == c
  {
    FindFromSpec(c, start, 0);
    assert FindFrom(c, start, 0).None?;
  }

  lemma {:induction false} MarkersHaveNoLineBreak()
    ensures '\n' !in BlockStart && '\n' !in BlockEnd
    ensures 'O' in BlockEnd
  {
    assert BlockEnd[7] == 'O';
  }

  /** The first occurrence of `start` in `pre + tail` is the one `tail` begins
      with, when `pre` lacks it and ends in a line break (or is empty). */
  lemma {:induction false} FirstStartAfter(pre: string, tail: string, start: string)
    requires '\n' !in start
    requires !Contains(pre, start) && (|pre| == 0 || pre[|pre| - 1] == '\n')
    requires StartsWith(tail, start)
    ensures FindFrom(pre + tail, start, 0) == Some(|pre|)
  {
    var s := pre + tail;
    StartsWithOccurs(tail, start);
    OccursShift(pre, tail, start, 0);
    forall k | 0 <= k < |pre|
      ensures !OccursAt(s, start, k)
    {
      if k + |start| <= |pre| {
        NoOccurrenceInside(pre, tail, start, k);
      } else {
        NoOccurrenceAcross(pre, tail, start, k);
      }
    }
    FindFromIs(s, start, 0, |pre|);
  }

  /** Searching from the end of `before`, the first occurrence of `end` is the
      one `tail` begins with, when `lead` lacks it and ends in a line break
      (or is empty). */
  lemma {:induction false} FirstEndAfter(before: string, lead: string, tail: string, end: string)
    requires '\n' !in end
    requires !Contains(lead, end) && (|lead| == 0 || lead[|lead| - 1] == '\n')
    requires StartsWith(tail, end)
    ensures FindFrom(before + (lead + tail), end, |before|) == Some(|before| + |lead|)
  {
    FirstStartAfter(lead, tail, end);
    FindFromShift(before, lead + tail, end, 0);
  }

  /** `FirstStartAfter` for a whole block. */
  lemma {:induction false} StartFound(pre: string, start: string, body: string, end: string, rest: string)
    requires '\n' !in start
    requires !Contains(pre, start) && (|pre| == 0 || pre[|pre| - 1] == '\n')
    ensures FindFrom(pre + start + body + end + rest, start, 0) == Some(|pre|)
  {
    var s := pre + start + body + end + rest;
    assert s == pre + (start + body + end + rest);
    FirstStartAfter(pre, start + body + end + rest, start);
  }

  /** The text before a block and after it, read back from the whole. */
  lemma {:induction false} BlockPieces(pre: string, start: string, body: string, end: string, rest: string)
    ensures var s := pre + start + body + end + rest;
            && s[..|pre|] == pre
            && s[|pre| + |start| + |body| + |end|..] == rest
  {
    var s := pre + start + body + end + rest;
    assert s == pre + (start + body + end) + rest;
  }

  /** `FirstEndAfter` for a whole block. */
  lemma {:induction false} EndFound(pre: string, start: string, body: string, end: string, rest: string)
    requires '\n' !in end
    requires !Contains(body, end) && (|body| == 0 || body[|body| - 1] == '\n')
    ensures FindFrom(pre + start + body + end + rest, end, |pre| + |start|) == Some(|pre| + |start| + |body|)
  {
    var s := pre + start + body + end + rest;
    assert s == (pre + start) + (body + (end + rest));
    FirstEndAfter(pre + start, body, end + rest, end);
  }

  /** One step of `RemoveBetween`, given where the two markers are found. */
  lemma {:induction false} RemoveStep(c: string, start: string, end: string, i: nat, j: nat)
    requires |start| > 0
    requires FindFrom(c, start, 0) == Some(i)
    requires FindFrom(c, end, i + |start|) == Some(j)
    ensures i + |start| <= j && j + |end| <= |c|
    ensures RemoveBetween(c, start, end) == Cut(c, start, end, i, j)
  {
    var i0 := FindFrom(c, start, 0).value;
    var j0 := FindFrom(c, end, i0 + |start|).value;
    assert i0 == i && j0 == j;
    assert RemoveBetween(c, start, end) == Cut(c, start, end, i0, j0);
  }

  /** Text outside the block is kept: a block preceded by marker-free text
      (ending in a line break, or empty) and holding no end marker is cut out
      with one following line break, and the text before it survives as is. */
  lemma {:induction false} RemoveLeadingBlock(pre: string, body: string, rest: string, start: string, end: string)
    requires |start| > 0 && '\n' !in start && '\n' !in end
    requires !Contains(pre, start) && (|pre| == 0 || pre[|pre| - 1] == '\n')
    requires !Contains(body, end) && (|body| == 0 || body[|body| - 1] == '\n')
    ensures RemoveBetween(pre + start + body + end + rest, start, end)
         == pre + RemoveBetween(DropNewline(rest), start, end)
  {
    var s := pre + start + body + end + rest;
    var j := |pre| + |start| + |body|;
    StartFound(pre, start, body, end, rest);
    EndFound(pre, start, body, end, rest);
    BlockPieces(pre, start, body, end, rest);
    RemoveStep(s, start, end, |pre|, j);
  }

  /** `_writeUserGtkConfig` on the file's current text (empty when the file is
      missing or unreadable): remove the old block, then append the new
      content when there is any, after a line break if the remaining text
      does not end in one. */
  function WriteConfig(existing: Option<string>, newContent: string): (r: string)
    ensures newContent == "" ==> r == RemoveBlocks(existing.GetOr(""))
    ensures newContent != "" ==>
              var kept := RemoveBlocks(existing.GetOr(""));
              r == kept + Separator(kept) + newContent
  {
    var content := RemoveBlocks(existing.GetOr(""));
    if newContent == "" then content
    else content + Separator(content) + newContent
  }

  /** The line break inserted before appended content. */
  function Separator(kept: string): (sep: string)
    ensures sep == "\n" <==> |kept| > 0 && kept[|kept| - 1] != '\n'
    ensures sep == "" || sep == "\n"
  {
    if |kept| > 0 && !EndsWith(kept, "\n") then "\n" else ""
  }

  /** The GTK rules `_syncGtk` writes between the markers, from the line
      break after the start marker: three rules, each setting a radius in
      pixels with `!important`. */
  function GtkRules(radius: int): string
  {
    var px := Pixels(radius);
    "\n" + WindowRule(px) + "\n" + BottomRule(px) + "\n" + PopoverRule(px)
  }

  /** A declaration's value: the radius in pixels, marked `!important`. */
  function Pixels(radius: int): string
  {
    IntToString(radius) + Important()
  }

  /** The rule rounding every corner of windows and decorations. */
  function WindowRule(px: string): string
  {
    ForceComment() + WindowSelectors() + DecorationSelectors()
    + Declaration("border-radius") + px + "}\n"
  }

  /** The rule rounding the bottom corners of client-side decorated windows. */
  function BottomRule(px: string): string
  {
    BottomComment() + CsdSelectors()
    + Declaration("border-bottom-left-radius") + px
    + Declaration("border-bottom-right-radius") + px + "}\n"
  }

  /** The rule rounding popovers and menus. */
  function PopoverRule(px: string): string
  {
    PopoverComment() + PopoverSelectors() + Declaration("border-radius") + px + "}\n"
  }

  /** An indented declaration up to its value. */
  function Declaration(property: string): string
  {
    "    " + property + ": "
  }

  function Important(): string
  {
    "px !important;\n"
  }

  function ForceComment(): string
  {
    "/* Force radius on main " + "window elements */\n"
  }

  function WindowSelectors(): string
  {
    "window, \n" + ".background, \n" + ".window-frame, \n"
  }

  function DecorationSelectors(): string
  {
    ".decoration,\n" + "decoration {\n"
  }

  function BottomComment(): string
  {
    "/* Fix bottom corners " + "specifically for " + "Libadwaita/Adwaita */\n"
  }

  function CsdSelectors(): string
  {
    "window.csd, \n" + ".window-frame.csd, \n" + ".solid-csd {\n"
  }

  function PopoverComment(): string
  {
    "/* Popovers and Menus */\n"
  }

  function PopoverSelectors(): string
  {
    "menu, .csd.popup {\n"
  }

  /** The whole block `_syncGtk` appends: it starts with a line break. */
  function GtkBlock(radius: int): string
  {
    Block(GtkRules(radius))
  }

  /** Rules wrapped in the extension's markers. */
  function Block(rules: string): string
  {
    BlockBetween(rules, BlockStart, BlockEnd)
  }

  /** Rules wrapped in markers, with a line break before and after. */
  function BlockBetween(rules: string, start: string, end: string): string
  {
    "\n" + start + rules + end + "\n"
  }

  lemma {:induction false} IntToStringNoLetterO(i: int)
    ensures 'O' !in IntToString(i)
  {
    var s := IntToString(i);
    forall k | 0 <= k < |s|
      ensures s[k] != 'O'
    {
      if i < 0 && k > 0 {
        assert s[k] == NatToString(-i)[k - 1];
      }
    }
  }

  // No piece of the template holds a capital O, one lemma per piece to keep
  // each proof small.

  lemma {:induction false} DeclarationNoLetterO(property: string)
    requires 'O' !in property
    ensures 'O' !in Declaration(property)
  {
  }

  lemma {:induction false} PropertiesNoLetterO()
    ensures 'O' !in "border-radius"
    ensures 'O' !in "border-bottom-left-radius"
    ensures 'O' !in "border-bottom-right-radius"
  {
  }

  lemma {:induction false} ImportantNoLetterO()
    ensures 'O' !in Important()
  {
  }

  lemma {:induction false} ForceCommentNoLetterO()
    ensures 'O' !in ForceComment()
  {
    assert 'O' !in "/* Force radius on main ";
    assert 'O' !in "window elements */\n";
  }

  lemma {:induction false} WindowSelectorsNoLetterO()
    ensures 'O' !in WindowSelectors()
  {
    assert 'O' !in "window, \n";
    assert 'O' !in ".background, \n";
    assert 'O' !in ".window-frame, \n";
  }

  lemma {:induction false} DecorationSelectorsNoLetterO()
    ensures 'O' !in DecorationSelectors()
  {
    assert 'O' !in ".decoration,\n";
    assert 'O' !in "decoration {\n";
  }

  lemma {:induction false} BottomCommentNoLetterO()
    ensures 'O' !in BottomComment()
  {
    assert 'O' !in "/* Fix bottom corners ";
    assert 'O' !in "specifically for ";
    assert 'O' !in "Libadwaita/Adwaita */\n";
  }

  lemma {:induction false} CsdSelectorsNoLetterO()
    ensures 'O' !in CsdSelectors()
  {
    assert 'O' !in "window.csd, \n";
    assert 'O' !in ".window-frame.csd, \n";
    assert 'O' !in ".solid-csd {\n";
  }

  lemma {:induction false} PopoverNoLetterO()
    ensures 'O' !in PopoverComment() && 'O' !in PopoverSelectors()
  {
  }

  lemma {:induction false} PixelsNoLetterO(radius: int)
    ensures 'O' !in Pixels(radius)
  {
    IntToStringNoLetterO(radius);
    ImportantNoLetterO();
  }

  lemma {:induction false} WindowRuleNoLetterO(px: string)
    requires 'O' !in px
    ensures 'O' !in WindowRule(px)
  {
    PropertiesNoLetterO();
    DeclarationNoLetterO("border-radius");
    ForceCommentNoLetterO();
    WindowSelectorsNoLetterO();
    DecorationSelectorsNoLetterO();
  }

  lemma {:induction false} BottomRuleNoLetterO(px: string)
    requires 'O' !in px
    ensures 'O' !in BottomRule(px)
  {
    PropertiesNoLetterO();
    DeclarationNoLetterO("border-bottom-left-radius");
    DeclarationNoLetterO("border-bottom-right-radius");
    BottomCommentNoLetterO();
    CsdSelectorsNoLetterO();
  }

  lemma {:induction false} PopoverRuleNoLetterO(px: string)
    requires 'O' !in px
    ensures 'O' !in PopoverRule(px)
  {
    PropertiesNoLetterO();
    DeclarationNoLetterO("border-radius");
    PopoverNoLetterO();
  }

  lemma {:induction false} RulesHaveNoLetterO(radius: int)
    ensures 'O' !in GtkRules(radius)
  {
    var px := Pixels(radius);
    PixelsNoLetterO(radius);
    WindowRuleNoLetterO(px);
    BottomRuleNoLetterO(px);
    PopoverRuleNoLetterO(px);
  }

  /** The rules never contain the end marker (they have no capital O) and end
      in a line break. */
  lemma {:induction false} GtkRulesWellFormed(radius: int)
    ensures WellFormedRules(GtkRules(radius))
  {
    MarkersHaveNoLineBreak();
    RulesHaveNoLetterO(radius);
    MissingCharNoContains(GtkRules(radius), BlockEnd, 'O');
  }

  /** Rules that can sit between the markers and be removed again: no end
      marker inside, and a final line break. */
  predicate WellFormedRules(rules: string)
  {
    !Contains(rules, BlockEnd) && |rules| > 0 && rules[|rules| - 1] == '\n'
  }

  /** A file whose text, once cleaned, holds no start marker. */
  predicate CleanAfterRemoval(existing: Option<string>)
  {
    !Contains(RemoveBlocks(existing.GetOr("")), BlockStart)
  }

  /** Text free of `start` stays free of it when a line break is appended. */
  lemma {:induction false} AppendLineBreakNoMarker(t: string, start: string)
    requires |start| > 0 && '\n' !in start && !Contains(t, start)
    ensures !Contains(t + "\n", start)
  {
    var u := t + "\n";
    forall k | 0 <= k <= |u| - |start|
      ensures !OccursAt(u, start, k)
    {
      if k + |start| <= |t| {
        NoOccurrenceInside(t, "\n", start, k);
      } else {
        OccursAtIff(u, start, k);
        var t := |u| - 1 - k;
        assert start[t] != '\n';
        assert u[k + t] == '\n';
      }
    }
  }

  /** Cleaning an empty file gives an empty file. */
  lemma {:induction false} RemoveBetweenEmpty(start: string, end: string)
    requires |start| > 0
    ensures RemoveBetween("", start, end) == ""
  {
    assert !OccursAt("", start, 0);
    assert FindFrom("", start, 0).None?;
  }

  /** A written block, regrouped around its start marker. */
  lemma {:induction false} BlockShape(kept: string, sep: string, rules: string, start: string, end: string)
    ensures kept + sep + BlockBetween(rules, start, end) == (kept + sep + "\n") + start + rules + end + "\n"
  {
  }

  /** `ReapplyBlock` for any markers: cleaning what the first write produced
      gives back the kept text, its separator and the block's leading line
      break. */
  lemma {:induction false} ReapplyBetween(kept: string, rules: string, start: string, end: string)
    requires |start| > 0 && '\n' !in start && '\n' !in end
    requires !Contains(kept, start) && !Contains(rules, end) && |rules| > 0 && rules[|rules| - 1] == '\n'
    ensures RemoveBetween(kept + Separator(kept) + BlockBetween(rules, start, end), start, end)
         == kept + Separator(kept) + "\n"
  {
    var sk := kept + Separator(kept);
    BlockShape(kept, Separator(kept), rules, start, end);
    assert !Contains(sk, start) by {
      if Separator(kept) == "\n" {
        AppendLineBreakNoMarker(kept, start);
      } else {
        assert sk == kept;
      }
    }
    AppendLineBreakNoMarker(sk, start);
    RemoveLeadingBlock(sk + "\n", rules, "\n", start, end);
    assert DropNewline("\n") == "";
    RemoveBetweenEmpty(start, end);
  }

  /** Applying a block and then cleaning removes exactly the block but keeps
      its leading line break: the rewrite is not idempotent, and each
      re-application leaves one more line break behind. */
  lemma {:induction false} ReapplyBlock(existing: Option<string>, rules: string)
    requires CleanAfterRemoval(existing) && WellFormedRules(rules)
    ensures var kept := RemoveBlocks(existing.GetOr(""));
            var once := WriteConfig(existing, Block(rules));
            && RemoveBlocks(once) == kept + Separator(kept) + "\n"
            && WriteConfig(Some(once), Block(rules)) == kept + Separator(kept) + "\n" + Block(rules)
  {
    var kept := RemoveBlocks(existing.GetOr(""));
    var block := Block(rules);
    BlockLength(rules, BlockStart, BlockEnd);
    var once := WriteConfig(existing, block);
    assert once == kept + Separator(kept) + block;
    MarkersHaveNoLineBreak();
    ReapplyBetween(kept, rules, BlockStart, BlockEnd);
    var pre := kept + Separator(kept) + "\n";
    assert RemoveBlocks(once) == pre;
    assert Separator(pre) == "";
    assert pre + Separator(pre) == pre;
    assert WriteConfig(Some(once), block) == pre + block;
  }

  lemma {:induction false} BlockLength(rules: string, start: string, end: string)
    ensures |BlockBetween(rules, start, end)| == |rules| + |start| + |end| + 2
  {
  }

  /** `ReapplyBlock` for the block `_syncGtk` writes. */
  lemma {:induction false} ReapplyLeavesLineBreak(existing: Option<string>, radius: int)
    requires CleanAfterRemoval(existing)
    ensures var kept := RemoveBlocks(existing.GetOr(""));
            var once := WriteConfig(existing, GtkBlock(radius));
            && RemoveBlocks(once) == kept + Separator(kept) + "\n"
            && WriteConfig(Some(once), GtkBlock(radius)) == kept + Separator(kept) + "\n" + GtkBlock(radius)
  {
    GtkRulesWellFormed(radius);
    ReapplyBlock(existing, GtkRules(radius));
  }

  /** Cleaning (writing empty content) only removes blocks and appends
      nothing; a file without a start marker is left unchanged. */
  lemma {:induction false} CleanOnlyRemoves(existing: string)
    ensures WriteConfig(Some(existing), "") == RemoveBlocks(existing)
    ensures !Contains(existing, BlockStart) ==> WriteConfig(Some(existing), "") == existing
  {
    if !Contains(existing, BlockStart) {
      RemoveBlocksNoMarker(existing);
    }
  }

  /** The new contents of the GTK 4 and GTK 3 `gtk.css` files. */
  datatype GtkFiles = GtkFiles(gtk4: string, gtk3: string)

  /** `_sync` on the GTK side: when disabled both files are cleaned,
      otherwise both receive the block for the effective radius. */
  function SyncGtk(enabled: bool, isFlat: bool, radius: int, gtk4: Option<string>, gtk3: Option<string>): (f: GtkFiles)
    ensures !enabled ==> f == GtkFiles(RemoveBlocks(gtk4.GetOr("")), RemoveBlocks(gtk3.GetOr("")))
    ensures enabled ==> f == GtkFiles(WriteConfig(gtk4, GtkBlock(EffectiveRadius(isFlat, radius))),
                                      WriteConfig(gtk3, GtkBlock(EffectiveRadius(isFlat, radius))))
    ensures enabled ==> EndsWith(f.gtk4, GtkBlock(EffectiveRadius(isFlat, radius)))
                        && EndsWith(f.gtk3, GtkBlock(EffectiveRadius(isFlat, radius)))
  {
    if !enabled then GtkFiles(WriteConfig(gtk4, ""), WriteConfig(gtk3, ""))
    else
      var block := GtkBlock(EffectiveRadius(isFlat, radius));
      AppendedEndsWith(gtk4, block);
      AppendedEndsWith(gtk3, block);
      GtkFiles(WriteConfig(gtk4, block), WriteConfig(gtk3, block))
  }

  /** Non-empty content always ends up at the end of the file. */
  lemma {:induction false} AppendedEndsWith(existing: Option<string>, newContent: string)
    ensures EndsWith(WriteConfig(existing, newContent), newContent)
  {
    var kept := RemoveBlocks(existing.GetOr(""));
    var r := WriteConfig(existing, newContent);
    if newContent != "" {
      assert r == (kept + Separator(kept)) + newContent;
      assert r[|r| - |newContent|..] == newContent;
    }
  }

  // ---------------------------------------------------------------------
  // _escapeRegExp
  // ---------------------------------------------------------------------

  /** The characters `_escapeRegExp` escapes: `.*+?^${}()|[]\`. */
  predicate IsRegExpSpecial(c: char)
  {
    c == '.' || c == '*' || c == '+' || c == '?' || c == '^' || c == '$' || c == '{' || c == '}'
    || c == '(' || c == ')' || c == '|' || c == '[' || c == ']' || c == '\\'
  }

  /** Each special character gets a backslash in front of it. */
  function EscapeRegExp(s: string): (r: string)
    ensures |r| >= |s|
  {
    if |s| == 0 then ""
    else (if IsRegExpSpecial(s[0]) then ['\\', s[0]] else [s[0]]) + EscapeRegExp(s[1..])
  }

  /** Reads an escaped pattern back: a backslash takes the next character
      literally. */
  function Unescape(t: string): string
    decreases |t|
  {
    if |t| == 0 then ""
    else if t[0] == '\\' && |t| >= 2 then [t[1]] + Unescape(t[2..])
    else [t[0]] + Unescape(t[1..])
  }

  /** Escaping loses nothing: unescaping gives the text back, and only the
      special characters gain a backslash. */
  lemma {:induction false} EscapeRoundTrip(s: string)
    ensures Unescape(EscapeRegExp(s)) == s
    ensures (forall k :: 0 <= k < |s| ==> !IsRegExpSpecial(s[k])) ==> EscapeRegExp(s) == s
  {
    if |s| > 0 {
      EscapeRoundTrip(s[1..]);
      var rest := EscapeRegExp(s[1..]);
      if IsRegExpSpecial(s[0]) {
        var t := ['\\', s[0]] + rest;
        assert t[2..] == rest;
      } else {
        var t := [s[0]] + rest;
        assert t[1..] == rest;
      }
    }
  }

  /** Every character of an escaped pattern that is special is preceded by a
      backslash: the count of added backslashes equals the count of special
      characters. */
  function SpecialCount(s: string): nat
  {
    if |s| == 0 then 0 else (if IsRegExpSpecial(s[0]) then 1 else 0) + SpecialCount(s[1..])
  }

  lemma {:induction false} EscapeLength(s: string)
    ensures |EscapeRegExp(s)| == |s| + SpecialCount(s)
  {
    if |s| > 0 {
      EscapeLength(s[1..]);
    }
  }
}

=== FILE: css_page.dfy ===
/** The styles page of the preferences (app/page/css.js): the description
    read from a stylesheet's leading comment, the listing of bundled
    stylesheets, and the edits the page makes to the `enabled-styles` and
    `custom-styles` settings. */
module CssPage {
  import opened Wrappers
  import opened Text
  import opened Lists

  // ---------------------------------------------------------------------
  // Description from the leading comment
  // ---------------------------------------------------------------------

  /** First index at or after `i` that does not hold white space (`\s*`). */
  function SkipSpaces(s: string, i: nat): (e: nat)
    requires i <= |s|
    ensures i <= e <= |s|
    ensures e < |s| ==> !IsSpace(s[e])
    decreases |s| - i
  {
    if i < |s| && IsSpace(s[i]) then SkipSpaces(s, i + 1) else i
  }

  /** First index at or after `i` that does not hold a star (`\*+`, greedy). */
  function StarRunEnd(s: string, i: nat): (e: nat)
    requires i <= |s|
    ensures i <= e <= |s|
    ensures e < |s| ==> s[e] != '*'
    decreases |s| - i
  {
    if i < |s| && s[i] == '*' then StarRunEnd(s, i + 1) else i
  }

  /** `\*+\/` matches at `p`: one or more stars, then a slash. */
  predicate CloseAt(s: string, p: nat)
  {
    p < |s| && s[p] == '*' && StarRunEnd(s, p) < |s| && s[StarRunEnd(s, p)] == '/'
  }

  /** The leftmost `p >= g` where the comment closes: the lazy `[\s\S]*?`
      stops at the first place `\*+\/` can match. */
  function FindClose(s: string, g: nat): (r: Option<nat>)
    requires g <= |s|
    ensures r.Some? ==> g <= r.value < |s|
    decreases |s| - g
  {
    if g == |s| then None
    else if CloseAt(s, g) then Some(g)
    else FindClose(s, g + 1)
  }

  lemma {:induction false} FindCloseSpec(s: string, g: nat)
    requires g <= |s|
    ensures FindClose(s, g).Some? ==> CloseAt(s, FindClose(s, g).value)
    ensures FindClose(s, g).Some? ==> forall q :: g <= q < FindClose(s, g).value ==> !CloseAt(s, q)
    ensures FindClose(s, g).None? ==> forall q :: g <= q ==> !CloseAt(s, q)
    decreases |s| - g
  {
    if g < |s| && !CloseAt(s, g) {
      FindCloseSpec(s, g + 1);
    }
  }

  lemma {:induction false} FindCloseIs(s: string, g: nat, p: nat)
    requires g <= p && CloseAt(s, p)
    requires forall q :: g <= q < p ==> !CloseAt(s, q)
    ensures FindClose(s, g) == Some(p)
    decreases p - g
  {
    if g < p {
      FindCloseIs(s, g + 1, p);
    }
  }

  /** `^\s*\/\*`: after optional white space the text opens a comment. */
  predicate OpensComment(text: string)
  {
    var i := SkipSpaces(text, 0);
    i + 1 < |text| && text[i] == '/' && text[i + 1] == '*'
  }

  /** The capture of `/^\s*\/\*+([\s\S]*?)\*+\//` when the pattern matches
      with a non-empty capture; `None` otherwise. The greedy `\*+` after the
      opening slash takes the whole run of stars, and giving some of them back
      can only produce a match whose capture is empty. */
  function CommentBody(text: string): (r: Option<string>)
    ensures r.Some? ==> OpensComment(text)
    ensures r.Some? ==> r.value != ""
  {
    var i := SkipSpaces(text, 0);
    if OpensComment(text) then
      var g := StarRunEnd(text, i + 1);
      match FindClose(text, g)
      case None => None
      case Some(p) =>
        FindCloseSpec(text, g);
        Some(text[g..p])
    else None
  }

  /** Number of leading white-space characters. */
  function LeadingSpaces(line: string): (n: nat)
    ensures n <= |line|
  {
    SkipSpaces(line, 0)
  }

  /** `line.replace(/^\s*\*\s?/, '')`: leading white space, one star and one
      optional white-space character are removed when the star is there. */
  function StripStar(line: string): (r: string)
    ensures |r| <= |line| && r == line[|line| - |r|..]
  {
    var n := LeadingSpaces(line);
    if n < |line| && line[n] == '*' then
      var t := line[n + 1..];
      if |t| > 0 && IsSpace(t[0]) then t[1..] else t
    else line
  }

  /** Non-empty, with no white space at either end. */
  predicate Clean(x: string)
  {
    x != "" && !IsSpace(x[0]) && !IsSpace(x[|x| - 1])
  }

  /** One line of the comment, cleaned: star prefix removed, then trimmed. */
  function CleanLine(line: string): (r: string)
    ensures r == "" || Clean(r)
  {
    Trim(StripStar(line))
  }

  /** `.map(clean).filter(line => line.length > 0)`. */
  function CleanLines(lines: seq<string>): (r: seq<string>)
    ensures |r| <= |lines|
    ensures forall k :: 0 <= k < |r| ==> Clean(r[k])
  {
    if |lines| == 0 then []
    else
      var c := CleanLine(lines[0]);
      (if c == "" then [] else [c]) + CleanLines(lines[1..])
  }

  /** `_extractCssDescription` on the file's text (the read itself, and its
      failure, are not modelled): the cleaned, non-empty lines of the leading
      comment joined with single spaces, or `None` without such a comment. */
  function ExtractDescription(text: string): (r: Option<string>)
    ensures r.Some? ==> OpensComment(text)
  {
    match CommentBody(text)
    case None => None
    case Some(body) => Some(JoinedLines(body))
  }

  /** The comment's cleaned, non-empty lines joined with single spaces. */
  function JoinedLines(body: string): string
  {
    Join(CleanLines(Split(body, '\n')), " ")
  }

  /** Cleaning a line only removes characters. */
  lemma {:induction false} CleanLineNoChar(line: string, c: char)
    requires c !in line
    ensures c !in CleanLine(line)
  {
    var t := StripStar(line);
    assert c !in t by {
      SuffixNoChar(line, |line| - |t|, c);
    }
    var a := TrimStart(t);
    assert c !in a by {
      TrimStartSpec(t);
      SuffixNoChar(t, |t| - |a|, c);
    }
    var b := TrimEnd(a);
    assert c !in b by {
      TrimEndSpec(a);
      PrefixNoChar(a, |b|, c);
    }
  }

  lemma {:induction false} PrefixNoChar(s: string, i: nat, c: char)
    requires i <= |s| && c !in s
    ensures c !in s[..i]
  {
    assert s == s[..i] + s[i..];
  }

  lemma {:induction false} SuffixNoChar(s: string, i: nat, c: char)
    requires i <= |s| && c !in s
    ensures c !in s[i..]
  {
    assert s == s[..i] + s[i..];
  }

  /** No piece holds `c`. */
  predicate NoneHolds(lines: seq<string>, c: char)
  {
    forall k :: 0 <= k < |lines| ==> c !in lines[k]
  }

  lemma {:induction false} CleanLinesNoChar(lines: seq<string>, c: char)
    requires NoneHolds(lines, c)
    ensures NoneHolds(CleanLines(lines), c)
  {
    if |lines| > 0 {
      var h := CleanLine(lines[0]);
      var hs := if h == "" then [] else [h];
      NoneHoldsTail(lines, c);
      CleanLineNoChar(lines[0], c);
      CleanLinesNoChar(lines[1..], c);
      NoneHoldsAppend(hs, CleanLines(lines[1..]), c);
      CleanLinesStep(lines);
    }
  }

  lemma {:induction false} NoneHoldsTail(lines: seq<string>, c: char)
    requires |lines| > 0 && NoneHolds(lines, c)
    ensures c !in lines[0] && NoneHolds(lines[1..], c)
  {
    var t := lines[1..];
    forall k | 0 <= k < |t| ensures c !in t[k] {
      assert t[k] == lines[k + 1];
    }
  }

  lemma {:induction false} NoneHoldsAppend(a: seq<string>, b: seq<string>, c: char)
    requires NoneHolds(a, c) && NoneHolds(b, c)
    ensures NoneHolds(a + b, c)
  {
    var r := a + b;
    forall k | 0 <= k < |r| ensures c !in r[k] {
      if k >= |a| {
        assert r[k] == b[k - |a|];
      }
    }
  }

  /** One unfolding of `CleanLines`. */
  lemma {:induction false} CleanLinesStep(lines: seq<string>)
    requires |lines| > 0
    ensures CleanLines(lines) == (if CleanLine(lines[0]) == "" then [] else [CleanLine(lines[0])]) + CleanLines(lines[1..])
  {
  }

  /** A description is one line, and when it is not empty it has no white
      space at either end. */
  lemma {:induction false} DescriptionShape(text: string)
    requires ExtractDescription(text).Some?
    ensures var d := ExtractDescription(text).value;
            && '\n' !in d
            && (d != "" ==> !IsSpace(d[0]) && !IsSpace(d[|d| - 1]))
  {
    JoinedLinesShape(CommentBody(text).value);
  }

  lemma {:induction false} JoinedLinesShape(body: string)
    ensures var d := JoinedLines(body);
            && '\n' !in d
            && (d != "" ==> !IsSpace(d[0]) && !IsSpace(d[|d| - 1]))
  {
    JoinedLinesOneLine(body);
    var lines := CleanLines(Split(body, '\n'));
    if |lines| > 0 {
      JoinEnds(lines, " ");
    }
  }

  lemma {:induction false} JoinedLinesOneLine(body: string)
    ensures '\n' !in Join(CleanLines(Split(body, '\n')), " ")
  {
    var pieces := Split(body, '\n');
    assert NoneHolds(pieces, '\n');
    CleanLinesNoChar(pieces, '\n');
    JoinNoChar(CleanLines(pieces), " ", '\n');
  }

  /** Padding a trimmed text with one space on each side and trimming gives it
      back. */
  lemma {:induction false} TrimPadded(d: string)
    requires d != "" && !IsSpace(d[0]) && !IsSpace(d[|d| - 1])
    ensures Trim(" " + d + " ") == d
  {
    var p := " " + d + " ";
    assert p[1..] == d + " ";
    assert TrimStart(p) == TrimStart(d + " ");
    assert TrimStart(d + " ") == d + " ";
    assert (d + " ")[..|d|] == d;
    assert TrimEnd(d + " ") == TrimEnd(d);
    assert TrimEnd(d) == d;
  }

  /** A one-line comment `/* d */` opening the file describes it as `d`, when
      `d` holds no star and no line break and has no white space at its
      ends. */
  lemma {:induction false} DescriptionOfOneLineComment(d: string)
    requires d != "" && '*' !in d && '\n' !in d
    requires !IsSpace(d[0]) && !IsSpace(d[|d| - 1])
    ensures ExtractDescription("/* " + d + " */") == Some(d)
  {
    OneLineCommentBody(d);
    CleanPaddedLine(d);
  }

  lemma {:induction false} OneLineCommentBody(d: string)
    requires '*' !in d
    ensures CommentBody("/* " + d + " */") == Some(" " + d + " ")
  {
    var text := "/* " + d + " */";
    var p := |d| + 4;
    assert text[0] == '/' && text[1] == '*' && text[2] == ' ';
    assert text[p] == '*' && text[p + 1] == '/' && text[p - 1] == ' ';
    assert SkipSpaces(text, 0) == 0;
    assert StarRunEnd(text, 1) == 2;
    assert StarRunEnd(text, p + 1) == p + 1;
    assert StarRunEnd(text, p) == p + 1;
    forall q | 2 <= q < p
      ensures !CloseAt(text, q)
    {
      if 3 <= q < p - 1 {
        assert text[q] == d[q - 3];
      }
    }
    FindCloseIs(text, 2, p);
    assert text[2..p] == " " + d + " ";
  }

  lemma {:induction false} CleanPaddedLine(d: string)
    requires d != "" && '\n' !in d && d[0] != '*'
    requires !IsSpace(d[0]) && !IsSpace(d[|d| - 1])
    ensures Join(CleanLines(Split(" " + d + " ", '\n')), " ") == d
  {
    var body := " " + d + " ";
    assert '\n' !in body;
    SplitHead(body, '\n');
    assert body[1] == d[0];
    assert SkipSpaces(body, 1) == 1;
    assert LeadingSpaces(body) == 1;
    assert StripStar(body) == body;
    TrimPadded(d);
    assert CleanLines([body]) == [d];
  }

  // ---------------------------------------------------------------------
  // Bundled styles
  // ---------------------------------------------------------------------

  /** `_listBundledFiles` on the directory's entries: the names ending in
      `.css`, in enumeration order. */
  function CssFiles(names: seq<string>): (r: seq<string>)
    ensures forall n :: n in r <==> n in names && EndsWith(n, ".css")
  {
    if |names| == 0 then []
    else (if EndsWith(names[0], ".css") then [names[0]] else []) + CssFiles(names[1..])
  }

  /** The listing keeps enumeration order: listing two runs of entries is
      listing each and concatenating. */
  lemma {:induction false} CssFilesAppend(a: seq<string>, b: seq<string>)
    ensures CssFiles(a + b) == CssFiles(a) + CssFiles(b)
  {
    if |a| > 0 {
      var h := if EndsWith(a[0], ".css") then [a[0]] else [];
      var ab := a + b;
      assert ab[0] == a[0] && ab[1..] == a[1..] + b;
      assert CssFiles(ab) == h + CssFiles(a[1..] + b);
      CssFilesAppend(a[1..], b);
    } else {
      assert a + b == b;
    }
  }

  /** `list` without its first occurrence of `x`. */
  function RemoveFirst(list: seq<string>, x: string): (r: seq<string>)
  {
    if |list| == 0 then []
    else if list[0] == x then list[1..]
    else [list[0]] + RemoveFirst(list[1..], x)
  }

  /** The switch handler of a bundled style: switching on appends the file
      when it is not listed; switching off splices out its first
      occurrence. */
  function ToggleBundled(list: seq<string>, file: string, state: bool): (r: seq<string>)
    ensures state ==> file in r
    ensures state && file in list ==> r == list
    ensures state && file !in list ==> r == list + [file]
    ensures !state ==> r == RemoveFirst(list, file)
  {
    var i := IndexOf(list, file);
    if state && i == -1 then list + [file]
    else if !state && i > -1 then
      SpliceIsRemoveFirst(list, file);
      list[..i] + list[i + 1..]
    else
      assert !state ==> RemoveFirst(list, file) == list by {
        if !state { RemoveFirstAbsent(list, file); }
      }
      list
  }

  lemma {:induction false} RemoveFirstAbsent(list: seq<string>, x: string)
    requires x !in list
    ensures RemoveFirst(list, x) == list
  {
    if |list| > 0 {
      assert list[1..] == list[1..];
      assert x !in list[1..];
      RemoveFirstAbsent(list[1..], x);
    }
  }

  /** Splicing out the element at `indexOf(x)` is removing the first `x`. */
  lemma {:induction false} SpliceIsRemoveFirst(list: seq<string>, x: string)
    requires x in list
    ensures var i := IndexOf(list, x);
            list[..i] + list[i + 1..] == RemoveFirst(list, x)
  {
    if list[0] == x {
      assert IndexOf(list, x) == 0;
      assert list[..0] + list[1..] == list[1..];
    } else {
      var t := list[1..];
      assert x in t by {
        var k :| 0 <= k < |list| && list[k] == x;
        assert t[k - 1] == x;
      }
      var j := IndexOf(t, x);
      assert IndexOf(list, x) == j + 1;
      SpliceIsRemoveFirst(t, x);
      DropAtTail(list, j);
    }
  }

  /** Removing the first occurrence takes exactly one `x` out of the multiset
      of entries (none when there is none). */
  lemma {:induction false} RemoveFirstMultiset(list: seq<string>, x: string)
    ensures multiset(RemoveFirst(list, x)) == multiset(list) - multiset{x}
  {
    if |list| > 0 {
      assert list == [list[0]] + list[1..];
      if list[0] != x {
        RemoveFirstMultiset(list[1..], x);
      }
    }
  }

  /** Switching a style on and then off gives back a list that lacked it. */
  lemma {:induction false} ToggleOnOff(list: seq<string>, file: string)
    requires file !in list
    ensures ToggleBundled(ToggleBundled(list, file, true), file, false) == list
  {
    var on := list + [file];
    assert ToggleBundled(list, file, true) == on;
    RemoveFirstAppended(list, file);
  }

  lemma {:induction false} RemoveFirstAppended(list: seq<string>, x: string)
    requires x !in list
    ensures RemoveFirst(list + [x], x) == list
  {
    if |list| > 0 {
      assert (list + [x])[1..] == list[1..] + [x];
      assert x !in list[1..];
      RemoveFirstAppended(list[1..], x);
    } else {
      assert list + [x] == [x];
    }
  }

  /** Switching never lists a style twice. */
  lemma {:induction false} ToggleKeepsNoDuplicates(list: seq<string>, file: string, state: bool)
    requires NoDuplicates(list)
    ensures NoDuplicates(ToggleBundled(list, file, state))
  {
    if state && file !in list {
      AppendKeepsNoDuplicates(list, file);
    } else if !state && file in list {
      var i := IndexOf(list, file);
      assert ToggleBundled(list, file, state) == list[..i] + list[i + 1..];
      SpliceKeepsNoDuplicates(list, i);
    }
  }

  lemma {:induction false} AppendKeepsNoDuplicates(list: seq<string>, x: string)
    requires NoDuplicates(list) && x !in list
    ensures NoDuplicates(list + [x])
  {
    var r := list + [x];
    forall a, b | 0 <= a < b < |r|
      ensures r[a] != r[b]
    {
      assert r[a] == list[a];
    }
  }

  lemma {:induction false} SpliceKeepsNoDuplicates(list: seq<string>, i: nat)
    requires NoDuplicates(list) && i < |list|
    ensures NoDuplicates(list[..i] + list[i + 1..])
  {
    var r := list[..i] + list[i + 1..];
    forall a, b | 0 <= a < b < |r|
      ensures r[a] != r[b]
    {
      var a' := if a < i then a else a + 1;
      var b' := if b < i then b else b + 1;
      assert r[a] == list[a'] && r[b] == list[b'];
    }
  }

  // ---------------------------------------------------------------------
  // Custom styles
  // ---------------------------------------------------------------------

  /** An entry of the `custom-styles` setting (`a(sb)`). */
  datatype CustomStyle = CustomStyle(uri: string, enabled: bool)

  /** The remove button: every entry with this URI goes, the rest stay in
      order. */
  function RemoveCustom(styles: seq<CustomStyle>, uri: string): (r: seq<CustomStyle>)
    ensures |r| <= |styles|
  {
    if |styles| == 0 then []
    else (if styles[0].uri == uri then [] else [styles[0]]) + RemoveCustom(styles[1..], uri)
  }

  /** Exactly the entries with another URI survive. */
  lemma {:induction false} RemoveCustomMembers(styles: seq<CustomStyle>, uri: string)
    ensures forall e :: e in RemoveCustom(styles, uri) <==> e in styles && e.uri != uri
  {
    if |styles| > 0 {
      RemoveCustomStep(styles, uri);
      RemoveCustomMembers(styles[1..], uri);
      assert styles == [styles[0]] + styles[1..];
    }
  }

  lemma {:induction false} RemoveCustomAbsent(styles: seq<CustomStyle>, uri: string)
    requires forall k :: 0 <= k < |styles| ==> styles[k].uri != uri
    ensures RemoveCustom(styles, uri) == styles
  {
    if |styles| > 0 {
      RemoveCustomAbsent(styles[1..], uri);
    }
  }

  lemma {:induction false} RemoveCustomAppend(a: seq<CustomStyle>, b: seq<CustomStyle>, uri: string)
    ensures RemoveCustom(a + b, uri) == RemoveCustom(a, uri) + RemoveCustom(b, uri)
  {
    if |a| > 0 {
      var ab := a + b;
      assert ab[0] == a[0] && ab[1..] == a[1..] + b;
      var h := if a[0].uri == uri then [] else [a[0]];
      var ra, rb := RemoveCustom(a[1..], uri), RemoveCustom(b, uri);
      RemoveCustomStep(ab, uri);
      RemoveCustomStep(a, uri);
      RemoveCustomAppend(a[1..], b, uri);
      assert h + (ra + rb) == (h + ra) + rb;
    } else {
      assert a + b == b;
    }
  }

  /** One unfolding of `RemoveCustom`. */
  lemma {:induction false} RemoveCustomStep(styles: seq<CustomStyle>, uri: string)
    requires |styles| > 0
    ensures RemoveCustom(styles, uri) == (if styles[0].uri == uri then [] else [styles[0]]) + RemoveCustom(styles[1..], uri)
  {
  }

  /** The switch of a custom style: entries with this URI take the new flag;
      nothing else changes. */
  function ToggleCustom(styles: seq<CustomStyle>, uri: string, state: bool): (r: seq<CustomStyle>)
    ensures |r| == |styles|
    ensures forall k :: 0 <= k < |r| ==> r[k].uri == styles[k].uri
    ensures forall k :: 0 <= k < |r| && styles[k].uri != uri ==> r[k] == styles[k]
    ensures forall k :: 0 <= k < |r| && styles[k].uri == uri ==> r[k].enabled == state
  {
    seq(|styles|, k requires 0 <= k < |styles| =>
      if styles[k].uri == uri then CustomStyle(styles[k].uri, state) else styles[k])
  }

  /** Switching a style and then removing it is the same as removing it. */
  lemma {:induction false} RemoveAfterToggle(styles: seq<CustomStyle>, uri: string, state: bool)
    ensures RemoveCustom(ToggleCustom(styles, uri, state), uri) == RemoveCustom(styles, uri)
  {
    if |styles| > 0 {
      var t := ToggleCustom(styles, uri, state);
      assert t[1..] == ToggleCustom(styles[1..], uri, state);
      RemoveAfterToggle(styles[1..], uri, state);
    }
  }

  /** The last switch wins. */
  lemma {:induction false} ToggleTwice(styles: seq<CustomStyle>, uri: string, a: bool, b: bool)
    ensures ToggleCustom(ToggleCustom(styles, uri, a), uri, b) == ToggleCustom(styles, uri, b)
  {
  }

  predicate HasUri(styles: seq<CustomStyle>, uri: string)
  {
    exists k :: 0 <= k < |styles| && styles[k].uri == uri
  }

  /** The file chooser's accept handler: the URI is appended, switched on,
      unless an entry already has it. */
  function AddCustom(styles: seq<CustomStyle>, uri: string): (r: seq<CustomStyle>)
    ensures HasUri(r, uri)
    ensures HasUri(styles, uri) ==> r == styles
    ensures !HasUri(styles, uri) ==> r == styles + [CustomStyle(uri, true)]
  {
    if HasUri(styles, uri) then styles
    else
      assert (styles + [CustomStyle(uri, true)])[|styles|].uri == uri;
      styles + [CustomStyle(uri, true)]
  }

  /** No URI is listed twice. */
  predicate UniqueUris(styles: seq<CustomStyle>)
  {
    forall a, b :: 0 <= a < b < |styles| ==> styles[a].uri != styles[b].uri
  }

  /** Adding keeps URIs unique, and removing a URI that was just added gives
      back the list before. */
  lemma {:induction false} AddCustomSpec(styles: seq<CustomStyle>, uri: string)
    ensures UniqueUris(styles) ==> UniqueUris(AddCustom(styles, uri))
    ensures !HasUri(styles, uri) ==> RemoveCustom(AddCustom(styles, uri), uri) == styles
  {
    if !HasUri(styles, uri) {
      var e := CustomStyle(uri, true);
      RemoveCustomAppend(styles, [e], uri);
      RemoveCustomAbsent(styles, uri);
      assert RemoveCustom([e], uri) == [];
    }
  }
}

=== FILE: dock.dfy ===
/** The dock's placement and styling arithmetic (`DockManager` in
    app/components/dock.js): the orientation rule of `_updateLayout`, the
    position computed by `_updatePosition` for each screen edge, with and
    without panel mode, and the CSS declarations `_updateStyles` derives from
    the dock settings. Coordinates are reals because the source halves pixel
    sizes with floating-point division. */
module Dock {
  import opened Wrappers
  import opened Text

  /** Values of the `dock-position` enum. */
  const BOTTOM: int := 0
  const LEFT: int := 1
  const RIGHT: int := 2
  const TOP: int := 3

  /** `_updateLayout`: the dock is laid out vertically on the left and right
      edges. */
  predicate IsVertical(position: int)
  {
    position == LEFT || position == RIGHT
  }

  /** The primary monitor's rectangle. */
  datatype Monitor = Monitor(x: real, y: real, width: real, height: real)

  /** The dock container's current allocation size (`x2 - x1`, `y2 - y1`). */
  datatype Size = Size(width: real, height: real)

  /** The size request `_updatePosition` writes: the container's `width`
      (panel mode on a horizontal edge), its `height` (panel mode on a vertical
      edge), `-1` meaning "natural size", or nothing for an unknown position. */
  datatype Stretch = NoStretch | SetWidth(w: real) | SetHeight(h: real)

  /** The outcome of `_updatePosition`: the position handed to `set_position`
      and the size request made on the way. */
  datatype Placement = Placement(x: real, y: real, stretch: Stretch)

  /** `_updatePosition`. Without an allocation nothing happens (`None`). */
  function UpdatePosition(allocation: Option<Size>, position: int, panelMode: bool, m: Monitor): (r: Option<Placement>)
    ensures allocation.None? <==> r.None?
    // Bottom and top: centred horizontally, flush with the bottom / top edge.
    ensures r.Some? && !panelMode && (position == BOTTOM || position == TOP) ==>
              r.value.x + allocation.value.width / 2.0 == m.x + m.width / 2.0
              && r.value.stretch == SetWidth(-1.0)
    ensures r.Some? && position == BOTTOM ==> r.value.y + allocation.value.height == m.y + m.height
    ensures r.Some? && position == TOP ==> r.value.y == m.y
    // Left and right: centred vertically, flush with the left / right edge.
    ensures r.Some? && !panelMode && IsVertical(position) ==>
              r.value.y + allocation.value.height / 2.0 == m.y + m.height / 2.0
              && r.value.stretch == SetHeight(-1.0)
    ensures r.Some? && position == LEFT ==> r.value.x == m.x
    ensures r.Some? && position == RIGHT ==> r.value.x + allocation.value.width == m.x + m.width
    // Panel mode stretches the dock along its edge.
    ensures r.Some? && panelMode && (position == BOTTOM || position == TOP) ==>
              r.value.x == m.x && r.value.stretch == SetWidth(m.width)
    ensures r.Some? && panelMode && IsVertical(position) ==>
              r.value.y == m.y && r.value.stretch == SetHeight(m.height)
    // Any other enum value leaves the dock at the origin.
    ensures r.Some? && !(0 <= position <= 3) ==> r.value == Placement(0.0, 0.0, NoStretch)
  {
    match allocation
    case None => None
    case Some(a) =>
      var w := a.width;
      var h := a.height;
      if position == BOTTOM then
        var y := m.y + m.height - h;
        if panelMode then Some(Placement(m.x, y, SetWidth(m.width)))
        else Some(Placement(m.x + m.width / 2.0 - w / 2.0, y, SetWidth(-1.0)))
      else if position == LEFT then
        if panelMode then Some(Placement(m.x, m.y, SetHeight(m.height)))
        else Some(Placement(m.x, m.y + m.height / 2.0 - h / 2.0, SetHeight(-1.0)))
      else if position == RIGHT then
        var x := m.x + m.width - w;
        if panelMode then Some(Placement(x, m.y, SetHeight(m.height)))
        else Some(Placement(x, m.y + m.height / 2.0 - h / 2.0, SetHeight(-1.0)))
      else if position == TOP then
        if panelMode then Some(Placement(m.x, m.y, SetWidth(m.width)))
        else Some(Placement(m.x + m.width / 2.0 - w / 2.0, m.y, SetWidth(-1.0)))
      else Some(Placement(0.0, 0.0, NoStretch))
  }

  /** An axis-aligned rectangle by its corners. */
  datatype Rect = Rect(x0: real, y0: real, x1: real, y1: real)

  /** The rectangle the dock occupies once the placement and its size request
      take effect: a stretched axis takes the requested length. */
  function DockRect(p: Placement, a: Size): Rect
  {
    var w := if p.stretch.SetWidth? && p.stretch.w >= 0.0 then p.stretch.w else a.width;
    var h := if p.stretch.SetHeight? && p.stretch.h >= 0.0 then p.stretch.h else a.height;
    Rect(p.x, p.y, p.x + w, p.y + h)
  }

  /** Whether a rectangle lies within the monitor. */
  predicate InsideMonitor(rect: Rect, m: Monitor)
  {
    m.x <= rect.x0 && rect.x1 <= m.x + m.width && m.y <= rect.y0 && rect.y1 <= m.y + m.height
  }

  /** Whether a rectangle touches the monitor edge the position names. */
  predicate OnEdge(rect: Rect, m: Monitor, position: int)
  {
    if position == BOTTOM then rect.y1 == m.y + m.height
    else if position == LEFT then rect.x0 == m.x
    else if position == RIGHT then rect.x1 == m.x + m.width
    else rect.y0 == m.y
  }

  /** A dock no larger than the monitor ends up inside the monitor, against
      the edge its position names; in panel mode it spans that whole edge. */
  lemma {:induction false} PlacementOnEdge(a: Size, position: int, panelMode: bool, m: Monitor)
    requires 0 <= position <= 3
    requires 0.0 <= a.width <= m.width && 0.0 <= a.height <= m.height
    ensures var p := UpdatePosition(Some(a), position, panelMode, m).value;
            var rect := DockRect(p, a);
            && InsideMonitor(rect, m)
            && OnEdge(rect, m, position)
            && (panelMode && !IsVertical(position) ==> rect.x0 == m.x && rect.x1 == m.x + m.width)
            && (panelMode && IsVertical(position) ==> rect.y0 == m.y && rect.y1 == m.y + m.height)
  {
  }

  // ---------------------------------------------------------------------
  // _updateStyles
  // ---------------------------------------------------------------------

  /** A number as `parseInt` returns it: an integer or `NaN`. */
  datatype Channel = Num(n: int) | NaN

  predicate IsHexDigit(c: char)
  {
    ('0' <= c <= '9') || ('a' <= c <= 'f') || ('A' <= c <= 'F')
  }

  function HexDigitValue(c: char): (v: nat)
    requires IsHexDigit(c)
    ensures v < 16
  {
    if '0' <= c <= '9' then c as int - '0' as int
    else if 'a' <= c <= 'f' then c as int - 'a' as int + 10
    else c as int - 'A' as int + 10
  }

  /** Length of the longest prefix of hex digits. */
  function HexRun(s: string): (n: nat)
    ensures n <= |s|
    ensures forall i :: 0 <= i < n ==> IsHexDigit(s[i])
    ensures n < |s| ==> !IsHexDigit(s[n])
  {
    if |s| > 0 && IsHexDigit(s[0]) then 1 + HexRun(s[1..]) else 0
  }

  /** Value of a string of hex digits. */
  function HexValue(s: string): nat
    requires forall i :: 0 <= i < |s| ==> IsHexDigit(s[i])
  {
    if |s| == 0 then 0 else HexValue(s[..|s| - 1]) * 16 + HexDigitValue(s[|s| - 1])
  }

  /** `parseInt(s, 16)`: leading white space, an optional sign and an optional
      `0x` prefix are skipped, then the longest run of hex digits is read;
      without any digit the result is `NaN`. */
  function ParseHex(s: string): (c: Channel)
  {
    var t := TrimStart(s);
    var neg := |t| > 0 && t[0] == '-';
    var u := if |t| > 0 && (t[0] == '-' || t[0] == '+') then t[1..] else t;
    var v := if StartsWith(u, "0x") || StartsWith(u, "0X") then u[2..] else u;
    var n := HexRun(v);
    if n == 0 then NaN
    else
      var magnitude: int := HexValue(v[..n]);
      Num(if neg then -magnitude else magnitude)
  }

  /** `s.slice(a, b)` for non-negative bounds: both are clamped to the length. */
  function Slice(s: string, a: nat, b: nat): (r: string)
    ensures a <= b <= |s| ==> r == s[a..b]
  {
    var hi := if b <= |s| then b else |s|;
    var lo := if a <= hi then a else hi;
    s[lo..hi]
  }

  /** The dock background: a fixed default, or the three channels parsed
      from a colour that starts with '#'. */
  datatype Background = DefaultBackground | Rgba(r: Channel, g: Channel, b: Channel)

  function BackgroundColor(color: string): (bg: Background)
    ensures !StartsWith(color, "#") <==> bg == DefaultBackground
  {
    if StartsWith(color, "#") then
      Rgba(ParseHex(Slice(color, 1, 3)), ParseHex(Slice(color, 3, 5)), ParseHex(Slice(color, 5, 7)))
    else DefaultBackground
  }

  /** A well-formed `#rrggbb` colour. */
  predicate IsHexColor(color: string)
  {
    |color| == 7 && color[0] == '#' && forall i :: 1 <= i < 7 ==> IsHexDigit(color[i])
  }

  function HexChar(d: nat): (c: char)
    requires d < 16
    ensures IsHexDigit(c) && HexDigitValue(c) == d
  {
    if d < 10 then ('0' as int + d) as char else ('a' as int + d - 10) as char
  }

  /** Two lower-case hex digits for a channel value 0..255. */
  function Hex2(v: nat): (s: string)
    requires v < 256
    ensures |s| == 2 && IsHexDigit(s[0]) && IsHexDigit(s[1])
  {
    [HexChar(v / 16), HexChar(v % 16)]
  }

  /** The `#rrggbb` text of a colour (as the preferences page writes it). */
  function HexColor(r: nat, g: nat, b: nat): (s: string)
    requires r < 256 && g < 256 && b < 256
    ensures IsHexColor(s)
  {
    "#" + Hex2(r) + Hex2(g) + Hex2(b)
  }

  /** Value of a two-digit hex numeral. */
  function TwoDigitValue(s: string): (v: nat)
    requires |s| == 2 && IsHexDigit(s[0]) && IsHexDigit(s[1])
    ensures v <= 255
  {
    HexDigitValue(s[0]) * 16 + HexDigitValue(s[1])
  }

  lemma {:induction false} ParseTwoHexDigits(s: string)
    requires |s| == 2 && IsHexDigit(s[0]) && IsHexDigit(s[1])
    ensures ParseHex(s) == Num(TwoDigitValue(s))
  {
    assert !IsSpace(s[0]);
    assert TrimStart(s) == s;
    assert s[..2] != "0x" && s[..2] != "0X" by { assert s[1] != 'x' && s[1] != 'X'; }
    assert s[1..][1..] == [];
    assert HexRun(s[1..]) == 1;
    assert HexRun(s) == 2;
    assert s[..2] == s;
    assert s[..1] == [s[0]];
    assert HexValue(s[..1]) == HexDigitValue(s[0]) by {
      assert s[..1][..0] == [];
    }
    assert s[..2][..1] == s[..1];
  }

  /** A well-formed `#rrggbb` colour yields each channel as the value of its
      two hex digits, which lies in 0..255. */
  lemma {:induction false} WellFormedColorChannels(color: string)
    requires IsHexColor(color)
    ensures BackgroundColor(color)
         == Rgba(Num(TwoDigitValue(color[1..3])), Num(TwoDigitValue(color[3..5])), Num(TwoDigitValue(color[5..7])))
  {
    HashColorSlices(color);
    ChannelAt(color, 1);
    ChannelAt(color, 3);
    ChannelAt(color, 5);
  }

  lemma {:induction false} ChannelAt(color: string, i: nat)
    requires IsHexColor(color) && 1 <= i <= 5
    ensures ParseHex(color[i..i + 2]) == Num(TwoDigitValue(color[i..i + 2]))
  {
    var a := color[i..i + 2];
    assert a[0] == color[i] && a[1] == color[i + 1];
    ParseTwoHexDigits(a);
  }

  /** A seven-character colour starting with '#' is read as three two-character
      slices. */
  lemma {:induction false} HashColorSlices(color: string)
    requires |color| == 7 && color[0] == '#'
    ensures BackgroundColor(color) == Rgba(ParseHex(color[1..3]), ParseHex(color[3..5]), ParseHex(color[5..7]))
  {
    assert StartsWith(color, "#") by { assert color[..1] == "#"; }
  }

  lemma {:induction false} Hex2Value(v: nat)
    requires v < 256
    ensures TwoDigitValue(Hex2(v)) == v
  {
  }

  lemma {:induction false} HexColorSlices(r: nat, g: nat, b: nat)
    requires r < 256 && g < 256 && b < 256
    ensures var s := HexColor(r, g, b);
            s[1..3] == Hex2(r) && s[3..5] == Hex2(g) && s[5..7] == Hex2(b)
  {
  }

  /** Writing a colour as `#rrggbb` and parsing it back gives the channels. */
  lemma {:induction false} HexColorRoundTrip(r: nat, g: nat, b: nat)
    requires r < 256 && g < 256 && b < 256
    ensures BackgroundColor(HexColor(r, g, b)) == Rgba(Num(r), Num(g), Num(b))
  {
    var s := HexColor(r, g, b);
    WellFormedColorChannels(s);
    HexColorSlices(r, g, b);
    Hex2Value(r);
    Hex2Value(g);
    Hex2Value(b);
  }

  /** One corner of a `border-radius` list: `0` or `<r>px`. */
  datatype Corner = Zero | Px(r: int)

  /** `border-radius: <r>px;`, or four corners in CSS order top-left,
      top-right, bottom-right, bottom-left. */
  datatype Radius = Uniform(r: int) | Corners(tl: Corner, tr: Corner, br: Corner, bl: Corner)

  function RadiusFor(radius: int, position: int, panelMode: bool): Radius
  {
    if !panelMode then Uniform(radius)
    else if position == BOTTOM then Corners(Px(radius), Px(radius), Zero, Zero)
    else if position == LEFT then Corners(Zero, Px(radius), Px(radius), Zero)
    else if position == RIGHT then Corners(Px(radius), Zero, Zero, Px(radius))
    else if position == TOP then Corners(Zero, Zero, Px(radius), Px(radius))
    else Uniform(radius)
  }

  /** The corner list as a sequence, in CSS order. */
  function CornerList(rad: Radius): seq<Corner>
  {
    match rad
    case Uniform(r) => [Px(r), Px(r), Px(r), Px(r)]
    case Corners(a, b, c, d) => [a, b, c, d]
  }

  /** The corners (CSS order: 0 top-left, 1 top-right, 2 bottom-right,
      3 bottom-left) that touch the screen edge a dock at `position` sits on. */
  function EdgeCorners(position: int): set<int>
  {
    if position == BOTTOM then {2, 3}
    else if position == LEFT then {0, 3}
    else if position == RIGHT then {1, 2}
    else if position == TOP then {0, 1}
    else {}
  }

  /** In panel mode exactly the two corners against the screen edge are
      square; every other corner, and every corner outside panel mode, gets
      the configured radius. */
  lemma {:induction false} PanelCornersOnEdge(radius: int, position: int, panelMode: bool)
    ensures var cs := CornerList(RadiusFor(radius, position, panelMode));
            forall i | 0 <= i < 4 ::
              cs[i] == (if panelMode && i in EdgeCorners(position) then Zero else Px(radius))
  {
  }

  function CornerText(c: Corner): string
  {
    match c
    case Zero => "0"
    case Px(r) => IntToString(r) + "px"
  }

  function RadiusCss(rad: Radius): string
  {
    match rad
    case Uniform(r) => "border-radius: " + IntToString(r) + "px;"
    case Corners(a, b, c, d) =>
      "border-radius: " + CornerText(a) + " " + CornerText(b) + " " + CornerText(c) + " " + CornerText(d) + ";"
  }

  /** The minimum size along the dock's short axis. */
  datatype SizeConstraint = MinWidth(px: int) | MinHeight(px: int)

  /** Thickness is the icon size plus 24 pixels of padding. */
  function Thickness(iconSize: int): int
  {
    iconSize + 24
  }

  function SizeConstraintFor(iconSize: int, position: int): SizeConstraint
  {
    if position == LEFT || position == RIGHT then MinWidth(Thickness(iconSize))
    else MinHeight(Thickness(iconSize))
  }

  /** The thickness constraint always lies across the layout direction:
      `min-width` for a vertical dock, `min-height` for a horizontal one, and
      it is 24 pixels more than the icon size. */
  lemma {:induction false} ConstraintAcrossLayout(iconSize: int, position: int)
    ensures SizeConstraintFor(iconSize, position).MinWidth? <==> IsVertical(position)
    ensures SizeConstraintFor(iconSize, position).px - iconSize == 24
  {
  }

  function ChannelText(c: Channel): string
  {
    match c
    case Num(n) => IntToString(n)
    case NaN => "NaN"
  }

  /** The `background-color` declaration; `opacityText` is the opacity as
      JavaScript prints the double setting. */
  function BackgroundCss(bg: Background, opacityText: string): string
  {
    match bg
    case DefaultBackground => "background-color: rgba(36, 36, 36, 0.8);"
    case Rgba(r, g, b) =>
      "background-color: rgba(" + ChannelText(r) + ", " + ChannelText(g) + ", "
      + ChannelText(b) + ", " + opacityText + ");"
  }

  function SizeCss(c: SizeConstraint): string
  {
    match c
    case MinWidth(px) => "min-width: " + IntToString(px) + "px;"
    case MinHeight(px) => "min-height: " + IntToString(px) + "px;"
  }

  /** The dock settings `_updateStyles` reads. */
  datatype StyleSettings = StyleSettings(
    color: string, opacityText: string, radius: int, iconSize: int, position: int, panelMode: bool)

  /** `_updateStyles`: the declarations of the container's inline style, in
      order. */
  function DockStyle(s: StyleSettings): seq<string>
  {
    [ BackgroundCss(BackgroundColor(s.color), s.opacityText),
      RadiusCss(RadiusFor(s.radius, s.position, s.panelMode)),
      SizeCss(SizeConstraintFor(s.iconSize, s.position)),
      "padding: 6px;",
      "box-shadow: 0 2px 8px rgba(0,0,0,0.3);",
      "transition-duration: 250ms;" ]
  }

  /** With a colour that does not start with '#', the background is the
      fixed default whatever the opacity. */
  lemma {:induction false} DefaultBackgroundWithoutHash(s: StyleSettings)
    requires !StartsWith(s.color, "#")
    ensures DockStyle(s)[0] == "background-color: rgba(36, 36, 36, 0.8);"
  {
  }
}

=== FILE: geometry_manager.dfy ===
/** The shell side of geometry saving (`GeometryManager` in
    app/components/geometry.js): an in-memory cache of window rectangles
    keyed by window class, the set of windows whose signals are hooked, and
    a trailing-debounced write of the cache to the `geometry-data` key.
    GLib sources are modelled as numbered timers; the clock, the settings
    switch and the windows are inputs. */
module GeometryManager {
  import opened Wrappers
  import GeometryPage

  type Rect = GeometryPage.Rect

  /** `Meta.WindowType`, as far as the manager distinguishes it. */
  datatype WindowType = Desktop | OtherType

  /** What the manager reads from a `Meta.Window`. */
  datatype Window = Window(id: nat, kind: WindowType, wmClass: string, maximized: bool, fullscreen: bool, frame: Rect)

  /** A cache entry: the frame rectangle and `last_seen`. */
  datatype Entry = Entry(rect: Rect, lastSeen: int)

  type Cache = map<string, Entry>

  /** What `JSON.parse` makes of the stored `geometry-data` text: a syntax
      error, a falsy value (`null`, `false`, `0`, `""`), or an object of
      cache entries. */
  datatype Stored = Unparsable | FalsyValue | Entries(cache: Cache)

  /** The manager's fields and the stored `geometry-data` value. `nextTimer`
      is the id the next GLib source gets. */
  datatype Manager = Manager(cache: Cache, tracking: set<nat>, timer: Option<nat>, nextTimer: nat, stored: Stored)

  /** Timer ids are handed out once: a scheduled save has an id below
      `nextTimer`. */
  predicate Fresh(m: Manager)
  {
    m.timer.Some? ==> m.timer.value < m.nextTimer
  }

  /** `_loadCache`: the stored object; the empty one when the text does not
      parse (the `catch`) or parses to a falsy value (`|| {}`). */
  function LoadCache(stored: Stored): (c: Cache)
    ensures stored.Entries? ==> c == stored.cache
    ensures stored.Unparsable? || stored.FalsyValue? ==> c == map[]
  {
    match stored
    case Entries(cache) => cache
    case _ => map[]
  }

  /** What `onEnable` sets up before hooking any window. */
  function Start(stored: Stored, nextTimer: nat): (m: Manager)
    ensures Fresh(m) && m.tracking == {} && m.timer.None?
    ensures m.cache == LoadCache(stored) && m.stored == stored
  {
    Manager(LoadCache(stored), {}, None, nextTimer, stored)
  }

  /** `_restoreWindow`: the rectangle to move the window to, if any. */
  function Restore(cache: Cache, win: Window): (r: Option<Rect>)
    ensures r.Some? <==>
              win.wmClass != "" && win.wmClass in cache
              && cache[win.wmClass].rect.w > 50 && cache[win.wmClass].rect.h > 50
    ensures r.Some? ==> r.value == cache[win.wmClass].rect
  {
    if win.wmClass == "" || win.wmClass !in cache then None
    else
      var geo := cache[win.wmClass].rect;
      if geo.w > 50 && geo.h > 50 then Some(geo) else None
  }

  /** The manager after a window event, with the move it requested. */
  datatype Hooked = Hooked(m: Manager, restore: Option<Rect>)

  /** `_onWindowCreated`: with the feature on, every window but a missing
      one or the desktop is restored from the cache and tracked. */
  function OnWindowCreated(m: Manager, enabled: bool, win: Option<Window>): (r: Hooked)
    ensures r.m.cache == m.cache && r.m.timer == m.timer && r.m.stored == m.stored && r.m.nextTimer == m.nextTimer
    ensures !enabled || win.None? || win.value.kind == Desktop ==> r == Hooked(m, None)
    ensures enabled && win.Some? && win.value.kind != Desktop ==>
              r.m.tracking == m.tracking + {win.value.id} && r.restore == Restore(m.cache, win.value)
  {
    if !enabled then Hooked(m, None)
    else if win.None? || win.value.kind == Desktop then Hooked(m, None)
    else Hooked(m.(tracking := m.tracking + {win.value.id}), Restore(m.cache, win.value))
  }

  /** The manager after hooking several windows, with the move requested
      for each window, in order. */
  datatype HookedAll = HookedAll(m: Manager, moves: seq<Option<Rect>>)

  /** `onEnable` over the windows `list_all_windows` returns: each accepted
      window is tracked and moved to its class's cached rectangle. Hooking
      leaves the cache alone, so every window is restored from the cache
      loaded before the loop. */
  function HookAll(m: Manager, enabled: bool, wins: seq<Option<Window>>): (r: HookedAll)
    ensures r.m.cache == m.cache && r.m.timer == m.timer && r.m.stored == m.stored && r.m.nextTimer == m.nextTimer
    ensures r.m.tracking == m.tracking + set i | 0 <= i < |wins| && enabled && wins[i].Some? && wins[i].value.kind != Desktop :: wins[i].value.id
    ensures |r.moves| == |wins|
    ensures forall i :: 0 <= i < |wins| ==>
              r.moves[i] == (if enabled && wins[i].Some? && wins[i].value.kind != Desktop then Restore(m.cache, wins[i].value) else None)
    decreases |wins|
  {
    if |wins| == 0 then HookedAll(m, [])
    else
      var h := OnWindowCreated(m, enabled, wins[0]);
      var rest := HookAll(h.m, enabled, wins[1..]);
      assert forall i :: 1 <= i < |wins| ==> wins[i] == wins[1..][i - 1];
      HookedAll(rest.m, [h.restore] + rest.moves)
  }

  /** `_onWindowChanged`: an accepted change records the frame rectangle
      under the window class and replaces any pending save by a fresh one. */
  function OnWindowChanged(m: Manager, enabled: bool, win: Window, now: int): (r: Manager)
    requires Fresh(m)
    ensures Fresh(r)
    ensures !Accepted(enabled, win) ==> r == m
    ensures Accepted(enabled, win) ==>
              && r.cache == m.cache[win.wmClass := Entry(win.frame, now)]
              && r.timer.Some? && r.timer != m.timer
              && r.tracking == m.tracking && r.stored == m.stored
  {
    if !enabled then m
    else if win.maximized || win.fullscreen then m
    else if win.wmClass == "" then m
    else m.(cache := m.cache[win.wmClass := Entry(win.frame, now)], timer := Some(m.nextTimer), nextTimer := m.nextTimer + 1)
  }

  /** The change guard: the feature on, the window neither maximized nor
      fullscreen, and a window class to file it under. */
  predicate Accepted(enabled: bool, win: Window)
  {
    enabled && !win.maximized && !win.fullscreen && win.wmClass != ""
  }

  /** A change touches only its window class's entry. */
  lemma {:induction false} ChangeKeepsOthers(m: Manager, enabled: bool, win: Window, now: int, k: string)
    requires Fresh(m) && k != win.wmClass
    ensures var r := OnWindowChanged(m, enabled, win, now);
            (k in r.cache <==> k in m.cache) && (k in m.cache ==> r.cache[k] == m.cache[k])
  {
  }

  /** `_saveToDisk`: the pending id is cleared and the whole cache written. */
  function SaveToDisk(m: Manager): (r: Manager)
    ensures r.timer.None? && r.stored == Entries(m.cache)
    ensures r.cache == m.cache && r.tracking == m.tracking
  {
    m.(timer := None, stored := Entries(m.cache))
  }

  /** A GLib source firing: only the scheduled save runs; a removed one
      never does. */
  function TimerFired(m: Manager, id: nat): (r: Manager)
    ensures m.timer != Some(id) ==> r == m
  {
    if m.timer == Some(id) then SaveToDisk(m) else m
  }

  /** `JSON.stringify` writes the cache as an object, which is truthy even
      when empty: a later load reads back the cache itself, never the
      `|| {}` fallback. */
  lemma {:induction false} SaveLoadRoundTrip(m: Manager)
    ensures SaveToDisk(m).stored.Entries?
    ensures LoadCache(SaveToDisk(m).stored) == m.cache
  {
  }

  /** What the feature is for: once a window's change is accepted, any
      window of the same class is moved to the recorded frame, provided it
      is larger than 50 × 50. */
  lemma {:induction false} ChangeThenRestore(m: Manager, enabled: bool, win: Window, now: int, other: Window)
    requires Fresh(m) && Accepted(enabled, win) && other.wmClass == win.wmClass
    ensures var r := OnWindowChanged(m, enabled, win, now);
            Restore(r.cache, other) == (if win.frame.w > 50 && win.frame.h > 50 then Some(win.frame) else None)
  {
  }

  /** The same across a restart: once the debounced save has fired, a
      manager enabled afresh from the store restores the recorded frame. */
  lemma {:induction false} RestoreAfterRestart(m: Manager, enabled: bool, win: Window, now: int, other: Window, nextTimer: nat)
    requires Fresh(m) && Accepted(enabled, win) && other.wmClass == win.wmClass
    requires win.frame.w > 50 && win.frame.h > 50
    ensures var r := OnWindowChanged(m, enabled, win, now);
            var saved := TimerFired(r, r.timer.value);
            Restore(Start(saved.stored, nextTimer).cache, other) == Some(win.frame)
  {
    var r := OnWindowChanged(m, enabled, win, now);
    SaveLoadRoundTrip(r);
  }

  /** Enabling again after the save fired moves every existing window of
      the recorded class to the recorded frame. */
  lemma {:induction false} EnableAfterSave(m: Manager, win: Window, now: int, nextTimer: nat, wins: seq<Option<Window>>)
    requires Fresh(m) && Accepted(true, win)
    requires win.frame.w > 50 && win.frame.h > 50
    ensures var r := OnWindowChanged(m, true, win, now);
            var restarted := Start(TimerFired(r, r.timer.value).stored, nextTimer);
            var moves := HookAll(restarted, true, wins).moves;
            forall i :: 0 <= i < |wins| && wins[i].Some? && wins[i].value.kind != Desktop && wins[i].value.wmClass == win.wmClass ==>
              moves[i] == Some(win.frame)
  {
    var r := OnWindowChanged(m, true, win, now);
    var restarted := Start(TimerFired(r, r.timer.value).stored, nextTimer);
    forall i | 0 <= i < |wins| && wins[i].Some? && wins[i].value.kind != Desktop && wins[i].value.wmClass == win.wmClass
      ensures Restore(restarted.cache, wins[i].value) == Some(win.frame)
    {
      RestoreAfterRestart(m, true, win, now, wins[i].value, nextTimer);
    }
  }

  /** Trailing debounce: once a change is accepted, the save it replaced
      no longer fires, and the one it scheduled writes the cache with the
      change in it. */
  lemma {:induction false} DebounceKeepsLastSave(m: Manager, enabled: bool, win: Window, now: int)
    requires Fresh(m) && Accepted(enabled, win)
    ensures var r := OnWindowChanged(m, enabled, win, now);
            && (m.timer.Some? ==> TimerFired(r, m.timer.value) == r)
            && TimerFired(r, r.timer.value).stored.Entries?
            && TimerFired(r, r.timer.value).stored.cache[win.wmClass] == Entry(win.frame, now)
  {
  }

  /** `_cleanupWindows`: every tracked window's handlers are disconnected
      and the tracking set emptied. */
  function CleanupWindows(m: Manager): (r: Manager)
    ensures r.tracking == {}
    ensures r.cache == m.cache && r.timer == m.timer && r.stored == m.stored
  {
    m.(tracking := {})
  }

  /** The `changed::geometry-enabled` handler: switching the feature off
      unhooks the windows; nothing else changes. */
  function OnEnabledChanged(m: Manager, enabled: bool): (r: Manager)
    ensures !enabled ==> r == CleanupWindows(m)
    ensures enabled ==> r == m
  {
    if !enabled then CleanupWindows(m) else m
  }

  /** `onDisable`: a pending save is cancelled, not run, and the windows
      unhooked. */
  function Disable(m: Manager): (r: Manager)
    ensures r.timer.None? && r.tracking == {}
    ensures r.stored == m.stored && r.cache == m.cache
  {
    CleanupWindows(m.(timer := None))
  }

  /** After `onDisable` no source can save: a change recorded within the
      last two seconds is never written. */
  lemma {:induction false} DisableDropsPendingSave(m: Manager, id: nat)
    ensures TimerFired(Disable(m), id) == Disable(m)
  {
  }
}

=== FILE: geometry_page.dfy ===
/** The "Saved Applications" list of the geometry preferences page
    (`createGeometryUI` in app/page/geometry.js): rows reconciled against the
    stored `geometry-data` object, per-row delete, clear-all, and the
    debounce that drops change signals while an update is pending. Widgets
    are reduced to their keys, titles and subtitles. */
module GeometryPage {
  import opened Wrappers
  import opened Text
  import opened Lists
  import opened Order

  /** A remembered frame rectangle. */
  datatype Rect = Rect(x: int, y: int, w: int, h: int)

  /** One property of the parsed `geometry-data` object: a window class and
      its rectangle, in the object's enumeration order. A parsed object
      never repeats a property name (`JSON.parse` keeps the last of repeated
      names), so a list with a repeated key stands for no stored object;
      `DistinctKeys` says when a list is one. */
  datatype Field = Field(key: string, rect: Rect)

  /** `Object.keys(data)`. */
  function Keys(data: seq<Field>): (r: seq<string>)
    ensures |r| == |data|
    ensures forall i :: 0 <= i < |data| ==> r[i] == data[i].key
  {
    seq(|data|, i requires 0 <= i < |data| => data[i].key)
  }

  /** A list that a parsed object can be: no key twice. */
  predicate DistinctKeys(data: seq<Field>)
  {
    NoDuplicates(Keys(data))
  }

  /** `data[key]`: the rectangle of the property named `key`, the first
      and, for a parsed object, the only one. */
  function Value(data: seq<Field>, key: string): Rect
    requires key in Keys(data)
  {
    data[IndexOf(Keys(data), key)].rect
  }

  /** In a parsed object `data[key]` is the rectangle stored under that
      key. */
  lemma {:induction false} ValueOfDistinct(data: seq<Field>, i: nat)
    requires DistinctKeys(data) && i < |data|
    ensures Value(data, data[i].key) == data[i].rect
  {
  }

  /** The stored object as `updateList` reads it: text that does not parse,
      or parses to `null`, is the empty object. */
  function Loaded(stored: Option<seq<Field>>): seq<Field>
  {
    stored.GetOr([])
  }

  // ---------------------------------------------------------------------
  // Row texts
  // ---------------------------------------------------------------------

  /** `Size: {w}×{h} • Pos: {x},{y}`. */
  function Subtitle(r: Rect): string
  {
    "Size: " + (IntToString(r.w) + ("\U{D7}" + (IntToString(r.h)
      + (" \U{2022} Pos: " + (IntToString(r.x) + ("," + IntToString(r.y)))))))
  }

  /** Different rectangles never share a subtitle, so comparing subtitles
      is comparing rectangles. */
  lemma {:induction false} SubtitleInjective(a: Rect, b: Rect)
    requires Subtitle(a) == Subtitle(b)
    ensures a == b
  {
    var rest := " \U{2022} Pos: " + (IntToString(a.x) + ("," + IntToString(a.y)));
    var rest' := " \U{2022} Pos: " + (IntToString(b.x) + ("," + IntToString(b.y)));
    CutPrefix("Size: ", IntToString(a.w) + ("\U{D7}" + (IntToString(a.h) + rest)),
                        IntToString(b.w) + ("\U{D7}" + (IntToString(b.h) + rest')));
    NumberNoChar(a.w, '\U{D7}');
    NumberNoChar(b.w, '\U{D7}');
    CutAtChar(IntToString(a.w), IntToString(a.h) + rest, IntToString(b.w), IntToString(b.h) + rest', '\U{D7}');
    IntToStringInjective(a.w, b.w);
    NumberNoChar(a.h, ' ');
    NumberNoChar(b.h, ' ');
    assert rest == [' '] + rest[1..] && rest' == [' '] + rest'[1..];
    CutAtChar(IntToString(a.h), rest[1..], IntToString(b.h), rest'[1..], ' ');
    IntToStringInjective(a.h, b.h);
    CutPrefix(" \U{2022} Pos: ", IntToString(a.x) + ("," + IntToString(a.y)), IntToString(b.x) + ("," + IntToString(b.y)));
    NumberNoChar(a.x, ',');
    NumberNoChar(b.x, ',');
    CutAtChar(IntToString(a.x), IntToString(a.y), IntToString(b.x), IntToString(b.y), ',');
    IntToStringInjective(a.x, b.x);
    IntToStringInjective(a.y, b.y);
  }

  /** `key.split('.').pop() || key`. */
  function Title(key: string): string
  {
    var parts := Split(key, '.');
    var last := parts[|parts| - 1];
    if last == "" then key else last
  }

  /** The title is the part of the window class after its last '.'; a class
      without a '.', or one ending in '.', is its own title. */
  lemma {:induction false} TitleShape(key: string)
    ensures '.' !in key ==> Title(key) == key
    ensures '.' in key && key[|key| - 1] == '.' ==> Title(key) == key
    ensures '.' in key && key[|key| - 1] != '.' ==>
              Title(key) != "" && '.' !in Title(key) && EndsWith(key, "." + Title(key))
  {
    if '.' in key {
      var parts := Split(key, '.');
      var last := parts[|parts| - 1];
      SplitLast(key, '.');
      assert '.' !in last;
      if last != "" {
        assert key[|key| - 1] == last[|last| - 1];
      }
    }
  }

  // ---------------------------------------------------------------------
  // The list
  // ---------------------------------------------------------------------

  /** A child of the data group: the empty-state row or a window's row. */
  datatype Item = EmptyState | RowItem(key: string)

  datatype Row = Row(title: string, subtitle: string)

  /** The data group's children, `activeRows`, and whether a debounced
      update is pending. */
  datatype Page = Page(group: seq<Item>, rows: map<string, Row>, pending: bool)

  /** The page after a pass of `updateList`, with the keys whose subtitle it
      rewrote. */
  datatype Refreshed = Refreshed(page: Page, rewritten: seq<string>)

  /** The group's children with the rows of keys outside `keys` removed. */
  function KeepRows(group: seq<Item>, keys: seq<string>): (r: seq<Item>)
    ensures forall it :: it in r <==> it in group && (it.RowItem? ==> it.key in keys)
  {
    if |group| == 0 then []
    else (if group[0].RowItem? && group[0].key !in keys then [] else [group[0]]) + KeepRows(group[1..], keys)
  }

  lemma {:induction false} KeepRowsEmptyState(group: seq<Item>, keys: seq<string>)
    ensures Count(KeepRows(group, keys), EmptyState) == Count(group, EmptyState)
  {
    if |group| > 0 {
      KeepRowsEmptyState(group[1..], keys);
      assert group == [group[0]] + group[1..];
    }
  }

  function Items(keys: seq<string>): (r: seq<Item>)
    ensures |r| == |keys|
    ensures forall i :: 0 <= i < |keys| ==> r[i] == RowItem(keys[i])
  {
    seq(|keys|, i requires 0 <= i < |keys| => RowItem(keys[i]))
  }

  /** The keys of `keys` that get a new row, in visiting order: the first
      visit of each key not in `known`. */
  function Created(keys: seq<string>, known: set<string>): seq<string>
  {
    if |keys| == 0 then []
    else if keys[0] in known then Created(keys[1..], known)
    else [keys[0]] + Created(keys[1..], known + {keys[0]})
  }

  /** One step of the `forEach`: an existing row gets the new subtitle when
      it differs; a missing row is created and appended. */
  function Visit(p: Page, data: seq<Field>, key: string): Refreshed
    requires key in Keys(data)
  {
    var text := Subtitle(Value(data, key));
    if key in p.rows then
      if p.rows[key].subtitle != text then
        Refreshed(p.(rows := p.rows[key := p.rows[key].(subtitle := text)]), [key])
      else Refreshed(p, [])
    else Refreshed(p.(group := p.group + [RowItem(key)], rows := p.rows[key := Row(Title(key), text)]), [])
  }

  /** The `forEach` over the sorted keys. */
  function Refresh(p: Page, data: seq<Field>, keys: seq<string>): (o: Refreshed)
    requires forall i :: 0 <= i < |keys| ==> keys[i] in Keys(data)
    decreases |keys|
  {
    if |keys| == 0 then Refreshed(p, [])
    else
      var v := Visit(p, data, keys[0]);
      var rest := Refresh(v.page, data, keys[1..]);
      Refreshed(rest.page, v.rewritten + rest.rewritten)
  }

  /** `updateList`: stale rows removed, the empty-state row shown exactly
      when there is no data, then every key visited in sorted order. */
  function UpdateList(p: Page, stored: Option<seq<Field>>): Refreshed
  {
    var data := Loaded(stored);
    var keys := Sort(Keys(data));
    var group := KeepRows(p.group, keys);
    var rows := map k | k in p.rows && k in keys :: p.rows[k];
    if |keys| == 0 then
      Refreshed(Page(if EmptyState in group then group else group + [EmptyState], rows, p.pending), [])
    else
      assert forall i :: 0 <= i < |keys| ==> keys[i] in Keys(data) by {
        forall i | 0 <= i < |keys| ensures keys[i] in Keys(data) {
          assert keys[i] in multiset(keys);
        }
      }
      Refresh(Page(Without(group, EmptyState), rows, p.pending), data, keys)
  }

  // ---------------------------------------------------------------------
  // What a pass of `updateList` does
  // ---------------------------------------------------------------------

  lemma {:induction false} CreatedMembers(keys: seq<string>, known: set<string>)
    ensures forall k :: k in Created(keys, known) <==> k in keys && k !in known
    decreases |keys|
  {
    if |keys| > 0 {
      var k0 := keys[0];
      if k0 in known {
        CreatedMembers(keys[1..], known);
      } else {
        CreatedMembers(keys[1..], known + {k0});
      }
      assert forall k :: k in keys <==> k == k0 || k in keys[1..] by {
        assert keys == [k0] + keys[1..];
      }
    }
  }

  /** No key gets two rows. */
  lemma {:induction false} CreatedDistinct(keys: seq<string>, known: set<string>)
    ensures NoDuplicates(Created(keys, known))
    decreases |keys|
  {
    if |keys| > 0 {
      var k0 := keys[0];
      if k0 in known {
        CreatedDistinct(keys[1..], known);
        assert Created(keys, known) == Created(keys[1..], known);
      } else {
        var t := Created(keys[1..], known + {k0});
        CreatedDistinct(keys[1..], known + {k0});
        CreatedMembers(keys[1..], known + {k0});
        var c := [k0] + t;
        assert Created(keys, known) == c;
        forall i, j | 0 <= i < j < |c| ensures c[i] != c[j] {
          assert c[j] == t[j - 1] && t[j - 1] in t;
          if i > 0 {
            assert c[i] == t[i - 1];
          }
        }
      }
    }
  }

  /** New rows follow the sorted order of the keys. */
  lemma {:induction false} CreatedSorted(keys: seq<string>, known: set<string>)
    requires Sorted(keys)
    ensures Sorted(Created(keys, known))
    decreases |keys|
  {
    if |keys| > 0 {
      var k0 := keys[0];
      SortedTail(keys);
      if k0 in known {
        CreatedSorted(keys[1..], known);
      } else {
        var t := Created(keys[1..], known + {k0});
        CreatedSorted(keys[1..], known + {k0});
        CreatedMembers(keys[1..], known + {k0});
        assert LowerBound(k0, t) by {
          forall m | 0 <= m < |t| ensures Before(k0, t[m]) {
            assert t[m] in keys[1..];
            var q :| 0 <= q < |keys[1..]| && keys[1..][q] == t[m];
            assert keys[q + 1] == t[m];
          }
        }
        ConsSorted(k0, t);
      }
    }
  }

  /** Only the known keys among those visited matter. */
  lemma {:induction false} CreatedAgree(keys: seq<string>, a: set<string>, b: set<string>)
    requires forall k :: k in keys ==> (k in a <==> k in b)
    ensures Created(keys, a) == Created(keys, b)
    decreases |keys|
  {
    if |keys| > 0 {
      var k0 := keys[0];
      assert forall k :: k in keys[1..] ==> k in keys;
      if k0 in a {
        CreatedAgree(keys[1..], a, b);
      } else {
        CreatedAgree(keys[1..], a + {k0}, b + {k0});
      }
    }
  }

  /** The row `Visit` leaves for its key. */
  function Visited(p: Page, data: seq<Field>, key: string): Row
    requires key in Keys(data)
  {
    Row(if key in p.rows then p.rows[key].title else Title(key), Subtitle(Value(data, key)))
  }

  lemma {:induction false} VisitFacts(p: Page, data: seq<Field>, key: string)
    requires key in Keys(data)
    ensures var o := Visit(p, data, key);
            && o.page.pending == p.pending
            && o.page.rows.Keys == p.rows.Keys + {key}
            && o.page.rows[key] == Visited(p, data, key)
            && (forall k :: k != key && k in p.rows ==> o.page.rows[k] == p.rows[k])
            && o.page.group == (if key in p.rows then p.group else p.group + [RowItem(key)])
            && o.rewritten == (if key in p.rows && p.rows[key].subtitle != Visited(p, data, key).subtitle then [key] else [])
  {
  }

  lemma {:induction false} TailKeys(data: seq<Field>, keys: seq<string>)
    requires |keys| > 0 && forall i :: 0 <= i < |keys| ==> keys[i] in Keys(data)
    ensures forall i :: 0 <= i < |keys[1..]| ==> keys[1..][i] in Keys(data)
    ensures forall k :: k in keys <==> k == keys[0] || k in keys[1..]
  {
    assert keys == [keys[0]] + keys[1..];
    forall i | 0 <= i < |keys[1..]| ensures keys[1..][i] in Keys(data) {
      assert keys[1..][i] == keys[i + 1];
    }
  }

  /** What a pass leaves for one key: a row exactly for the keys it had or
      visits; unvisited rows untouched; visited rows with the current
      subtitle, keeping their title when they existed. */
  lemma {:induction false} RefreshRowAt(p: Page, data: seq<Field>, keys: seq<string>, k: string)
    requires forall i :: 0 <= i < |keys| ==> keys[i] in Keys(data)
    ensures var r := Refresh(p, data, keys).page;
            && r.pending == p.pending
            && (k in r.rows <==> k in p.rows || k in keys)
            && (k in p.rows && k !in keys ==> r.rows[k] == p.rows[k])
            && (k in keys ==> r.rows[k] == Visited(p, data, k))
    decreases |keys|
  {
    if |keys| > 0 {
      var k0 := keys[0];
      var v := Visit(p, data, k0).page;
      TailKeys(data, keys);
      VisitFacts(p, data, k0);
      RefreshRowAt(v, data, keys[1..], k);
      assert Refresh(p, data, keys).page == Refresh(v, data, keys[1..]).page;
      if k in keys[1..] && k != k0 {
        assert Visited(v, data, k) == Visited(p, data, k);
      }
    }
  }

  lemma {:induction false} ItemsCons(k: string, c: seq<string>)
    ensures Items([k] + c) == [RowItem(k)] + Items(c)
  {
  }

  lemma {:induction false} VisitGroup(p: Page, data: seq<Field>, key: string)
    requires key in Keys(data)
    ensures var v := Visit(p, data, key).page;
            && (key in p.rows ==> v.group == p.group && v.rows.Keys == p.rows.Keys)
            && (key !in p.rows ==> v.group == p.group + [RowItem(key)] && v.rows.Keys == p.rows.Keys + {key})
  {
  }

  /** Visiting the first key appends its row exactly when it creates it. */
  lemma {:induction false} CreatedStep(g: seq<Item>, known: set<string>, keys: seq<string>)
    requires |keys| > 0
    ensures keys[0] in known ==> g + Items(Created(keys[1..], known)) == g + Items(Created(keys, known))
    ensures keys[0] !in known ==>
              (g + [RowItem(keys[0])]) + Items(Created(keys[1..], known + {keys[0]})) == g + Items(Created(keys, known))
  {
    if keys[0] !in known {
      ItemsCons(keys[0], Created(keys[1..], known + {keys[0]}));
    }
  }

  lemma {:induction false} RefreshGroup(p: Page, data: seq<Field>, keys: seq<string>)
    requires forall i :: 0 <= i < |keys| ==> keys[i] in Keys(data)
    ensures Refresh(p, data, keys).page.group == p.group + Items(Created(keys, p.rows.Keys))
    decreases |keys|
  {
    if |keys| > 0 {
      var v := Visit(p, data, keys[0]).page;
      TailKeys(data, keys);
      RefreshGroup(v, data, keys[1..]);
      VisitGroup(p, data, keys[0]);
      CreatedStep(p.group, p.rows.Keys, keys);
    }
  }

  /** A key is reported rewritten exactly when it had a row whose subtitle
      differed from the current one. */
  lemma {:induction false} RefreshRewrittenAt(p: Page, data: seq<Field>, keys: seq<string>, k: string)
    requires forall i :: 0 <= i < |keys| ==> keys[i] in Keys(data)
    ensures k in Refresh(p, data, keys).rewritten <==>
              k in keys && k in p.rows && p.rows[k].subtitle != Subtitle(Value(data, k))
    decreases |keys|
  {
    if |keys| > 0 {
      var k0 := keys[0];
      var vo := Visit(p, data, k0);
      var v := vo.page;
      TailKeys(data, keys);
      VisitFacts(p, data, k0);
      RefreshRewrittenAt(v, data, keys[1..], k);
      assert Refresh(p, data, keys).rewritten == vo.rewritten + Refresh(v, data, keys[1..]).rewritten;
    }
  }

  lemma {:induction false} ItemsMembers(c: seq<string>, k: string)
    ensures RowItem(k) in Items(c) <==> k in c
    ensures EmptyState !in Items(c)
  {
    if k in c {
      var i :| 0 <= i < |c| && c[i] == k;
      assert Items(c)[i] == RowItem(k);
    }
  }

  /** The page `updateList` starts its `forEach` from: stale rows gone, the
      empty-state row removed. */
  function Pruned(p: Page, keys: seq<string>): Page
  {
    Page(Without(KeepRows(p.group, keys), EmptyState), map k | k in p.rows && k in keys :: p.rows[k], p.pending)
  }

  lemma {:induction false} UpdateListUnfold(p: Page, stored: Option<seq<Field>>)
    ensures var data := Loaded(stored);
            var keys := Sort(Keys(data));
            && |keys| == |data|
            && (forall k :: k in keys <==> k in Keys(data))
            && (forall i :: 0 <= i < |keys| ==> keys[i] in Keys(data))
            && (|data| > 0 ==> UpdateList(p, stored) == Refresh(Pruned(p, keys), data, keys))
  {
    var data := Loaded(stored);
    SortMembers(Keys(data));
  }

  /** After a pass there is a row exactly for each stored key. A row that
      existed keeps its title and shows the current subtitle; a new row is
      titled after the window class. The pending flag is left alone. */
  lemma {:induction false} UpdateListRows(p: Page, stored: Option<seq<Field>>, k: string)
    ensures var data := Loaded(stored);
            var r := UpdateList(p, stored).page;
            && r.pending == p.pending
            && (k in r.rows <==> k in Keys(data))
            && (k in Keys(data) ==>
                  r.rows[k] == Row(if k in p.rows then p.rows[k].title else Title(k), Subtitle(Value(data, k))))
  {
    var data := Loaded(stored);
    var keys := Sort(Keys(data));
    UpdateListUnfold(p, stored);
    if |data| > 0 {
      var base := Pruned(p, keys);
      RefreshRowAt(base, data, keys, k);
      if k in keys {
        assert Visited(base, data, k) == Visited(p, data, k);
      }
    }
  }

  /** A pass rewrites the subtitle of exactly the rows that existed, are
      still stored, and showed a different text. */
  lemma {:induction false} UpdateListRewritten(p: Page, stored: Option<seq<Field>>, k: string)
    ensures var data := Loaded(stored);
            k in UpdateList(p, stored).rewritten <==>
              k in p.rows && k in Keys(data) && p.rows[k].subtitle != Subtitle(Value(data, k))
  {
    var data := Loaded(stored);
    var keys := Sort(Keys(data));
    UpdateListUnfold(p, stored);
    if |data| > 0 {
      RefreshRewrittenAt(Pruned(p, keys), data, keys, k);
    }
  }

  /** The empty-state row is shown exactly once when nothing is stored and
      not at all otherwise. */
  lemma {:induction false} UpdateListEmptyState(p: Page, stored: Option<seq<Field>>)
    requires Count(p.group, EmptyState) <= 1
    ensures var r := UpdateList(p, stored).page;
            && (|Loaded(stored)| == 0 ==> Count(r.group, EmptyState) == 1)
            && (|Loaded(stored)| > 0 ==> EmptyState !in r.group)
  {
    var data := Loaded(stored);
    var keys := Sort(Keys(data));
    UpdateListUnfold(p, stored);
    var group := KeepRows(p.group, keys);
    KeepRowsEmptyState(p.group, keys);
    if |data| == 0 {
      if EmptyState !in group {
        assert Count(group + [EmptyState], EmptyState) == Count(group, EmptyState) + 1 by {
          assert multiset(group + [EmptyState]) == multiset(group) + multiset{EmptyState};
        }
      }
    } else {
      var base := Pruned(p, keys);
      RefreshGroup(base, data, keys);
      ItemsMembers(Created(keys, base.rows.Keys), "");
    }
  }

  /** Rows shown in the group and rows in `activeRows` stay in step. */
  lemma {:induction false} UpdateListInStep(p: Page, stored: Option<seq<Field>>, k: string)
    requires RowItem(k) in p.group <==> k in p.rows
    ensures var r := UpdateList(p, stored).page;
            RowItem(k) in r.group <==> k in r.rows
  {
    var data := Loaded(stored);
    var keys := Sort(Keys(data));
    UpdateListUnfold(p, stored);
    UpdateListRows(p, stored, k);
    if |data| > 0 {
      var base := Pruned(p, keys);
      var c := Created(keys, base.rows.Keys);
      RefreshGroup(base, data, keys);
      CreatedMembers(keys, base.rows.Keys);
      ItemsMembers(c, k);
    }
  }

  /** New rows are appended after the surviving ones, one per new key, in
      sorted key order. */
  lemma {:induction false} UpdateListOrder(p: Page, stored: Option<seq<Field>>)
    ensures var data := Loaded(stored);
            var keys := Sort(Keys(data));
            var c := Created(keys, p.rows.Keys);
            && Sorted(c)
            && NoDuplicates(c)
            && (forall k :: k in c <==> k in Keys(data) && k !in p.rows)
            && (|data| > 0 ==>
                  UpdateList(p, stored).page.group == Without(KeepRows(p.group, keys), EmptyState) + Items(c))
  {
    var data := Loaded(stored);
    var keys := Sort(Keys(data));
    UpdateListUnfold(p, stored);
    SortSorted(Keys(data));
    CreatedSorted(keys, p.rows.Keys);
    CreatedDistinct(keys, p.rows.Keys);
    CreatedMembers(keys, p.rows.Keys);
    if |data| > 0 {
      var base := Pruned(p, keys);
      RefreshGroup(base, data, keys);
      CreatedAgree(keys, base.rows.Keys, p.rows.Keys);
    }
  }

  // ---------------------------------------------------------------------
  // Live updates, delete and clear-all
  // ---------------------------------------------------------------------

  /** The `changed::geometry-data` handler: a change arriving while an
      update is pending is dropped; otherwise one update is scheduled. */
  function OnChanged(p: Page): (r: Page)
    ensures r.pending
    ensures r.group == p.group && r.rows == p.rows
    ensures p.pending ==> r == p
  {
    if p.pending then p else p.(pending := true)
  }

  /** `n` change signals in a row. */
  function Changes(p: Page, n: nat): Page
  {
    if n == 0 then p else OnChanged(Changes(p, n - 1))
  }

  /** The 100 ms timeout: one pass over what is stored when it fires, then
      nothing pending. */
  function Fire(p: Page, stored: Option<seq<Field>>): (r: Refreshed)
    requires p.pending
    ensures !r.page.pending
  {
    var o := UpdateList(p, stored);
    Refreshed(o.page.(pending := false), o.rewritten)
  }

  /** The pass the timeout runs reads the store as it is when it fires. */
  lemma {:induction false} FireReadsStore(p: Page, stored: Option<seq<Field>>, k: string)
    requires p.pending
    ensures k in Fire(p, stored).page.rows <==> k in Keys(Loaded(stored))
  {
    UpdateListRows(p, stored, k);
  }

  /** The page's `destroy` handler: it disconnects the change signal and
      empties `activeRows`, but leaves `updateTimeout` alone, so an update
      already pending still runs. The group's children are not touched. */
  function Destroy(p: Page): (r: Page)
    ensures r.rows == map[]
    ensures r.pending == p.pending && r.group == p.group
  {
    p.(rows := map[])
  }

  /** An update pending at destroy still fires and runs `updateList`, which
      re-creates a row for every stored key on the destroyed page. */
  lemma {:induction false} PendingUpdateAfterDestroy(p: Page, stored: Option<seq<Field>>, k: string)
    requires p.pending
    ensures Destroy(p).pending
    ensures k in Fire(Destroy(p), stored).page.rows <==> k in Keys(Loaded(stored))
  {
    FireReadsStore(Destroy(p), stored, k);
  }

  /** However many signals arrive before the timeout, they schedule one
      update, and the page it produces is the one a single signal gives. */
  lemma {:induction false} ChangesCoalesce(p: Page, n: nat)
    requires n >= 1
    ensures Changes(p, n) == OnChanged(p)
  {
    if n > 1 {
      ChangesCoalesce(p, n - 1);
      assert OnChanged(p).pending;
    }
  }

  /** `delete data[key]` on the object. */
  function RemoveKey(data: seq<Field>, key: string): (r: seq<Field>)
    ensures |r| <= |data|
    ensures forall f :: f in r <==> f in data && f.key != key
  {
    if |data| == 0 then []
    else (if data[0].key == key then [] else [data[0]]) + RemoveKey(data[1..], key)
  }

  lemma {:induction false} KeysCons(f: Field, data: seq<Field>)
    ensures Keys([f] + data) == [f.key] + Keys(data)
  {
  }

  /** Deleting a key removes that key and keeps the others in order. */
  lemma {:induction false} RemoveKeyKeys(data: seq<Field>, key: string)
    ensures Keys(RemoveKey(data, key)) == Without(Keys(data), key)
  {
    if |data| > 0 {
      var t := RemoveKey(data[1..], key);
      RemoveKeyKeys(data[1..], key);
      assert data == [data[0]] + data[1..];
      KeysCons(data[0], data[1..]);
      assert Keys(data)[1..] == Keys(data[1..]);
      if data[0].key != key {
        KeysCons(data[0], t);
      }
    }
  }

  lemma {:induction false} ValueTail(data: seq<Field>, j: string)
    requires j in Keys(data) && data[0].key != j
    ensures j in Keys(data[1..]) && Value(data, j) == Value(data[1..], j)
  {
    assert Keys(data) == [data[0].key] + Keys(data[1..]);
  }

  /** Deleting a key from a parsed object leaves one: no key repeats. */
  lemma {:induction false} RemoveKeyDistinct(data: seq<Field>, key: string)
    requires DistinctKeys(data)
    ensures DistinctKeys(RemoveKey(data, key))
  {
    RemoveKeyKeys(data, key);
    WithoutNoDuplicates(Keys(data), key);
  }

  /** Deleting a key leaves every other key's rectangle as it was. */
  lemma {:induction false} RemoveKeyValue(data: seq<Field>, key: string, j: string)
    requires j != key && j in Keys(data)
    ensures j in Keys(RemoveKey(data, key)) && Value(RemoveKey(data, key), j) == Value(data, j)
  {
    var r := RemoveKey(data, key);
    var t := RemoveKey(data[1..], key);
    if data[0].key == j {
      assert r == [data[0]] + t;
      assert Keys(r)[0] == j;
    } else {
      ValueTail(data, j);
      RemoveKeyValue(data[1..], key, j);
      if data[0].key == key {
        assert r == t;
      } else {
        assert r == [data[0]] + t && r[1..] == t;
        ValueTail(r, j);
      }
    }
  }

  /** What a delete button leaves: the page and the stored object. */
  datatype Deleted = Deleted(page: Page, stored: Option<seq<Field>>)

  /** A row's delete button: the row leaves the group and `activeRows` at
      once; the stored object loses the key when it parses and holds it, and
      is otherwise not written. */
  function Delete(p: Page, stored: Option<seq<Field>>, key: string): (r: Deleted)
    ensures key !in r.page.rows && RowItem(key) !in r.page.group
    ensures forall k :: k != key ==> (k in r.page.rows <==> k in p.rows)
    ensures forall it :: it != RowItem(key) ==> (it in r.page.group <==> it in p.group)
    ensures r.page.pending == p.pending
    ensures r.stored.Some? <==> stored.Some?
    ensures !(stored.Some? && key in Keys(stored.value)) ==> r.stored == stored
  {
    var page := p.(group := Without(p.group, RowItem(key)), rows := p.rows - {key});
    if stored.Some? && key in Keys(stored.value) then Deleted(page, Some(RemoveKey(stored.value, key)))
    else Deleted(page, stored)
  }

  /** After a delete only that key is gone from the store: the other keys
      keep their order and rectangles. */
  lemma {:induction false} DeleteStored(p: Page, stored: Option<seq<Field>>, key: string, j: string)
    requires stored.Some?
    ensures var r := Delete(p, stored, key).stored.value;
            && Keys(r) == Without(Keys(stored.value), key)
            && (j != key && j in Keys(stored.value) ==> j in Keys(r) && Value(r, j) == Value(stored.value, j))
  {
    var data := stored.value;
    if key in Keys(data) {
      RemoveKeyKeys(data, key);
      if j != key && j in Keys(data) {
        RemoveKeyValue(data, key, j);
      }
    }
  }

  /** What "Clear All" stores: `'{}'`. */
  const Cleared: Option<seq<Field>> := Some([])

  /** The pass that follows "Clear All" removes every window row and shows
      the empty-state row once. */
  lemma {:induction false} ClearAllEmpties(p: Page, k: string)
    requires Count(p.group, EmptyState) <= 1
    ensures var r := UpdateList(p, Cleared).page;
            && k !in r.rows && RowItem(k) !in r.group
            && Count(r.group, EmptyState) == 1
  {
    UpdateListRows(p, Cleared, k);
    UpdateListEmptyState(p, Cleared);
    var keys := Sort(Keys([]));
    assert |keys| == 0;
  }
}

=== FILE: js.dfy ===
/** JavaScript values as they arrive from `metadata.json`, a parsed
    settings file or a GSettings dictionary, with the truthiness rule that
    `||`, `if (x)` and `!x` use. Numbers are integers here; `NaN` and
    fractions are not modelled. */
module Js {
  import opened Text

  datatype Value =
    | Undefined
    | Null
    | Bool(b: bool)
    | Num(n: int)
    | Str(s: string)
    | Arr(items: seq<Value>)
    | Obj(fields: map<string, Value>)

  /** JavaScript truthiness: `undefined`, `null`, `false`, `0` and `""`
      are falsy, everything else (objects and arrays included) is truthy. */
  predicate Truthy(v: Value)
  {
    match v
    case Undefined => false
    case Null => false
    case Bool(b) => b
    case Num(n) => n != 0
    case Str(s) => s != ""
    case Arr(_) => true
    case Obj(_) => true
  }

  /** `a || b`. */
  function Or(a: Value, b: Value): Value
  {
    if Truthy(a) then a else b
  }

  /** `a ?? b`: only `null` and `undefined` fall back. */
  function Coalesce(a: Value, b: Value): Value
  {
    if a == Undefined || a == Null then b else a
  }

  /** `obj[key]` on a plain object: `undefined` when the key is missing. */
  function Get(obj: map<string, Value>, key: string): Value
  {
    if key in obj then obj[key] else Undefined
  }

  /** `v[key]` on any value: only objects have own keys here. */
  function Prop(v: Value, key: string): Value
  {
    if v.Obj? then Get(v.fields, key) else Undefined
  }

  /** `String(v)`, as a template literal interpolates `v`. */
  function ToStr(v: Value): (r: string)
    ensures v.Str? ==> r == v.s
    ensures v.Bool? ==> r == (if v.b then "true" else "false")
    decreases v
  {
    match v
    case Undefined => "undefined"
    case Null => "null"
    case Bool(b) => if b then "true" else "false"
    case Num(n) => IntToString(n)
    case Str(s) => s
    case Arr(items) =>
      Join(seq(|items|, i requires 0 <= i < |items| =>
        if items[i] == Undefined || items[i] == Null then "" else ToStr(items[i])), ",")
    case Obj(_) => "[object Object]"
  }

  /** `||` picks the first truthy operand; the chain is truthy when any
      operand is. */
  lemma OrChain(a: Value, b: Value, c: Value)
    ensures Truthy(Or(Or(a, b), c)) <==> Truthy(a) || Truthy(b) || Truthy(c)
    ensures Truthy(a) ==> Or(Or(a, b), c) == a
    ensures !Truthy(a) && Truthy(b) ==> Or(Or(a, b), c) == b
    ensures !Truthy(a) && !Truthy(b) ==> Or(Or(a, b), c) == c
  {
  }

  /** `??` and `||` part ways exactly on the falsy values that are not
      `null` or `undefined`: `false`, `0` and `""`. */
  lemma CoalesceVersusOr(a: Value, b: Value)
    ensures Coalesce(a, b) != Or(a, b) ==> a in {Bool(false), Num(0), Str("")} && a != b
    ensures a in {Bool(false), Num(0), Str("")} ==> Coalesce(a, b) == a
  {
  }
}

=== FILE: lists.dfy ===
/** Ordered child lists, as a container actor keeps them: removal of a child,
    `indexOf`, and `insert_child_at_index`. */
module Lists {

  /** `s` with every occurrence of `a` removed. */
  function Without<T(==, !new)>(s: seq<T>, a: T): (r: seq<T>)
    ensures a !in r
    ensures forall x :: x != a ==> (x in r <==> x in s)
    ensures a !in s ==> r == s
  {
    if |s| == 0 then [] else (if s[0] == a then [] else [s[0]]) + Without(s[1..], a)
  }

  lemma {:induction false} WithoutAppend<T(!new)>(s: seq<T>, t: seq<T>, a: T)
    ensures Without(s + t, a) == Without(s, a) + Without(t, a)
  {
    if |s| > 0 {
      var h := if s[0] == a then [] else [s[0]];
      assert (s + t)[1..] == s[1..] + t;
      assert Without(s + t, a) == h + Without(s[1..] + t, a);
      WithoutAppend(s[1..], t, a);
      assert Without(s, a) == h + Without(s[1..], a);
    } else {
      assert s + t == t;
    }
  }

  /** `children.indexOf(x)`: the first index of `x`, or -1. */
  function IndexOf<T(==, !new)>(s: seq<T>, x: T): (i: int)
    ensures -1 <= i < |s|
    ensures i == -1 <==> x !in s
    ensures i >= 0 ==> s[i] == x && x !in s[..i]
  {
    if |s| == 0 then -1
    else if s[0] == x then 0
    else
      var k := IndexOf(s[1..], x);
      if k == -1 then -1 else k + 1
  }

  /** `insert_child_at_index`: an index outside `0..|s|` appends. */
  function InsertAt<T(==, !new)>(s: seq<T>, i: int, x: T): (r: seq<T>)
    ensures |r| == |s| + 1
    ensures 0 <= i <= |s| ==> r[i] == x && r[..i] == s[..i] && r[i + 1..] == s[i..]
    ensures !(0 <= i <= |s|) ==> r == s + [x]
  {
    if 0 <= i <= |s| then s[..i] + [x] + s[i..] else s + [x]
  }

  lemma {:induction false} WithoutInsert<T(!new)>(s: seq<T>, i: int, x: T)
    ensures Without(InsertAt(s, i, x), x) == Without(s, x)
  {
    if 0 <= i <= |s| {
      assert s == s[..i] + s[i..];
      WithoutAppend(s[..i] + [x], s[i..], x);
      WithoutAppend(s[..i], [x], x);
      WithoutAppend(s[..i], s[i..], x);
    } else {
      WithoutAppend(s, [x], x);
    }
  }

  /** No element occurs twice. */
  predicate NoDuplicates<T(==)>(s: seq<T>)
  {
    forall a, b :: 0 <= a < b < |s| ==> s[a] != s[b]
  }

  /** Removing an element keeps a list free of duplicates. */
  lemma {:induction false} WithoutNoDuplicates<T(!new)>(s: seq<T>, a: T)
    requires NoDuplicates(s)
    ensures NoDuplicates(Without(s, a))
  {
    if |s| > 0 {
      var t := s[1..];
      assert NoDuplicates(t) by {
        forall i, j | 0 <= i < j < |t| ensures t[i] != t[j] {
          assert t[i] == s[i + 1] && t[j] == s[j + 1];
        }
      }
      WithoutNoDuplicates(t, a);
      if s[0] != a {
        assert s[0] !in t by {
          forall k | 0 <= k < |t| ensures t[k] != s[0] {
            assert t[k] == s[k + 1];
          }
        }
        var r := [s[0]] + Without(t, a);
        forall i, j | 0 <= i < j < |r| ensures r[i] != r[j] {
          assert r[j] == Without(t, a)[j - 1];
          if i > 0 {
            assert r[i] == Without(t, a)[i - 1];
          }
        }
      }
    }
  }

  /** Number of occurrences of `a` in `s`. */
  function Count<T(==, !new)>(s: seq<T>, a: T): nat
  {
    multiset(s)[a]
  }

  lemma {:induction false} CountInsert<T(!new)>(s: seq<T>, i: int, x: T)
    requires x !in s
    ensures Count(InsertAt(s, i, x), x) == 1
  {
    assert multiset(s)[x] == 0;
    if 0 <= i <= |s| {
      assert s == s[..i] + s[i..];
      assert multiset(s) == multiset(s[..i]) + multiset(s[i..]);
      assert multiset(InsertAt(s, i, x)) == multiset(s[..i]) + multiset([x]) + multiset(s[i..]);
    } else {
      assert multiset(s + [x]) == multiset(s) + multiset([x]);
    }
  }

  /** A prefix read as three consecutive slices. */
  lemma {:induction false} PrefixSlices<T>(s: seq<T>, i: nat, e: nat, j: nat)
    requires i <= e <= j <= |s|
    ensures s[..j] == s[..i] + s[i..e] + s[e..j]
  {
    assert s[..j] == s[..e] + s[e..j];
    assert s[..e] == s[..i] + s[i..e];
  }

  /** Dropping the element at `j + 1` of a sequence with head `s[0]` is
      dropping the element at `j` of its tail. */
  lemma {:induction false} DropAtTail<T>(s: seq<T>, j: nat)
    requires j + 1 < |s|
    ensures s[..j + 1] + s[j + 2..] == [s[0]] + (s[1..][..j] + s[1..][j + 1..])
  {
    var t := s[1..];
    assert s[..j + 1] == [s[0]] + t[..j];
    assert s[j + 2..] == t[j + 1..];
  }

  /** Inserting at an element's index puts the new element just before it. */
  lemma {:induction false} InsertBefore<T(!new)>(s: seq<T>, k: nat, x: T)
    requires k < |s|
    ensures InsertAt(s, k, x)[k] == x && InsertAt(s, k, x)[k + 1] == s[k]
  {
    var r := InsertAt(s, k, x);
    assert r[k + 1..][0] == s[k..][0];
  }

  /** Inserting at the index after an element puts the new element just after
      it. */
  lemma {:induction false} InsertAfter<T(!new)>(s: seq<T>, k: nat, x: T)
    requires k < |s|
    ensures InsertAt(s, k + 1, x)[k] == s[k] && InsertAt(s, k + 1, x)[k + 1] == x
  {
    var r := InsertAt(s, k + 1, x);
    assert r[..k + 1][k] == s[..k + 1][k];
  }

  /** Inserting at the end or beyond appends. */
  lemma {:induction false} InsertLast<T(!new)>(s: seq<T>, i: int, x: T)
    requires i >= |s|
    ensures InsertAt(s, i, x)[|s|] == x
  {
  }
}

=== FILE: order.dfy ===
/** JavaScript's default `Array.prototype.sort()` on strings: the strings'
    UTF-16 code units compared one by one, a proper prefix first. */
module Order {

  /** The UTF-16 code units of one character: the character itself below
      U+10000, otherwise its surrogate pair. */
  function Units(c: char): (u: seq<int>)
    ensures |u| == 1 <==> c as int < 0x10000
    ensures |u| == 1 ==> u[0] == c as int
    ensures |u| == 2 ==> 0xD800 <= u[0] < 0xDC00 && 0xDC00 <= u[1] < 0xE000
                         && c as int == 0x10000 + (u[0] - 0xD800) * 0x400 + (u[1] - 0xDC00)
  {
    var k := c as int;
    if k < 0x10000 then [k]
    else [0xD800 + (k - 0x10000) / 0x400, 0xDC00 + (k - 0x10000) % 0x400]
  }

  /** A JavaScript string's code units. */
  function Utf16(s: string): seq<int>
  {
    if |s| == 0 then [] else Units(s[0]) + Utf16(s[1..])
  }

  /** Code-unit sequence `a` sorts no later than `b`. */
  predicate UnitsBefore(a: seq<int>, b: seq<int>)
    decreases |a|
  {
    if |a| == 0 then true
    else if |b| == 0 then false
    else if a[0] != b[0] then a[0] < b[0]
    else UnitsBefore(a[1..], b[1..])
  }

  /** `a` sorts no later than `b`. */
  predicate Before(a: string, b: string)
  {
    UnitsBefore(Utf16(a), Utf16(b))
  }

  lemma {:induction false} UnitsTotal(a: seq<int>, b: seq<int>)
    ensures UnitsBefore(a, b) || UnitsBefore(b, a)
    decreases |a|
  {
    if |a| > 0 && |b| > 0 && a[0] == b[0] {
      UnitsTotal(a[1..], b[1..]);
    }
  }

  lemma {:induction false} UnitsAntisymmetric(a: seq<int>, b: seq<int>)
    requires UnitsBefore(a, b) && UnitsBefore(b, a)
    ensures a == b
    decreases |a|
  {
    if |a| > 0 {
      UnitsAntisymmetric(a[1..], b[1..]);
      assert a == [a[0]] + a[1..] && b == [b[0]] + b[1..];
    }
  }

  lemma {:induction false} UnitsTransitive(a: seq<int>, b: seq<int>, c: seq<int>)
    requires UnitsBefore(a, b) && UnitsBefore(b, c)
    ensures UnitsBefore(a, c)
    decreases |a|
  {
    if |a| > 0 && a[0] == b[0] && b[0] == c[0] {
      UnitsTransitive(a[1..], b[1..], c[1..]);
    }
  }

  /** The first code unit tells a lone unit from a surrogate pair, so
      strings with the same code units are the same string. */
  lemma {:induction false} Utf16Injective(a: string, b: string)
    requires Utf16(a) == Utf16(b)
    ensures a == b
    decreases |a|
  {
    if |a| > 0 && |b| > 0 {
      var ua, ub := Units(a[0]), Units(b[0]);
      assert Utf16(a)[0] == ua[0] && Utf16(b)[0] == ub[0];
      if |ua| == 2 {
        assert Utf16(a)[1] == ua[1] && Utf16(b)[1] == ub[1];
      }
      assert ua == ub;
      assert Utf16(a[1..]) == Utf16(a)[|ua|..] == Utf16(b)[|ub|..] == Utf16(b[1..]);
      Utf16Injective(a[1..], b[1..]);
      assert a == [a[0]] + a[1..] && b == [b[0]] + b[1..];
    }
  }

  lemma {:induction false} BeforeTotal(a: string, b: string)
    ensures Before(a, b) || Before(b, a)
  {
    UnitsTotal(Utf16(a), Utf16(b));
  }

  lemma {:induction false} BeforeAntisymmetric(a: string, b: string)
    requires Before(a, b) && Before(b, a)
    ensures a == b
  {
    UnitsAntisymmetric(Utf16(a), Utf16(b));
    Utf16Injective(a, b);
  }

  lemma {:induction false} BeforeTransitive(a: string, b: string, c: string)
    requires Before(a, b) && Before(b, c)
    ensures Before(a, c)
  {
    UnitsTransitive(Utf16(a), Utf16(b), Utf16(c));
  }

  /** Code units are not code points: U+10000 is the pair D800 DC00, so it
      sorts before U+FFFF. */
  lemma {:induction false} AstralBeforeLastBmp()
    ensures Before("\U{10000}", "\U{FFFF}") && !Before("\U{FFFF}", "\U{10000}")
  {
    var astral, bmp := "\U{10000}", "\U{FFFF}";
    assert Units(astral[0]) == [0xD800, 0xDC00] && Units(bmp[0]) == [0xFFFF];
    assert astral[1..] == [] && bmp[1..] == [];
    assert Utf16(astral) == [0xD800, 0xDC00] && Utf16(bmp) == [0xFFFF];
  }

  /** Below U+10000 the order is the characters' own order. */
  lemma {:induction false} BeforeOneUnit(x: char, y: char)
    requires x as int < 0x10000 && y as int < 0x10000
    ensures Before([x], [y]) <==> x <= y
  {
    assert [x][1..] == [] && [y][1..] == [];
    var ux, uy := [x as int], [y as int];
    assert Utf16([x]) == ux && Utf16([y]) == uy;
    assert ux[1..] == [] && uy[1..] == [];
    if x == y {
      assert UnitsBefore(ux[1..], uy[1..]);
    } else {
      assert UnitsBefore(ux, uy) <==> x as int < y as int;
    }
  }

  predicate Sorted(s: seq<string>)
  {
    forall i, j :: 0 <= i < j < |s| ==> Before(s[i], s[j])
  }

  /** `x` placed in front of the first element it sorts before. */
  function Insert(x: string, s: seq<string>): (r: seq<string>)
    ensures multiset(r) == multiset(s) + multiset{x}
  {
    if |s| == 0 then [x]
    else if Before(x, s[0]) then [x] + s
    else
      assert s == [s[0]] + s[1..];
      [s[0]] + Insert(x, s[1..])
  }

  /** `keys.sort()`. Strings compare as a total order, so every sorting
      algorithm yields this same sequence (`SortUnique`). */
  function Sort(s: seq<string>): (r: seq<string>)
    ensures multiset(r) == multiset(s)
  {
    if |s| == 0 then []
    else
      assert s == [s[0]] + s[1..];
      Insert(s[0], Sort(s[1..]))
  }

  /** `y` sorts no later than any element of `s`. */
  predicate LowerBound(y: string, s: seq<string>)
  {
    forall k :: 0 <= k < |s| ==> Before(y, s[k])
  }

  lemma {:induction false} ConsSorted(y: string, t: seq<string>)
    requires Sorted(t) && LowerBound(y, t)
    ensures Sorted([y] + t)
  {
    var r := [y] + t;
    forall i, j | 0 <= i < j < |r| ensures Before(r[i], r[j]) {
      assert r[j] == t[j - 1];
      if i > 0 {
        assert r[i] == t[i - 1];
      }
    }
  }

  lemma {:induction false} InsertLowerBound(y: string, x: string, s: seq<string>)
    requires LowerBound(y, s) && Before(y, x)
    ensures LowerBound(y, Insert(x, s))
  {
    var r := Insert(x, s);
    forall k | 0 <= k < |r| ensures Before(y, r[k]) {
      assert r[k] in multiset(s) + multiset{x};
      if r[k] != x {
        assert r[k] in s;
      }
    }
  }

  lemma {:induction false} InsertSorted(x: string, s: seq<string>)
    requires Sorted(s)
    ensures Sorted(Insert(x, s))
  {
    if |s| > 0 {
      var t := s[1..];
      SortedTail(s);
      assert LowerBound(s[0], t) by {
        forall k | 0 <= k < |t| ensures Before(s[0], t[k]) {
          assert t[k] == s[k + 1];
        }
      }
      if Before(x, s[0]) {
        assert LowerBound(x, s) by {
          forall k | 0 <= k < |s| ensures Before(x, s[k]) {
            if k > 0 {
              BeforeTransitive(x, s[0], s[k]);
            }
          }
        }
        ConsSorted(x, s);
      } else {
        InsertSorted(x, t);
        BeforeTotal(x, s[0]);
        InsertLowerBound(s[0], x, t);
        ConsSorted(s[0], Insert(x, t));
      }
    }
  }

  lemma {:induction false} SortSorted(s: seq<string>)
    ensures Sorted(Sort(s))
  {
    if |s| > 0 {
      SortSorted(s[1..]);
      InsertSorted(s[0], Sort(s[1..]));
    }
  }

  lemma {:induction false} SortedTail(s: seq<string>)
    requires Sorted(s) && |s| > 0
    ensures Sorted(s[1..])
  {
    var t := s[1..];
    forall p, q | 0 <= p < q < |t| ensures Before(t[p], t[q]) {
      assert t[p] == s[p + 1] && t[q] == s[q + 1];
    }
  }

  /** The least element of a non-empty sorted sequence is its head. */
  lemma {:induction false} SortedHeads(a: seq<string>, b: seq<string>)
    requires Sorted(a) && Sorted(b) && multiset(a) == multiset(b) && |a| > 0
    ensures |b| > 0 && a[0] == b[0]
  {
    assert |b| == |multiset(b)| == |a|;
    var x, y := a[0], b[0];
    assert x in multiset(b) && y in multiset(a);
    var i :| 0 <= i < |b| && b[i] == x;
    var j :| 0 <= j < |a| && a[j] == y;
    if i > 0 && j > 0 {
      assert Before(y, x) && Before(x, y);
      BeforeAntisymmetric(x, y);
    }
  }

  lemma {:induction false} TailMultiset(a: seq<string>)
    requires |a| > 0
    ensures multiset(a[1..]) == multiset(a) - multiset{a[0]}
  {
    assert a == [a[0]] + a[1..];
  }

  /** Two sorted arrangements of the same strings are equal. */
  lemma {:induction false} SortedUnique(a: seq<string>, b: seq<string>)
    requires Sorted(a) && Sorted(b) && multiset(a) == multiset(b)
    ensures a == b
    decreases |a|
  {
    if |a| > 0 {
      SortedHeads(a, b);
      TailMultiset(a);
      TailMultiset(b);
      SortedTail(a);
      SortedTail(b);
      SortedUnique(a[1..], b[1..]);
      assert a == [a[0]] + a[1..] && b == [b[0]] + b[1..];
    } else {
      assert |b| == |multiset(b)| == 0;
    }
  }

  /** Whatever algorithm the engine uses, a sorted permutation of `s` is
      `Sort(s)`. */
  lemma {:induction false} SortUnique(s: seq<string>, r: seq<string>)
    requires Sorted(r) && multiset(r) == multiset(s)
    ensures r == Sort(s)
  {
    SortSorted(s);
    SortedUnique(r, Sort(s));
  }

  /** Sorting keeps exactly the strings it was given. */
  lemma {:induction false} SortMembers(s: seq<string>)
    ensures |Sort(s)| == |s|
    ensures forall k :: k in Sort(s) <==> k in s
  {
    var r := Sort(s);
    assert |r| == |multiset(r)| == |multiset(s)| == |s|;
    forall k ensures k in r <==> k in s {
      assert k in r <==> k in multiset(r);
      assert k in s <==> k in multiset(s);
    }
  }
}

=== FILE: page_tree.dfy ===
/** The preferences window's page tree — sections holding items, items holding
    nested `pages` and `groups` of pages — together with the lookup by id that
    navigation uses (`findPageDefinition`), the settings search
    (`performSearch`) and the rule that turns a search hit into a navigation
    (`updateSearchResults`). Widgets are left out: a search produces the list of
    hits the sidebar shows, and activating a hit produces the `goToPage` call. */
module PageTree {
  import opened Wrappers
  import opened Text

  /** A page definition. An absent `description` is the empty string (it
      joins as one), an absent `searchable` is `true`, absent `pages` or
      `groups` are empty. */
  datatype Page = Page(
    id: string,
    title: string,
    description: string,
    keywords: seq<string>,
    searchable: bool,
    pages: seq<Page>,
    groups: seq<Group>)

  /** A titled group of sub-pages inside an auto-generated menu page. */
  datatype Group = Group(title: string, pages: seq<Page>)

  /** A sidebar section: a heading and its top-level items. */
  datatype Section = Section(title: string, items: seq<Page>)

  // ---------------------------------------------------------------------
  // Reference order: depth-first pre-order over the whole tree.
  // ---------------------------------------------------------------------

  /** Every page of `list` in depth-first pre-order: an item, then its
      `pages`, then the pages of its `groups`, then the next item. */
  function PreOrder(list: seq<Page>): seq<Page>
    decreases list
  {
    if |list| == 0 then [] else PreOrderItem(list[0]) + PreOrder(list[1..])
  }

  function PreOrderItem(p: Page): seq<Page>
    decreases p
  {
    [p] + PreOrder(p.pages) + PreOrderGroups(p.groups)
  }

  function PreOrderGroups(gs: seq<Group>): seq<Page>
    decreases gs
  {
    if |gs| == 0 then [] else PreOrder(gs[0].pages) + PreOrderGroups(gs[1..])
  }

  /** All pages of all sections, sections in order. */
  function AllPages(sections: seq<Section>): seq<Page>
  {
    if |sections| == 0 then [] else PreOrder(sections[0].items) + AllPages(sections[1..])
  }

  /** The first page of `s` whose id is `id`. */
  function FirstWithId(s: seq<Page>, id: string): Option<Page>
  {
    if |s| == 0 then None
    else if s[0].id == id then Some(s[0])
    else FirstWithId(s[1..], id)
  }

  lemma {:induction false} FirstWithIdAppend(a: seq<Page>, b: seq<Page>, id: string)
    ensures FirstWithId(a + b, id)
         == (if FirstWithId(a, id).Some? then FirstWithId(a, id) else FirstWithId(b, id))
  {
    if |a| > 0 {
      assert (a + b)[1..] == a[1..] + b;
      FirstWithIdAppend(a[1..], b, id);
    } else {
      assert a + b == b;
    }
  }

  lemma {:induction false} FirstWithIdNone(s: seq<Page>, id: string)
    ensures FirstWithId(s, id).None? <==> forall p | p in s :: p.id != id
  {
    if |s| > 0 {
      FirstWithIdNone(s[1..], id);
      assert forall p | p in s :: p == s[0] || p in s[1..];
    }
  }

  // ---------------------------------------------------------------------
  // findPageDefinition
  // ---------------------------------------------------------------------

  /** `scanList`: the first item whose id matches, checking each item before
      its nested `pages` and those before its `groups`. */
  function ScanList(list: seq<Page>, id: string): (r: Option<Page>)
    decreases list
    ensures r.Some? ==> r.value.id == id
  {
    if |list| == 0 then None
    else match ScanItem(list[0], id)
      case Some(p) => Some(p)
      case None => ScanList(list[1..], id)
  }

  function ScanItem(p: Page, id: string): (r: Option<Page>)
    decreases p
    ensures r.Some? ==> r.value.id == id
  {
    if p.id == id then Some(p)
    else match ScanList(p.pages, id)
      case Some(q) => Some(q)
      case None => ScanGroups(p.groups, id)
  }

  function ScanGroups(gs: seq<Group>, id: string): (r: Option<Page>)
    decreases gs
    ensures r.Some? ==> r.value.id == id
  {
    if |gs| == 0 then None
    else match ScanList(gs[0].pages, id)
      case Some(q) => Some(q)
      case None => ScanGroups(gs[1..], id)
  }

  /** `findPageDefinition(id)`: sections are scanned in order, the first hit
      wins, and `None` stands for `null`. */
  function FindPageDefinition(sections: seq<Section>, id: string): (r: Option<Page>)
    ensures r.Some? ==> r.value.id == id
  {
    if |sections| == 0 then None
    else match ScanList(sections[0].items, id)
      case Some(p) => Some(p)
      case None => FindPageDefinition(sections[1..], id)
  }

  lemma {:induction false} ScanListIsFirst(list: seq<Page>, id: string)
    decreases list
    ensures ScanList(list, id) == FirstWithId(PreOrder(list), id)
  {
    if |list| > 0 {
      ScanItemIsFirst(list[0], id);
      ScanListIsFirst(list[1..], id);
      FirstWithIdAppend(PreOrderItem(list[0]), PreOrder(list[1..]), id);
    }
  }

  lemma {:induction false} ScanItemIsFirst(p: Page, id: string)
    decreases p
    ensures ScanItem(p, id) == FirstWithId(PreOrderItem(p), id)
  {
    ScanListIsFirst(p.pages, id);
    ScanGroupsIsFirst(p.groups, id);
    assert PreOrderItem(p) == [p] + (PreOrder(p.pages) + PreOrderGroups(p.groups));
    FirstWithIdAppend(PreOrder(p.pages), PreOrderGroups(p.groups), id);
    FirstWithIdAppend([p], PreOrder(p.pages) + PreOrderGroups(p.groups), id);
  }

  lemma {:induction false} ScanGroupsIsFirst(gs: seq<Group>, id: string)
    decreases gs
    ensures ScanGroups(gs, id) == FirstWithId(PreOrderGroups(gs), id)
  {
    if |gs| > 0 {
      ScanListIsFirst(gs[0].pages, id);
      ScanGroupsIsFirst(gs[1..], id);
      FirstWithIdAppend(PreOrder(gs[0].pages), PreOrderGroups(gs[1..]), id);
    }
  }

  /** The lookup returns the first page with the id in depth-first pre-order
      over all sections; in particular it is `None` exactly when no page of the
      tree, at any depth, has that id. */
  lemma {:induction false} FindIsFirstInPreOrder(sections: seq<Section>, id: string)
    ensures FindPageDefinition(sections, id) == FirstWithId(AllPages(sections), id)
    ensures FindPageDefinition(sections, id).None? <==> forall p | p in AllPages(sections) :: p.id != id
  {
    if |sections| > 0 {
      ScanListIsFirst(sections[0].items, id);
      FindIsFirstInPreOrder(sections[1..], id);
      FirstWithIdAppend(PreOrder(sections[0].items), AllPages(sections[1..]), id);
    }
    FirstWithIdNone(AllPages(sections), id);
  }

  // ---------------------------------------------------------------------
  // performSearch
  // ---------------------------------------------------------------------

  /** The text a page is searched by: title, description and keywords joined
      by spaces, lower-cased. */
  function SearchText(p: Page): string
  {
    Lower(Join([p.title, p.description] + p.keywords, " "))
  }

  /** A page is a hit when its search text contains the lower-cased query. */
  predicate Matches(p: Page, query: string)
  {
    Contains(SearchText(p), Lower(query))
  }

  /** JavaScript's `a || b` on strings: the empty string is falsy. */
  function OrElse(a: string, b: string): string
  {
    if a != "" then a else b
  }

  /** The breadcrumb of a hit below a parent titled `parentTitle` (the empty
      string stands for the missing parent title, which is falsy). */
  function Crumb(parentTitle: string, title: string): Option<string>
  {
    if parentTitle != "" then Some(parentTitle + " > " + title) else None
  }

  /** One search result row. */
  datatype Hit = Hit(page: Page, parentId: string, breadcrumb: Option<string>)

  /** `checkPage(page, parentTitle, parentId)`: a non-searchable page is
      skipped with its whole subtree; otherwise the page itself (when it
      matches), then its `pages`, then the pages of its `groups`. */
  function CheckPage(p: Page, parentTitle: string, parentId: string, query: string): (r: seq<Hit>)
    decreases p
    ensures forall h | h in r :: h.page.searchable && Matches(h.page, query)
  {
    if !p.searchable then []
    else
      (if Matches(p, query) then [Hit(p, OrElse(parentId, p.id), Crumb(parentTitle, p.title))] else [])
      + CheckList(p.pages, p.title, p.id, query)
      + CheckGroups(p.groups, p.title, p.id, query)
  }

  function CheckList(list: seq<Page>, parentTitle: string, parentId: string, query: string): (r: seq<Hit>)
    decreases list
    ensures forall h | h in r :: h.page.searchable && Matches(h.page, query)
  {
    if |list| == 0 then []
    else CheckPage(list[0], parentTitle, parentId, query) + CheckList(list[1..], parentTitle, parentId, query)
  }

  /** Group children get the breadcrumb prefix "Parent > Group" and the
      parent's id. */
  function CheckGroups(gs: seq<Group>, title: string, id: string, query: string): (r: seq<Hit>)
    decreases gs
    ensures forall h | h in r :: h.page.searchable && Matches(h.page, query)
  {
    if |gs| == 0 then []
    else CheckList(gs[0].pages, title + " > " + gs[0].title, id, query) + CheckGroups(gs[1..], title, id, query)
  }

  /** `performSearch(query)`: the hits of every section's items, in order. */
  function PerformSearch(sections: seq<Section>, query: string): (r: seq<Hit>)
    ensures forall h | h in r :: h.page.searchable && Matches(h.page, query)
  {
    if |sections| == 0 then []
    else CheckList(sections[0].items, "", "", query) + PerformSearch(sections[1..], query)
  }

  // ---- reference: pre-order of the searchable part of the tree ----

  /** Pre-order of the pages a search visits: a non-searchable page prunes
      its subtree. */
  function Visible(list: seq<Page>): seq<Page>
    decreases list
  {
    if |list| == 0 then [] else VisibleItem(list[0]) + Visible(list[1..])
  }

  function VisibleItem(p: Page): seq<Page>
    decreases p
  {
    if !p.searchable then [] else [p] + Visible(p.pages) + VisibleGroups(p.groups)
  }

  function VisibleGroups(gs: seq<Group>): seq<Page>
    decreases gs
  {
    if |gs| == 0 then [] else Visible(gs[0].pages) + VisibleGroups(gs[1..])
  }

  function VisibleAll(sections: seq<Section>): seq<Page>
  {
    if |sections| == 0 then [] else Visible(sections[0].items) + VisibleAll(sections[1..])
  }

  function FilterMatches(s: seq<Page>, query: string): seq<Page>
  {
    if |s| == 0 then []
    else (if Matches(s[0], query) then [s[0]] else []) + FilterMatches(s[1..], query)
  }

  function HitPages(hits: seq<Hit>): seq<Page>
  {
    if |hits| == 0 then [] else [hits[0].page] + HitPages(hits[1..])
  }

  lemma {:induction false} FilterMatchesAppend(a: seq<Page>, b: seq<Page>, query: string)
    ensures FilterMatches(a + b, query) == FilterMatches(a, query) + FilterMatches(b, query)
  {
    if |a| > 0 {
      assert (a + b)[1..] == a[1..] + b;
      FilterMatchesAppend(a[1..], b, query);
    } else {
      assert a + b == b;
    }
  }

  lemma {:induction false} HitPagesAppend(a: seq<Hit>, b: seq<Hit>)
    ensures HitPages(a + b) == HitPages(a) + HitPages(b)
  {
    if |a| > 0 {
      assert (a + b)[1..] == a[1..] + b;
      HitPagesAppend(a[1..], b);
    } else {
      assert a + b == b;
    }
  }

  lemma {:induction false} CheckListIsFilteredVisible(list: seq<Page>, pt: string, pid: string, query: string)
    decreases list
    ensures HitPages(CheckList(list, pt, pid, query)) == FilterMatches(Visible(list), query)
  {
    if |list| > 0 {
      CheckPageIsFilteredVisible(list[0], pt, pid, query);
      CheckListIsFilteredVisible(list[1..], pt, pid, query);
      HitPagesAppend(CheckPage(list[0], pt, pid, query), CheckList(list[1..], pt, pid, query));
      FilterMatchesAppend(VisibleItem(list[0]), Visible(list[1..]), query);
    }
  }

  lemma {:induction false} CheckPageIsFilteredVisible(p: Page, pt: string, pid: string, query: string)
    decreases p
    ensures HitPages(CheckPage(p, pt, pid, query)) == FilterMatches(VisibleItem(p), query)
  {
    if p.searchable {
      var own := if Matches(p, query) then [Hit(p, OrElse(pid, p.id), Crumb(pt, p.title))] else [];
      var a := CheckList(p.pages, p.title, p.id, query);
      var b := CheckGroups(p.groups, p.title, p.id, query);
      CheckListIsFilteredVisible(p.pages, p.title, p.id, query);
      CheckGroupsIsFilteredVisible(p.groups, p.title, p.id, query);
      HitPagesAppend(own, a);
      HitPagesAppend(own + a, b);
      FilterMatchesAppend([p], Visible(p.pages), query);
      FilterMatchesAppend([p] + Visible(p.pages), VisibleGroups(p.groups), query);
    }
  }

  lemma {:induction false} CheckGroupsIsFilteredVisible(gs: seq<Group>, title: string, id: string, query: string)
    decreases gs
    ensures HitPages(CheckGroups(gs, title, id, query)) == FilterMatches(VisibleGroups(gs), query)
  {
    if |gs| > 0 {
      CheckListIsFilteredVisible(gs[0].pages, title + " > " + gs[0].title, id, query);
      CheckGroupsIsFilteredVisible(gs[1..], title, id, query);
      HitPagesAppend(CheckList(gs[0].pages, title + " > " + gs[0].title, id, query),
                     CheckGroups(gs[1..], title, id, query));
      FilterMatchesAppend(Visible(gs[0].pages), VisibleGroups(gs[1..]), query);
    }
  }

  /** The search reports exactly the matching pages among those it visits
      (the tree in pre-order with non-searchable subtrees pruned), in that
      order: every parent precedes its descendants and nothing is repeated
      or dropped. */
  lemma {:induction false} SearchIsFilteredPreOrder(sections: seq<Section>, query: string)
    ensures HitPages(PerformSearch(sections, query)) == FilterMatches(VisibleAll(sections), query)
  {
    if |sections| > 0 {
      CheckListIsFilteredVisible(sections[0].items, "", "", query);
      SearchIsFilteredPreOrder(sections[1..], query);
      HitPagesAppend(CheckList(sections[0].items, "", "", query), PerformSearch(sections[1..], query));
      FilterMatchesAppend(Visible(sections[0].items), VisibleAll(sections[1..]), query);
    }
  }

  // ---- reference: what a hit below a parent carries ----

  /** `h` is the hit of a page listed directly under `parent`, either in its
      `pages` or in one of its groups, and carries `parent`'s id and title. */
  predicate ChildHitOf(parent: Page, h: Hit)
  {
    || (h.page in parent.pages
        && h.parentId == OrElse(parent.id, h.page.id)
        && h.breadcrumb == Crumb(parent.title, h.page.title))
    || (exists g | g in parent.groups ::
          h.page in g.pages
          && h.parentId == OrElse(parent.id, h.page.id)
          && h.breadcrumb == Crumb(parent.title + " > " + g.title, h.page.title))
  }

  /** Hits of a list: either of an item of the list itself, annotated with
      the caller's parent title and id, or the child hit of some page below. */
  predicate ListHit(list: seq<Page>, pt: string, pid: string, h: Hit)
  {
    && h.page in PreOrder(list)
    && (|| (h.page in list && h.parentId == OrElse(pid, h.page.id) && h.breadcrumb == Crumb(pt, h.page.title))
        || (exists P | P in PreOrder(list) :: ChildHitOf(P, h)))
  }

  lemma {:induction false} CheckListHits(list: seq<Page>, pt: string, pid: string, query: string)
    decreases list
    ensures forall h | h in CheckList(list, pt, pid, query) :: ListHit(list, pt, pid, h)
  {
    if |list| > 0 {
      var p := list[0];
      CheckPageHits(p, pt, pid, query);
      CheckListHits(list[1..], pt, pid, query);
      forall h | h in CheckList(list, pt, pid, query)
        ensures ListHit(list, pt, pid, h)
      {
        assert PreOrder(list) == PreOrderItem(p) + PreOrder(list[1..]);
        assert [p][1..] == [];
        assert PreOrder([p]) == PreOrderItem(p);
        if h in CheckPage(p, pt, pid, query) {
          assert ListHit([p], pt, pid, h);
          if h.page in [p] { assert h.page in list; }
          else {
            var P :| P in PreOrder([p]) && ChildHitOf(P, h);
            assert P in PreOrder(list);
          }
        } else {
          assert h in CheckList(list[1..], pt, pid, query);
          assert ListHit(list[1..], pt, pid, h);
          if h.page in list[1..] && h.parentId == OrElse(pid, h.page.id) && h.breadcrumb == Crumb(pt, h.page.title) {
            assert h.page in list;
          } else {
            var P :| P in PreOrder(list[1..]) && ChildHitOf(P, h);
            assert P in PreOrder(list);
          }
        }
      }
    }
  }

  lemma {:induction false} CheckPageHits(p: Page, pt: string, pid: string, query: string)
    decreases p
    ensures forall h | h in CheckPage(p, pt, pid, query) :: ListHit([p], pt, pid, h)
  {
    if p.searchable {
      CheckListHits(p.pages, p.title, p.id, query);
      CheckGroupsHits(p, p.groups, query);
      assert PreOrder([p]) == PreOrderItem(p) + PreOrder([]);
      assert PreOrder([p]) == [p] + PreOrder(p.pages) + PreOrderGroups(p.groups);
      forall h | h in CheckPage(p, pt, pid, query)
        ensures ListHit([p], pt, pid, h)
      {
        if h in CheckList(p.pages, p.title, p.id, query) {
          assert ListHit(p.pages, p.title, p.id, h);
          if h.page in p.pages && h.parentId == OrElse(p.id, h.page.id) && h.breadcrumb == Crumb(p.title, h.page.title) {
            assert ChildHitOf(p, h);
            assert p in PreOrder([p]);
          } else {
            var P :| P in PreOrder(p.pages) && ChildHitOf(P, h);
            assert P in PreOrder([p]);
          }
        } else if h in CheckGroups(p.groups, p.title, p.id, query) {
          if ChildHitOf(p, h) {
            assert p in PreOrder([p]);
          } else {
            var P :| P in PreOrderGroups(p.groups) && ChildHitOf(P, h);
            assert P in PreOrder([p]);
          }
        } else {
          assert h == Hit(p, OrElse(pid, p.id), Crumb(pt, p.title));
        }
      }
    }
  }

  lemma {:induction false} CheckGroupsHits(parent: Page, gs: seq<Group>, query: string)
    requires forall g | g in gs :: g in parent.groups
    decreases gs
    ensures forall h | h in CheckGroups(gs, parent.title, parent.id, query) ::
              && h.page in PreOrderGroups(gs)
              && (ChildHitOf(parent, h) || exists P | P in PreOrderGroups(gs) :: ChildHitOf(P, h))
  {
    if |gs| > 0 {
      var g := gs[0];
      var t := parent.title + " > " + g.title;
      CheckListHits(g.pages, t, parent.id, query);
      CheckGroupsHits(parent, gs[1..], query);
      assert PreOrderGroups(gs) == PreOrder(g.pages) + PreOrderGroups(gs[1..]);
      forall h | h in CheckGroups(gs, parent.title, parent.id, query)
        ensures h.page in PreOrderGroups(gs)
        ensures ChildHitOf(parent, h) || exists P | P in PreOrderGroups(gs) :: ChildHitOf(P, h)
      {
        if h in CheckList(g.pages, t, parent.id, query) {
          assert ListHit(g.pages, t, parent.id, h);
          if h.page in g.pages && h.parentId == OrElse(parent.id, h.page.id) && h.breadcrumb == Crumb(t, h.page.title) {
            assert g in parent.groups;
            assert ChildHitOf(parent, h);
          } else {
            var P :| P in PreOrder(g.pages) && ChildHitOf(P, h);
            assert P in PreOrderGroups(gs);
          }
        } else {
          assert h in CheckGroups(gs[1..], parent.title, parent.id, query);
        }
      }
    }
  }

  /** Every search hit is either a top-level item, carrying its own id as
      `parentId` and no breadcrumb, or a page listed directly under some page
      of the tree, carrying that parent's id and the breadcrumb
      "Parent > Title" (or "Parent > Group > Title" for group children).
      The hit's page is always a page of the tree. */
  lemma {:induction false} SearchHitParents(sections: seq<Section>, query: string)
    ensures forall h | h in PerformSearch(sections, query) ::
              && h.page in AllPages(sections)
              && (|| (h.parentId == h.page.id && h.breadcrumb.None?)
                  || (exists P | P in AllPages(sections) :: ChildHitOf(P, h)))
  {
    if |sections| > 0 {
      var items := sections[0].items;
      CheckListHits(items, "", "", query);
      SearchHitParents(sections[1..], query);
      forall h | h in PerformSearch(sections, query)
        ensures h.page in AllPages(sections)
        ensures || (h.parentId == h.page.id && h.breadcrumb.None?)
                || (exists P | P in AllPages(sections) :: ChildHitOf(P, h))
      {
        if h in CheckList(items, "", "", query) {
          assert ListHit(items, "", "", h);
          if !(h.page in items && h.parentId == OrElse("", h.page.id) && h.breadcrumb == Crumb("", h.page.title)) {
            var P :| P in PreOrder(items) && ChildHitOf(P, h);
            assert P in AllPages(sections);
          }
        } else {
          assert h in PerformSearch(sections[1..], query);
          if !(h.parentId == h.page.id && h.breadcrumb.None?) {
            var P :| P in AllPages(sections[1..]) && ChildHitOf(P, h);
            assert P in AllPages(sections);
          }
        }
      }
    }
  }

  // ---------------------------------------------------------------------
  // updateSearchResults: what the sidebar shows and what a row activates
  // ---------------------------------------------------------------------

  /** A call of `goToPage(pageId, subPageId?)`. */
  datatype Navigation = GoToPage(pageId: string, subPage: Option<string>)

  /** What the sidebar lists for the current query. */
  datatype SidebarView = StandardMenu | NoResults | Results(hits: seq<Hit>)

  /** An empty query restores the standard menu; a query without hits shows
      the "No Results Found" row. */
  function SearchView(sections: seq<Section>, query: string): (v: SidebarView)
    ensures query == "" <==> v.StandardMenu?
    ensures v.Results? ==> |v.hits| > 0 && v.hits == PerformSearch(sections, query)
    ensures v.NoResults? ==> PerformSearch(sections, query) == []
  {
    if query == "" then StandardMenu
    else
      var hits := PerformSearch(sections, query);
      if |hits| == 0 then NoResults else Results(hits)
  }

  /** Activating a result row: a sub-page hit (its id differs from
      `parentId`) opens the parent and pushes the sub-page, any other hit
      opens the page itself. */
  function Activate(h: Hit): (n: Navigation)
    ensures n.subPage.Some? <==> h.page.id != h.parentId
    ensures n.subPage.Some? ==> n.pageId == h.parentId && n.subPage.value == h.page.id
    ensures n.subPage.None? ==> n.pageId == h.page.id
  {
    if h.page.id != h.parentId then GoToPage(h.parentId, Some(h.page.id)) else GoToPage(h.page.id, None)
  }

  /** Every search result leads somewhere: the page `goToPage` is asked to
      open is found by `findPageDefinition`, and a pushed sub-page is a page
      of the tree too. */
  lemma {:induction false} SearchResultsNavigate(sections: seq<Section>, query: string, h: Hit)
    requires h in PerformSearch(sections, query)
    ensures FindPageDefinition(sections, Activate(h).pageId).Some?
    ensures Activate(h).subPage.Some? ==> FindPageDefinition(sections, Activate(h).subPage.value).Some?
  {
    SearchHitParents(sections, query);
    var n := Activate(h);
    if n.subPage.Some? {
      assert h.parentId != h.page.id;
      var P :| P in AllPages(sections) && ChildHitOf(P, h);
      assert h.parentId == P.id;
      FindIsFirstInPreOrder(sections, P.id);
    } else {
      FindIsFirstInPreOrder(sections, h.page.id);
    }
    if n.subPage.Some? {
      FindIsFirstInPreOrder(sections, h.page.id);
    }
  }
}

=== FILE: settings_io.dfy ===
/** Settings import and export (`SettingsManager` in app/util/io.js).
    The JSON text is modelled as the value `JSON.parse` gives or its
    error; the schema is its key list; whether `new GLib.Variant(type,
    value)` accepts a value for a key is the input `convertible`. */
module SettingsIO {
  import opened Text
  import opened Js

  /** What `JSON.parse` makes of the imported text. */
  datatype Parsed = Json(data: Value) | SyntaxError(message: string)

  /** `{ success, message }`, together with the keys `set_value` wrote. */
  datatype Outcome = Outcome(success: bool, message: string, written: map<string, Value>)

  const InvalidFormat := "Invalid configuration file format."

  /** The message SpiderMonkey gives the `TypeError` of reading a property
      of `null`, which `JSON.parse("null")` leads to. */
  const NullDataMessage := "can't access property \"settings\", data is null"

  function SuccessMessage(count: nat): string
  {
    "Successfully imported " + NatToString(count) + " settings."
  }

  /** `Object.entries(v)` as a map from key to value: an object's own
      fields. An array or string has index keys ("0", "1", ...), which no
      GSettings key (always starting with a letter) matches, so they are
      given no entries here. */
  function Entries(v: Value): map<string, Value>
  {
    if v.Obj? then v.fields else map[]
  }

  /** The entries `importSettings` writes: keys the schema lists whose
      value converts to the key's type. */
  function Accepted(entries: map<string, Value>, schemaKeys: seq<string>, convertible: (string, Value) -> bool): (w: map<string, Value>)
    ensures forall k :: k in w <==> k in entries && k in schemaKeys && convertible(k, entries[k])
    ensures forall k :: k in w ==> w[k] == entries[k]
  {
    map k | k in entries && k in schemaKeys && convertible(k, entries[k]) :: entries[k]
  }

  /** `importSettings`. */
  function Import(parsed: Parsed, schemaKeys: seq<string>, convertible: (string, Value) -> bool): (r: Outcome)
    ensures parsed.SyntaxError? ==> r == Outcome(false, parsed.message, map[])
    ensures parsed.Json? && parsed.data == Null ==> r == Outcome(false, NullDataMessage, map[])
    ensures parsed.Json? && parsed.data != Null
            && (!Truthy(Prop(parsed.data, "settings")) || !Truthy(Prop(parsed.data, "metadata")))
            ==> r == Outcome(false, InvalidFormat, map[])
    ensures r.success ==> r.message == SuccessMessage(|r.written|)
    ensures forall k :: k in r.written ==> k in schemaKeys
  {
    match parsed
    case SyntaxError(msg) => Outcome(false, msg, map[])
    case Json(data) =>
      if data == Null then Outcome(false, NullDataMessage, map[])
      else if !Truthy(Prop(data, "settings")) || !Truthy(Prop(data, "metadata")) then Outcome(false, InvalidFormat, map[])
      else
        var w := Accepted(Entries(Prop(data, "settings")), schemaKeys, convertible);
        Outcome(true, SuccessMessage(|w|), w)
  }

  /** A well-formed file writes exactly the listed keys whose value
      converts: an unknown key or a failed conversion skips that key only. */
  lemma {:induction false} ImportWrites(data: Value, schemaKeys: seq<string>, convertible: (string, Value) -> bool, k: string)
    requires data != Null && Truthy(Prop(data, "settings")) && Truthy(Prop(data, "metadata"))
    ensures var r := Import(Json(data), schemaKeys, convertible);
            var entries := Entries(Prop(data, "settings"));
            && r.success
            && (k in r.written <==> k in entries && k in schemaKeys && convertible(k, entries[k]))
            && (k in r.written ==> r.written[k] == entries[k])
  {
  }

  /** The count in a success message determines the number of keys
      written. */
  lemma {:induction false} SuccessMessageCount(m: nat, n: nat)
    requires SuccessMessage(m) == SuccessMessage(n)
    ensures m == n
  {
    var p := "Successfully imported ";
    var a, b := NatToString(m), NatToString(n);
    assert SuccessMessage(m) == p + (a + " settings.");
    assert SuccessMessage(n) == p + (b + " settings.");
    CutPrefix(p, a + " settings.", b + " settings.");
    NumberNoChar(m, ' ');
    NumberNoChar(n, ' ');
    assert " settings." == [' '] + "settings.";
    CutAtChar(a, "settings.", b, "settings.", ' ');
    NatToStringInjective(m, n);
  }

  /** `exportSettings`: every schema key with its current value, under a
      `metadata` block of version 1. */
  function Export(schemaKeys: seq<string>, values: map<string, Value>, uuid: Value, date: string): (v: Value)
    requires forall k :: k in schemaKeys ==> k in values
    ensures v.Obj? && "metadata" in v.fields && "settings" in v.fields
    ensures Prop(Prop(v, "metadata"), "version") == Num(1)
    ensures forall k :: k in Entries(Prop(v, "settings")) <==> k in schemaKeys
    ensures forall k :: k in schemaKeys ==> Entries(Prop(v, "settings"))[k] == values[k]
  {
    var settings := map k | k in schemaKeys :: values[k];
    Obj(map["metadata" := Obj(map["version" := Num(1), "uuid" := uuid, "date" := Str(date)]),
            "settings" := Obj(settings)])
  }

  /** Importing an export of the same schema writes back every key whose
      value converts, with the exported value; when every current value
      converts, that is every key. */
  lemma {:induction false} ExportImportRoundTrip(schemaKeys: seq<string>, values: map<string, Value>, uuid: Value, date: string,
                                                 convertible: (string, Value) -> bool)
    requires forall k :: k in schemaKeys ==> k in values
    requires forall k :: k in schemaKeys ==> convertible(k, values[k])
    ensures var r := Import(Json(Export(schemaKeys, values, uuid, date)), schemaKeys, convertible);
            && r.success
            && r.written == map k | k in schemaKeys :: values[k]
  {
    var v := Export(schemaKeys, values, uuid, date);
    var settings := Prop(v, "settings");
    assert settings == Obj(map k | k in schemaKeys :: values[k]);
    assert Truthy(settings) && Truthy(Prop(v, "metadata"));
  }
}

=== FILE: shell_window.dfy ===
/** The demo application shell (ui/window.js with the sizes of
    ui/config.js): the sidebar rows and view-stack pages built from a page
    registration, and the responsive title and sidebar width applied on
    each size allocation. */
module ShellWindow {
  import opened Wrappers

  // ---------------------------------------------------------------- sizes (ui/config.js)

  const SidebarMinWidth := 180
  const SidebarMaxWidth := 250
  const SidebarProportion: real := 0.28
  const OverlayMargin := 50
  const TitleCollapse := 390
  const TitleCollapseUltra := 250
  const AppTitle := "My App"

  // ---------------------------------------------------------------- size allocation

  /** The header's title and subtitle for a window width: both above 390,
      the title alone above 250, nothing otherwise. */
  function Titles(width: int, current: string): (r: (string, string))
    ensures width > TitleCollapse ==> r == (AppTitle, current)
    ensures TitleCollapseUltra < width <= TitleCollapse ==> r == (AppTitle, "")
    ensures width <= TitleCollapseUltra ==> r == ("", "")
  {
    if width > TitleCollapse then (AppTitle, current)
    else if width > TitleCollapseUltra then (AppTitle, "")
    else ("", "")
  }

  /** `Math.round`: the nearest integer, halves rounded up. */
  function Round(x: real): (n: int)
    ensures n as real - 0.5 <= x < n as real + 0.5
  {
    (x + 0.5).Floor
  }

  /** `Math.max(lo, Math.min(hi, x))`. */
  function Clamp(x: real, lo: real, hi: real): (r: real)
    requires lo <= hi
    ensures lo <= r <= hi
    ensures lo <= x <= hi ==> r == x
    ensures x < lo ==> r == lo
    ensures x > hi ==> r == hi
  {
    if x < lo then lo else if x > hi then hi else x
  }

  /** The unfolded sidebar width: 28% of the window, kept within
      [180, 250] and rounded. */
  function SidebarWidth(width: int): (w: int)
    ensures SidebarMinWidth <= w <= SidebarMaxWidth
    ensures width as real * SidebarProportion <= SidebarMinWidth as real ==> w == SidebarMinWidth
    ensures width as real * SidebarProportion >= SidebarMaxWidth as real ==> w == SidebarMaxWidth
  {
    Round(Clamp(width as real * SidebarProportion, SidebarMinWidth as real, SidebarMaxWidth as real))
  }

  /** Within the clamp band the width is 28% of the window to the nearest
      pixel. */
  lemma {:induction false} SidebarWidthBand(width: int)
    requires SidebarMinWidth as real <= width as real * SidebarProportion <= SidebarMaxWidth as real
    ensures var w := SidebarWidth(width);
            w as real - 0.5 <= width as real * SidebarProportion < w as real + 0.5
  {
  }

  /** A wider window never gets a narrower sidebar. */
  lemma {:induction false} SidebarWidthMonotone(a: int, b: int)
    requires a <= b
    ensures SidebarWidth(a) <= SidebarWidth(b)
  {
    var lo, hi := SidebarMinWidth as real, SidebarMaxWidth as real;
    var x, y := a as real * SidebarProportion, b as real * SidebarProportion;
    assert x <= y;
    var cx, cy := Clamp(x, lo, hi), Clamp(y, lo, hi);
    assert cx <= cy;
    assert (cx + 0.5).Floor <= (cy + 0.5).Floor;
  }

  /** The folded overlay width: the window less the margin up to 250 wide,
      250 beyond. */
  function OverlayWidth(width: int): (w: int)
    ensures w <= SidebarMaxWidth
    ensures width <= SidebarMaxWidth ==> w == width - OverlayMargin
    ensures width > SidebarMaxWidth ==> w == SidebarMaxWidth
  {
    if width <= SidebarMaxWidth then width - OverlayMargin else SidebarMaxWidth
  }

  /** What the idle callback of `vfunc_size_allocate` sets. */
  datatype Allocation = Allocation(title: string, subtitle: string, sidebarWidth: int, revealFlap: bool)

  function Allocate(width: int, folded: bool, current: string, revealed: bool): (a: Allocation)
    ensures (a.title, a.subtitle) == Titles(width, current)
    ensures !folded ==> a.revealFlap && a.sidebarWidth == SidebarWidth(width)
    ensures folded ==> a.revealFlap == revealed && a.sidebarWidth == OverlayWidth(width)
  {
    var (t, s) := Titles(width, current);
    if !folded then Allocation(t, s, SidebarWidth(width), true)
    else Allocation(t, s, OverlayWidth(width), revealed)
  }

  // ---------------------------------------------------------------- populateShell

  /** A registration entry: a group heading, a page (with or without its
      `content` class), or an entry of another type. */
  datatype Item =
    | GroupItem(title: string)
    | PageItem(name: string, title: string, icon: string, hasContent: bool)
    | OtherItem

  /** A sidebar row: a heading is neither selectable nor activatable; a
      page row carries the page name. */
  datatype Row = GroupRow(title: string) | PageRow(name: string, title: string, icon: string)

  predicate Selectable(r: Row) { r.PageRow? }

  /** The row an item adds, if any. */
  function RowOf(item: Item): Option<Row>
  {
    match item
    case GroupItem(t) => Some(GroupRow(t))
    case PageItem(n, t, i, _) => Some(PageRow(n, t, i))
    case OtherItem => None
  }

  /** The sidebar rows in registration order. A page whose content class
      is missing still gets its row: the row is added before the throw. */
  function Rows(items: seq<Item>): (rows: seq<Row>)
    ensures |rows| <= |items|
    ensures forall k :: 0 <= k < |items| && RowOf(items[k]).Some? ==> RowOf(items[k]).value in rows
    ensures forall r :: r in rows ==> exists k :: 0 <= k < |items| && RowOf(items[k]) == Some(r)
  {
    if |items| == 0 then []
    else
      var rest := Rows(items[1..]);
      assert forall k :: 1 <= k < |items| ==> items[k] == items[1..][k - 1];
      match RowOf(items[0])
      case Some(r) => [r] + rest
      case None => rest
  }

  /** The view-stack children: the pages that have a content class, in
      order. */
  function StackNames(items: seq<Item>): (names: seq<string>)
    ensures forall k :: 0 <= k < |items| && items[k].PageItem? && items[k].hasContent ==> items[k].name in names
    ensures forall n :: n in names ==> exists k :: 0 <= k < |items| && items[k].PageItem? && items[k].hasContent && items[k].name == n
  {
    if |items| == 0 then []
    else
      var rest := StackNames(items[1..]);
      assert forall k :: 1 <= k < |items| ==> items[k] == items[1..][k - 1];
      if items[0].PageItem? && items[0].hasContent then [items[0].name] + rest else rest
  }

  /** `registration.find(p => p.type === 'page')`. */
  function FirstPage(items: seq<Item>): (p: Option<nat>)
    ensures p.Some? ==> p.value < |items| && items[p.value].PageItem?
    ensures p.Some? ==> forall k :: 0 <= k < p.value ==> !items[k].PageItem?
    ensures p.None? ==> forall k :: 0 <= k < |items| ==> !items[k].PageItem?
  {
    if |items| == 0 then None
    else if items[0].PageItem? then Some(0)
    else
      var p := FirstPage(items[1..]);
      assert forall k :: 1 <= k < |items| ==> items[k] == items[1..][k - 1];
      if p.Some? then Some(p.value + 1) else None
  }

  /** `rowMap.get(name)`: the map is written once per page row, so a name
      used twice finds the last row with it. */
  function LastRowNamed(rows: seq<Row>, name: string): (i: Option<nat>)
    ensures i.Some? ==> i.value < |rows| && rows[i.value].PageRow? && rows[i.value].name == name
    ensures i.Some? ==> forall k :: i.value < k < |rows| ==> !(rows[k].PageRow? && rows[k].name == name)
    ensures i.None? ==> forall k :: 0 <= k < |rows| ==> !(rows[k].PageRow? && rows[k].name == name)
    decreases |rows|
  {
    if |rows| == 0 then None
    else
      var n := |rows| - 1;
      if rows[n].PageRow? && rows[n].name == name then Some(n)
      else
        var i := LastRowNamed(rows[..n], name);
        assert forall k :: 0 <= k < n ==> rows[k] == rows[..n][k];
        i
  }

  /** The built shell: rows, stack children, the stack child shown, and
      the first page selected and used as subtitle. */
  datatype Shell = Shell(rows: seq<Row>, stack: seq<string>, visible: Option<string>, selected: Option<nat>, subtitle: string)

  /** The view stack shows its first child until told otherwise, and
      `set_visible_child_name` with a name it has no child for only warns. */
  function ShownChild(stack: seq<string>, requested: string): (v: Option<string>)
    ensures v.Some? ==> v.value in stack
    ensures requested in stack ==> v == Some(requested)
    ensures requested !in stack && |stack| > 0 ==> v == Some(stack[0])
    ensures |stack| == 0 ==> v.None?
  {
    if requested in stack then Some(requested)
    else if |stack| == 0 then None
    else Some(stack[0])
  }

  function Populate(items: seq<Item>): (s: Shell)
    ensures s.rows == Rows(items) && s.stack == StackNames(items)
    ensures s.visible.Some? ==> s.visible.value in s.stack
    ensures FirstPage(items).None? ==> s.visible.None? && s.selected.None? && s.subtitle == ""
    ensures FirstPage(items).Some? ==>
              var p := items[FirstPage(items).value];
              && (p.name in s.stack ==> s.visible == Some(p.name))
              && (p.name !in s.stack ==> s.visible == (if |s.stack| == 0 then None else Some(s.stack[0])))
              && s.subtitle == p.title && s.selected.Some?
              && s.selected.value < |s.rows| && s.rows[s.selected.value].PageRow? && s.rows[s.selected.value].name == p.name
              && forall k :: s.selected.value < k < |s.rows| ==> !(s.rows[k].PageRow? && s.rows[k].name == p.name)
  {
    var rows := Rows(items);
    var stack := StackNames(items);
    match FirstPage(items)
    case None =>
      NoPagesNoStack(items);
      Shell(rows, stack, None, None, "")
    case Some(i) =>
      var p := items[i];
      assert RowOf(p).value in rows;
      Shell(rows, stack, ShownChild(stack, p.name), LastRowNamed(rows, p.name), p.title)
  }

  /** Without page entries there are no stack children. */
  lemma {:induction false} NoPagesNoStack(items: seq<Item>)
    requires forall k :: 0 <= k < |items| ==> !items[k].PageItem?
    ensures StackNames(items) == []
  {
    if |items| > 0 {
      assert forall k :: 0 <= k < |items[1..]| ==> items[1..][k] == items[k + 1];
      NoPagesNoStack(items[1..]);
    }
  }

  /** A first page without content leaves the stack on its first child: the
      first page that has content. */
  lemma {:induction false} BrokenFirstPageShowsNext()
    ensures var items := [PageItem("broken", "Broken", "icon", false), PageItem("home", "Home", "icon", true)];
            Populate(items).visible == Some("home") && Populate(items).subtitle == "Broken"
  {
    var items := [PageItem("broken", "Broken", "icon", false), PageItem("home", "Home", "icon", true)];
    assert items[1..][1..] == [];
    assert StackNames(items[1..]) == ["home"];
    assert StackNames(items) == ["home"];
  }

  /** A page without a content class gets a sidebar row but no stack
      child, unless another page of the same name supplies one. */
  lemma {:induction false} MissingContentRowOnly(items: seq<Item>, k: nat)
    requires k < |items| && items[k].PageItem? && !items[k].hasContent
    requires forall j :: 0 <= j < |items| && items[j].PageItem? && items[j].name == items[k].name ==> !items[j].hasContent
    ensures PageRow(items[k].name, items[k].title, items[k].icon) in Rows(items)
    ensures items[k].name !in StackNames(items)
  {
    assert RowOf(items[k]) == Some(PageRow(items[k].name, items[k].title, items[k].icon));
  }

  /** Row-building is item by item: two registrations in a row give their
      rows in a row. */
  lemma {:induction false} RowsAppend(a: seq<Item>, b: seq<Item>)
    ensures Rows(a + b) == Rows(a) + Rows(b)
  {
    if |a| > 0 {
      var ab := a + b;
      assert ab[0] == a[0] && ab[1..] == a[1..] + b;
      RowsAppend(a[1..], b);
      match RowOf(a[0])
      case Some(r) => assert Rows(ab) == [r] + Rows(a[1..] + b);
      case None => assert Rows(ab) == Rows(a[1..] + b);
    } else {
      assert a + b == b;
    }
  }

  /** Headings never become selectable: a row is selectable exactly when it
      came from a page entry. */
  lemma {:induction false} OnlyPagesSelectable(items: seq<Item>, r: Row)
    requires r in Rows(items)
    ensures Selectable(r) <==> exists k :: 0 <= k < |items| && items[k].PageItem? && RowOf(items[k]) == Some(r)
  {
  }
}

=== FILE: show_apps.dfy ===
/** The panel's "show applications" button (`ShowAppsButton` in
    app/panel/showapps.js): where `_sync` inserts it among the left panel
    box's children relative to the Activities button, when Activities is
    shown, and what a click does. */
module ShowApps {
  import opened Lists

  /** Children of the left panel box. The shell adds each status-area
      indicator to a box through its `container`, so `Activities` stands for
      the Activities button's container. */
  datatype Item = AppsButton | Activities | Other(id: nat)

  /** The part of the shell the button touches: the left box's children, the
      existence of the button, and whether Activities is shown. */
  datatype PanelState = PanelState(children: seq<Item>, buttonExists: bool, activitiesShown: bool)

  /** Values of the `showapps-position` enum. */
  const REPLACE: int := 0
  const AFTER: int := 1
  const BEFORE: int := 2

  /** Activities' index among the children once the button is out of the
      box, looked up through its container as the clock's `_move` does; 0
      when there is no Activities button or it is not in the box. */
  function ActIndex(kids: seq<Item>, hasActivities: bool): (i: nat)
    ensures i <= |kids|
    ensures hasActivities && Activities in kids ==> i < |kids| && kids[i] == Activities && Activities !in kids[..i]
    ensures !hasActivities || Activities !in kids ==> i == 0
  {
    if !hasActivities then 0
    else
      var k := IndexOf(kids, Activities);
      if k < 0 then 0 else k
  }

  /** The index the button is inserted at for a known position: Activities'
      index for "replace" and "before", the one after it for "after". */
  function Slot(act: nat, position: int): nat
  {
    if position == AFTER then act + 1 else act
  }

  /** `_sync`. `hasActivities` says whether the shell has an Activities
      button at all. */
  function Sync(s: PanelState, enabled: bool, position: int, hasActivities: bool): (r: PanelState)
    // Disabled: the button is destroyed and Activities shown again.
    ensures !enabled ==> !r.buttonExists && AppsButton !in r.children
    ensures !enabled && hasActivities ==> r.activitiesShown
    // Enabled: the button exists and, for a known position, occurs exactly once.
    ensures enabled ==> r.buttonExists
    ensures enabled && 0 <= position <= 2 ==> Count(r.children, AppsButton) == 1
    ensures enabled && hasActivities && position == REPLACE ==> !r.activitiesShown
    ensures enabled && hasActivities && (position == AFTER || position == BEFORE) ==> r.activitiesShown
    ensures !hasActivities || (enabled && !(0 <= position <= 2)) ==> r.activitiesShown == s.activitiesShown
  {
    var kids := Without(s.children, AppsButton);
    if !enabled then
      PanelState(kids, false, if hasActivities then true else s.activitiesShown)
    else if 0 <= position <= 2 then
      var at := Slot(ActIndex(kids, hasActivities), position);
      CountInsert(kids, at, AppsButton);
      PanelState(InsertAt(kids, at, AppsButton), true, if hasActivities then position != REPLACE else s.activitiesShown)
    else PanelState(kids, true, s.activitiesShown)
  }

  /** Where the button lands relative to Activities, when Activities is in
      the box: in its place for "replace" and "before" (pushing Activities one
      to the right), just after it for "after". */
  lemma {:induction false} SyncPlacement(s: PanelState, enabled: bool, position: int)
    requires enabled && Activities in s.children
    ensures var kids := Without(s.children, AppsButton);
            var i := IndexOf(kids, Activities);
            var c := Sync(s, enabled, position, true).children;
            && (position == REPLACE || position == BEFORE ==> c[i] == AppsButton && c[i + 1] == Activities)
            && (position == AFTER ==> c[i] == Activities && c[i + 1] == AppsButton)
  {
    var kids := Without(s.children, AppsButton);
    var i := IndexOf(kids, Activities);
    assert ActIndex(kids, true) == i;
    if 0 <= position <= 2 {
      var at := Slot(i, position);
      var c := InsertAt(kids, at, AppsButton);
      assert Sync(s, enabled, position, true).children == c;
      if position == AFTER {
        assert c[..at][i] == kids[..at][i];
      } else {
        assert c[at + 1..][0] == kids[at..][0];
      }
    }
  }

  /** Without Activities in the box, "replace" and "before" put the button
      first. */
  lemma {:induction false} SyncWithoutActivities(s: PanelState, position: int, hasActivities: bool)
    requires !hasActivities || Activities !in s.children
    requires position == REPLACE || position == BEFORE
    ensures Sync(s, true, position, hasActivities).children[0] == AppsButton
  {
  }

  /** `_sync` moves only the button: with it removed, the box holds the same
      children in the same order. */
  lemma {:induction false} SyncKeepsOthers(s: PanelState, enabled: bool, position: int, hasActivities: bool)
    ensures Without(Sync(s, enabled, position, hasActivities).children, AppsButton)
         == Without(s.children, AppsButton)
  {
    var kids := Without(s.children, AppsButton);
    if enabled && 0 <= position <= 2 {
      WithoutInsert(kids, Slot(ActIndex(kids, hasActivities), position), AppsButton);
    }
  }

  /** Re-running `_sync` with unchanged settings gives the same state: it
      always takes the button out before putting it back. */
  lemma {:induction false} SyncIdempotent(s: PanelState, enabled: bool, position: int, hasActivities: bool)
    ensures var r := Sync(s, enabled, position, hasActivities);
            Sync(r, enabled, position, hasActivities) == r
  {
    SyncKeepsOthers(s, enabled, position, hasActivities);
  }

  /** `_sync` as written: `indexOf(this._activitiesButton)` looks for the
      button itself among the box's children, which are containers, so it
      never finds it and the anchor index is always 0. Showing and hiding
      Activities is unaffected. */
  function SyncAsWritten(s: PanelState, enabled: bool, position: int, hasActivities: bool): (r: PanelState)
    ensures r.children == Sync(s, enabled, position, false).children
    ensures r.buttonExists == Sync(s, enabled, position, hasActivities).buttonExists
    ensures r.activitiesShown == Sync(s, enabled, position, hasActivities).activitiesShown
  {
    Sync(s, enabled, position, false).(activitiesShown := Sync(s, enabled, position, hasActivities).activitiesShown)
  }

  /** With another indicator ahead of Activities, "after" as written puts
      the button before Activities; looked up through the container it
      lands just after it. */
  lemma {:induction false} SyncAsWrittenAfterLandsBefore()
    ensures var s := PanelState([Other(1), Activities], false, true);
            && SyncAsWritten(s, true, AFTER, true).children == [Other(1), AppsButton, Activities]
            && Sync(s, true, AFTER, true).children == [Other(1), Activities, AppsButton]
  {
    var kids: seq<Item> := [Other(1), Activities];
    assert kids[1..] == [Activities] && kids[1..][1..] == [];
    assert Without(kids, AppsButton) == kids;
    assert IndexOf(kids, Activities) == 1;
    assert InsertAt(kids, 1, AppsButton) == [Other(1), AppsButton, Activities];
    assert InsertAt(kids, 2, AppsButton) == [Other(1), Activities, AppsButton];
  }

  /** `disable`: Activities is shown and the button destroyed. */
  function Disable(s: PanelState, hasActivities: bool): (r: PanelState)
    ensures AppsButton !in r.children && !r.buttonExists
    ensures hasActivities ==> r.activitiesShown
  {
    PanelState(Without(s.children, AppsButton), false, if hasActivities then true else s.activitiesShown)
  }

  /** Disabling the feature and disabling the extension leave the panel in
      the same state. */
  lemma {:induction false} DisableMatchesSyncOff(s: PanelState, position: int, hasActivities: bool)
    ensures Disable(s, hasActivities) == Sync(s, false, position, hasActivities)
  {
  }

  /** What the button's press handler asks of the overview. */
  datatype ClickAction = Propagate | HideOverview | ShowAppGrid | ToggleOverview

  /** The press handler: without settings the event propagates; action 1
      closes the app grid when it is open and opens it otherwise; any other
      action toggles the overview. `appGridChecked` is false when the
      overview has no dash or the dash no show-apps button. */
  function OnPress(hasSettings: bool, action: int, overviewVisible: bool, appGridChecked: bool): (a: ClickAction)
    ensures a == Propagate <==> !hasSettings
    ensures a == HideOverview <==> hasSettings && action == 1 && overviewVisible && appGridChecked
    ensures a == ShowAppGrid <==> hasSettings && action == 1 && !(overviewVisible && appGridChecked)
    ensures a == ToggleOverview <==> hasSettings && action != 1
  {
    if !hasSettings then Propagate
    else if action == 1 then
      (if overviewVisible && appGridChecked then HideOverview else ShowAppGrid)
    else ToggleOverview
  }
}

=== FILE: style_compose.dfy ===
/** The preferences window's CSS provider (`StyleManager` in
    core/styleManager.js): the stylesheet text it loads, made of the
    readable `.css` files of the style directory followed by the snippet
    from the `custom-css` key. The directory listing and file reads are
    inputs. */
module StyleCompose {
  import opened Text

  /** The outcome of `GLib.file_get_contents` on one file: its text, a
      `false` status, or an exception. */
  datatype Read = Ok(contents: string) | NotOk | Throws

  /** A directory entry, in enumeration order: its name and what reading
      it would give. */
  datatype Entry = Entry(name: string, read: Read)

  predicate IsCss(e: Entry)
  {
    EndsWith(e.name, ".css")
  }

  /** An exception from a `.css` file stops the enumeration. */
  predicate Aborts(entries: seq<Entry>)
  {
    exists k :: 0 <= k < |entries| && IsCss(entries[k]) && entries[k].read == Throws
  }

  /** The file part: each readable `.css` file followed by a newline, up to
      the first read that throws (the `catch` keeps what was gathered). */
  function FileCss(entries: seq<Entry>): string
  {
    if |entries| == 0 then ""
    else
      var e := entries[0];
      if !IsCss(e) then FileCss(entries[1..])
      else match e.read
        case Ok(c) => c + "\n" + FileCss(entries[1..])
        case NotOk => FileCss(entries[1..])
        case Throws => ""
  }

  /** Files are gathered in enumeration order; once a read throws, nothing
      after it is. */
  lemma {:induction false} FileCssAppend(a: seq<Entry>, b: seq<Entry>)
    ensures FileCss(a + b) == FileCss(a) + (if Aborts(a) then "" else FileCss(b))
  {
    if |a| > 0 {
      var ab := a + b;
      var t := a[1..];
      assert ab[0] == a[0] && ab[1..] == t + b;
      FileCssAppend(t, b);
      assert Aborts(a) <==> (IsCss(a[0]) && a[0].read == Throws) || Aborts(t) by {
        if Aborts(t) {
          var k :| 0 <= k < |t| && IsCss(t[k]) && t[k].read == Throws;
          assert a[k + 1] == t[k];
        }
        if Aborts(a) && !(IsCss(a[0]) && a[0].read == Throws) {
          var k :| 0 <= k < |a| && IsCss(a[k]) && a[k].read == Throws;
          assert t[k - 1] == a[k];
        }
      }
    } else {
      assert a + b == b;
    }
  }

  /** One entry's contribution: its text and a newline exactly when it is a
      readable `.css` file. */
  lemma {:induction false} FileCssSingle(e: Entry)
    ensures FileCss([e]) == (if IsCss(e) && e.read.Ok? then e.read.contents + "\n" else "")
    ensures Aborts([e]) <==> IsCss(e) && e.read == Throws
  {
    assert [e][1..] == [];
    assert [e][0] == e;
  }

  /** A file whose name does not end in `.css` is never read, whatever
      reading it would give. */
  lemma {:induction false} NonCssIgnored(a: seq<Entry>, e: Entry, b: seq<Entry>)
    requires !IsCss(e)
    ensures FileCss(a + [e] + b) == FileCss(a + b)
  {
    FileCssSingle(e);
    FileCssAppend(a + [e], b);
    FileCssAppend(a, [e]);
    FileCssAppend(a, b);
    assert Aborts(a + [e]) <==> Aborts(a) by {
      var ae := a + [e];
      if Aborts(ae) {
        var k :| 0 <= k < |ae| && IsCss(ae[k]) && ae[k].read == Throws;
        assert k < |a| && a[k] == ae[k];
      }
      if Aborts(a) {
        var k :| 0 <= k < |a| && IsCss(a[k]) && a[k].read == Throws;
        assert ae[k] == a[k];
      }
    }
  }

  /** `_applyStyles`: the text handed to `load_from_string`. `dirExists` is
      `query_exists` on the style directory. */
  function Compose(customTheme: bool, customStyle: bool, dirExists: bool, entries: seq<Entry>, snippet: string): (r: string)
    ensures !customTheme ==> r == ""
    ensures customTheme ==> EndsWith(r, snippet)
    ensures customTheme && (!customStyle || !dirExists) ==> r == snippet
    ensures customTheme && customStyle && dirExists ==> r == FileCss(entries) + snippet
  {
    if !customTheme then ""
    else
      var fileCss := if customStyle && dirExists then FileCss(entries) else "";
      assert (fileCss + snippet)[|fileCss|..] == snippet;
      fileCss + snippet
  }

  /** With both switches on, the snippet comes last and the files before
      it: each readable `.css` file, newline-terminated, in listing order. */
  lemma {:induction false} ComposeFilesFirst(entries: seq<Entry>, e: Entry, snippet: string)
    requires IsCss(e) && e.read.Ok? && !Aborts(entries)
    ensures Compose(true, true, true, entries + [e], snippet)
            == FileCss(entries) + e.read.contents + "\n" + snippet
  {
    FileCssAppend(entries, [e]);
    FileCssSingle(e);
  }
}

=== FILE: styles.dfy ===
/** The shell-side stylesheet loader (`StyleManager` in
    app/components/styles.js): which bundled and custom stylesheets are
    loaded into the St theme, and the list of loaded files it keeps so it
    can unload exactly those. Which files exist is an input. */
module Styles {
  import opened Wrappers

  /** A stylesheet file: a bundled one by name or a custom one by URI. */
  datatype Sheet = Bundled(name: string) | Custom(uri: string)

  /** An entry of the `custom-styles` setting. */
  datatype CustomStyle = CustomStyle(uri: string, enabled: bool)

  /** The tracked files (`_stylesheetFiles`) and the theme's loaded
      stylesheets, ours and others'. */
  datatype State = State(tracked: seq<Sheet>, theme: set<Sheet>)

  /** The bundled files loaded: the enabled names whose file exists, in
      settings order. */
  function BundledPart(enabled: seq<string>, present: set<Sheet>): (r: seq<Sheet>)
    ensures forall x :: x in r <==> x.Bundled? && x.name in enabled && x in present
  {
    if |enabled| == 0 then []
    else
      (if Bundled(enabled[0]) in present then [Bundled(enabled[0])] else []) + BundledPart(enabled[1..], present)
  }

  /** The custom files loaded: the URIs switched on whose file exists, in
      settings order. */
  function CustomPart(custom: seq<CustomStyle>, present: set<Sheet>): (r: seq<Sheet>)
    ensures forall x :: x in r <==> x.Custom? && CustomStyle(x.uri, true) in custom && x in present
  {
    if |custom| == 0 then []
    else
      (if custom[0].enabled && Custom(custom[0].uri) in present then [Custom(custom[0].uri)] else [])
      + CustomPart(custom[1..], present)
  }

  /** Everything `_applyStyles` loads: bundled files first, then custom
      ones; a `custom-styles` value that does not unpack (`None`) loads no
      custom file. */
  function Wanted(enabled: seq<string>, custom: Option<seq<CustomStyle>>, present: set<Sheet>): seq<Sheet>
  {
    BundledPart(enabled, present) + CustomPart(custom.GetOr([]), present)
  }

  /** Bundled files come before every custom file. */
  lemma {:induction false} WantedOrder(enabled: seq<string>, custom: Option<seq<CustomStyle>>, present: set<Sheet>)
    ensures var w := Wanted(enabled, custom, present);
            forall i, j :: 0 <= i < j < |w| && w[i].Custom? ==> w[j].Custom?
  {
    var b := BundledPart(enabled, present);
    var c := CustomPart(custom.GetOr([]), present);
    var w := b + c;
    assert forall k :: 0 <= k < |b| ==> w[k] == b[k] && b[k] in b;
    forall i, j | 0 <= i < j < |w| && w[i].Custom? ensures w[j].Custom? {
      assert w[j] == c[j - |b|] && c[j - |b|] in c;
    }
  }

  /** Listing two runs of names loads the files of each, in order: a
      missing file is skipped and the others are unaffected. */
  lemma {:induction false} BundledAppend(a: seq<string>, b: seq<string>, present: set<Sheet>)
    ensures BundledPart(a + b, present) == BundledPart(a, present) + BundledPart(b, present)
  {
    if |a| > 0 {
      var ab := a + b;
      var head := if Bundled(a[0]) in present then [Bundled(a[0])] else [];
      assert ab[0] == a[0] && ab[1..] == a[1..] + b;
      assert BundledPart(ab, present) == head + BundledPart(a[1..] + b, present);
      assert BundledPart(a, present) == head + BundledPart(a[1..], present);
      BundledAppend(a[1..], b, present);
    } else {
      assert a + b == b;
    }
  }

  lemma {:induction false} CustomAppend(a: seq<CustomStyle>, b: seq<CustomStyle>, present: set<Sheet>)
    ensures CustomPart(a + b, present) == CustomPart(a, present) + CustomPart(b, present)
  {
    if |a| > 0 {
      var ab := a + b;
      var head := if a[0].enabled && Custom(a[0].uri) in present then [Custom(a[0].uri)] else [];
      assert ab[0] == a[0] && ab[1..] == a[1..] + b;
      assert CustomPart(ab, present) == head + CustomPart(a[1..] + b, present);
      assert CustomPart(a, present) == head + CustomPart(a[1..], present);
      CustomAppend(a[1..], b, present);
    } else {
      assert a + b == b;
    }
  }

  /** A switched-off custom style contributes nothing. */
  lemma {:induction false} DisabledCustomSkipped(a: seq<CustomStyle>, uri: string, b: seq<CustomStyle>, present: set<Sheet>)
    ensures CustomPart(a + [CustomStyle(uri, false)] + b, present) == CustomPart(a + b, present)
  {
    var off := [CustomStyle(uri, false)];
    assert CustomPart(off, present) == [] by {
      assert off[1..] == [];
    }
    CustomAppend(a + off, b, present);
    CustomAppend(a, off, present);
    CustomAppend(a, b, present);
  }

  /** `_removeStyles`: every tracked file is unloaded and the list emptied. */
  function RemoveStyles(s: State): (r: State)
    ensures r.tracked == []
    ensures forall x :: x in r.theme <==> x in s.theme && x !in s.tracked
  {
    State([], s.theme - set x | x in s.tracked)
  }

  /** `_applyStyles`: what was loaded before is unloaded, then the wanted
      files are loaded and tracked. */
  function ApplyStyles(s: State, enabled: seq<string>, custom: Option<seq<CustomStyle>>, present: set<Sheet>): (r: State)
    ensures r.tracked == Wanted(enabled, custom, present)
    ensures forall x :: x in r.theme <==> (x in s.theme && x !in s.tracked) || x in r.tracked
  {
    var cleared := RemoveStyles(s);
    var w := Wanted(enabled, custom, present);
    State(w, cleared.theme + set x | x in w)
  }

  /** Applying again with the same settings changes nothing: loads never
      accumulate. */
  lemma {:induction false} ApplyIdempotent(s: State, enabled: seq<string>, custom: Option<seq<CustomStyle>>, present: set<Sheet>)
    ensures var r := ApplyStyles(s, enabled, custom, present);
            ApplyStyles(r, enabled, custom, present) == r
  {
    var r := ApplyStyles(s, enabled, custom, present);
    var r2 := ApplyStyles(r, enabled, custom, present);
    assert r2.theme == r.theme;
  }

  /** `onDisable`: nothing stays tracked, and none of our files stays
      loaded. */
  function Disable(s: State): (r: State)
    ensures r.tracked == []
    ensures forall x :: x in s.tracked ==> x !in r.theme
    ensures forall x :: x !in s.tracked ==> (x in r.theme <==> x in s.theme)
  {
    RemoveStyles(s)
  }

  /** Enabling and then disabling leaves the theme as it was, when none of
      the loaded files was in it before. */
  lemma {:induction false} EnableDisableRestoresTheme(theme: set<Sheet>, enabled: seq<string>, custom: Option<seq<CustomStyle>>, present: set<Sheet>)
    requires forall x :: x in Wanted(enabled, custom, present) ==> x !in theme
    ensures Disable(ApplyStyles(State([], theme), enabled, custom, present)).theme == theme
  {
    var r := Disable(ApplyStyles(State([], theme), enabled, custom, present));
    assert forall x :: x in r.theme <==> x in theme;
  }
}

=== FILE: tabs.dfy ===
/** The Chrome-style tab strip demo (`MyWindow` in ui/window-cgpt.js):
    tabs added with numbered names, the toggle buttons' active flags, and
    the `_updateTabs` layout pass that shrinks tabs, hides the ones that do
    not fit behind an overflow menu with one `open_tab_i` action each, and
    marks narrow tabs compact. Widget measurements are inputs. */
module Tabs {
  import opened Wrappers
  import opened Text

  const MinTabWidth := 80
  const Spacing := 2
  const DefaultOverflowWidth := 30
  const CompactBelow := 90
  const HideBarBelow := 450

  // ---------------------------------------------------------------- tabs

  /** A tab: the counter value it was created with and whether its toggle
      button is checked. */
  datatype Tab = Tab(number: nat, active: bool)

  function PageName(k: nat): string { "page-" + NatToString(k) }

  function TabTitle(k: nat): string { "Tab " + NatToString(k) }

  /** The window: the tab counter, the tabs in bar order, the page shown,
      the window actions (name to the tab number they open) and the names
      recorded in `_currentActions`. */
  datatype Window = Window(counter: nat, tabs: seq<Tab>, visible: Option<nat>, actions: map<string, nat>, current: seq<string>)

  const Fresh := Window(0, [], None, map[], [])

  /** Tab numbers stay below the counter, so a new tab's number is unused. */
  predicate Numbered(w: Window)
  {
    forall i :: 0 <= i < |w.tabs| ==> 1 <= w.tabs[i].number <= w.counter
  }

  predicate ExactlyOneActive(tabs: seq<Tab>)
  {
    exists i :: 0 <= i < |tabs| && tabs[i].active && forall j :: 0 <= j < |tabs| && j != i ==> !tabs[j].active
  }

  /** `_addTab` as written: the new tab is checked and shown, and the
      buttons checked before stay checked. */
  function AddTabAsWritten(w: Window): (r: Window)
    ensures r.counter == w.counter + 1 && r.tabs == w.tabs + [Tab(w.counter + 1, true)]
    ensures r.visible == Some(w.counter + 1)
  {
    var k := w.counter + 1;
    w.(counter := k, tabs := w.tabs + [Tab(k, true)], visible := Some(k))
  }

  /** Two tabs added one after the other are both left checked. */
  lemma {:induction false} AddTabAsWrittenTwoActive()
    ensures var r := AddTabAsWritten(AddTabAsWritten(Fresh));
            |r.tabs| == 2 && r.tabs[0].active && r.tabs[1].active && !ExactlyOneActive(r.tabs)
  {
    var r := AddTabAsWritten(AddTabAsWritten(Fresh));
    assert r.tabs == [Tab(1, true), Tab(2, true)];
  }

  /** `_addTab` with the activation the click handler applies: only the new
      tab is checked. */
  function AddTab(w: Window): (r: Window)
    requires Numbered(w)
    ensures Numbered(r)
    ensures r.counter == w.counter + 1 && |r.tabs| == |w.tabs| + 1
    ensures r.tabs[|w.tabs|] == Tab(w.counter + 1, true) && r.visible == Some(w.counter + 1)
    ensures forall i :: 0 <= i < |w.tabs| ==> r.tabs[i] == w.tabs[i].(active := false)
    ensures ExactlyOneActive(r.tabs)
    ensures r.actions == w.actions && r.current == w.current
  {
    var k := w.counter + 1;
    var tabs := seq(|w.tabs|, i requires 0 <= i < |w.tabs| => w.tabs[i].(active := false)) + [Tab(k, true)];
    assert forall j :: 0 <= j < |tabs| && j != |w.tabs| ==> !tabs[j].active;
    w.(counter := k, tabs := tabs, visible := Some(k))
  }

  /** The k-th tab added to a fresh window is number k; so its page is
      `page-k` and its title `Tab k`. */
  function AddTabs(n: nat): (w: Window)
    ensures w.counter == n && |w.tabs| == n && Numbered(w)
    ensures forall i :: 0 <= i < n ==> w.tabs[i].number == i + 1
    ensures n > 0 ==> ExactlyOneActive(w.tabs) && w.tabs[n - 1].active && w.visible == Some(n)
  {
    if n == 0 then Fresh
    else
      var p := AddTabs(n - 1);
      var r := AddTab(p);
      assert forall i :: 0 <= i < n - 1 ==> r.tabs[i].number == p.tabs[i].number;
      r
  }

  /** Distinct tabs get distinct page names and titles. */
  lemma {:induction false} NamesDistinct(a: nat, b: nat)
    requires a != b
    ensures PageName(a) != PageName(b) && TabTitle(a) != TabTitle(b)
  {
    if PageName(a) == PageName(b) {
      CutPrefix("page-", NatToString(a), NatToString(b));
      NatToStringInjective(a, b);
    }
    if TabTitle(a) == TabTitle(b) {
      CutPrefix("Tab ", NatToString(a), NatToString(b));
      NatToStringInjective(a, b);
    }
  }

  /** A click on tab `i`: its page is shown and exactly its button is
      checked. */
  function Click(w: Window, i: nat): (r: Window)
    requires i < |w.tabs|
    ensures |r.tabs| == |w.tabs| && r.visible == Some(w.tabs[i].number)
    ensures forall j :: 0 <= j < |r.tabs| ==> r.tabs[j] == w.tabs[j].(active := j == i)
    ensures ExactlyOneActive(r.tabs)
  {
    var tabs := seq(|w.tabs|, j requires 0 <= j < |w.tabs| => w.tabs[j].(active := j == i));
    w.(tabs := tabs, visible := Some(w.tabs[i].number))
  }

  /** An `open_tab_i` action as written: its tab is shown and checked, the
      others keep their state. */
  function OpenActionAsWritten(w: Window, name: string): (r: Window)
    ensures name !in w.actions ==> r == w
    ensures name in w.actions ==> r.visible == Some(w.actions[name]) && |r.tabs| == |w.tabs|
    ensures forall j :: 0 <= j < |w.tabs| && w.tabs[j].number != Get(w.actions, name) ==> r.tabs[j] == w.tabs[j]
  {
    if name !in w.actions then w
    else
      var k := w.actions[name];
      var tabs := seq(|w.tabs|, j requires 0 <= j < |w.tabs| => if w.tabs[j].number == k then w.tabs[j].(active := true) else w.tabs[j]);
      w.(tabs := tabs, visible := Some(k))
  }

  function Get(m: map<string, nat>, name: string): int
  {
    if name in m then m[name] else -1
  }

  /** Opening a hidden tab from the menu leaves the tab that was checked
      checked as well. */
  lemma {:induction false} OpenActionAsWrittenTwoActive()
    ensures var w := Window(2, [Tab(1, true), Tab(2, false)], Some(1), map["open_tab_0" := 2], ["open_tab_0"]);
            var r := OpenActionAsWritten(w, "open_tab_0");
            r.tabs[0].active && r.tabs[1].active && !ExactlyOneActive(r.tabs)
  {
    var w := Window(2, [Tab(1, true), Tab(2, false)], Some(1), map["open_tab_0" := 2], ["open_tab_0"]);
    var r := OpenActionAsWritten(w, "open_tab_0");
    assert r.tabs == [Tab(1, true), Tab(2, true)];
  }

  /** An `open_tab_i` action with the click handler's activation: the tab
      it names becomes the only checked one. */
  function OpenAction(w: Window, name: string): (r: Window)
    ensures name !in w.actions ==> r == w
    ensures name in w.actions ==> r.visible == Some(w.actions[name]) && |r.tabs| == |w.tabs|
    ensures name in w.actions ==> forall j :: 0 <= j < |r.tabs| ==> r.tabs[j] == w.tabs[j].(active := w.tabs[j].number == w.actions[name])
  {
    if name !in w.actions then w
    else
      var k := w.actions[name];
      var tabs := seq(|w.tabs|, j requires 0 <= j < |w.tabs| => w.tabs[j].(active := w.tabs[j].number == k));
      w.(tabs := tabs, visible := Some(k))
  }

  /** Tab numbers are unique among the tabs. */
  predicate Distinct(tabs: seq<Tab>)
  {
    forall i, j :: 0 <= i < j < |tabs| ==> tabs[i].number != tabs[j].number
  }

  /** With unique numbers, an action for a present tab leaves exactly one
      tab checked. */
  lemma {:induction false} OpenActionExclusive(w: Window, name: string, i: nat)
    requires Distinct(w.tabs) && name in w.actions && i < |w.tabs| && w.tabs[i].number == w.actions[name]
    ensures ExactlyOneActive(OpenAction(w, name).tabs)
  {
    var r := OpenAction(w, name);
    assert r.tabs[i].active;
    forall j | 0 <= j < |r.tabs| && j != i ensures !r.tabs[j].active {
      assert w.tabs[j].number != w.tabs[i].number;
    }
  }

  /** Tabs added to a fresh window have unique numbers. */
  lemma {:induction false} AddTabsDistinct(n: nat)
    ensures Distinct(AddTabs(n).tabs)
  {
    var w := AddTabs(n);
    forall i, j | 0 <= i < j < |w.tabs| ensures w.tabs[i].number != w.tabs[j].number {
      assert w.tabs[i].number == i + 1 && w.tabs[j].number == j + 1;
    }
  }

  // ---------------------------------------------------------------- _updateTabs

  /** What the layout pass reads from the widgets: the tab bar's and the
      overflow button's allocated widths, each tab's natural width before
      and after the size request, and each tab's allocated width. */
  datatype Measures = Measures(tabBar: nat, overflow: nat, natural: seq<nat>, shrunk: seq<nat>, allocWidths: seq<nat>)

  predicate Fits(w: Window, m: Measures)
  {
    |m.natural| == |w.tabs| && |m.shrunk| == |w.tabs| && |m.allocWidths| == |w.tabs|
  }

  /** The width the tabs may use: the bar less the overflow button, which
      counts as 30 before it has been allocated. */
  function Available(m: Measures): int
  {
    m.tabBar - (if m.overflow == 0 then DefaultOverflowWidth else m.overflow)
  }

  /** Sum of the tab widths, each with its spacing. */
  function Total(ws: seq<nat>): (t: int)
    ensures t >= Spacing * |ws|
  {
    if |ws| == 0 then 0 else Total(ws[..|ws| - 1]) + ws[|ws| - 1] + Spacing
  }

  /** The shrink width: `max(80, floor((available - 2n) / n))`. */
  function ShrinkWidth(available: int, n: nat): (t: int)
    requires n > 0
    ensures t >= MinTabWidth
  {
    var share := (available - Spacing * n) / n;
    if share > MinTabWidth then share else MinTabWidth
  }

  /** Unless the minimum width wins, `n` shrunk tabs with their spacing fit
      the available width, and one more pixel each would not. */
  lemma {:induction false} ShrinkFits(available: int, n: nat)
    requires n > 0 && (available - Spacing * n) / n >= MinTabWidth
    ensures n * (ShrinkWidth(available, n) + Spacing) <= available
    ensures n * (ShrinkWidth(available, n) + 1 + Spacing) > available
  {
    var q := (available - Spacing * n) / n;
    var rem := (available - Spacing * n) % n;
    assert available - Spacing * n == n * q + rem;
    assert ShrinkWidth(available, n) == q;
    assert n * (q + Spacing) == n * q + Spacing * n;
    assert n * (q + 1 + Spacing) == n * q + n + Spacing * n;
  }

  /** The running-sum test, as the loop does it: a tab is hidden when the
      widths so far, spacing included, exceed the available width. */
  function HiddenFrom(ws: seq<nat>, acc: int, available: int): (h: seq<bool>)
    ensures |h| == |ws|
  {
    if |ws| == 0 then []
    else
      var acc2 := acc + ws[0] + Spacing;
      [acc2 > available] + HiddenFrom(ws[1..], acc2, available)
  }

  /** Tab `i` is hidden exactly when the first `i + 1` widths exceed the
      available width. */
  lemma {:induction false} HiddenFromSpec(ws: seq<nat>, acc: int, available: int, i: nat)
    requires i < |ws|
    ensures HiddenFrom(ws, acc, available)[i] == (acc + Total(ws[..i + 1]) > available)
  {
    var acc2 := acc + ws[0] + Spacing;
    if i == 0 {
      assert ws[..1][..0] == [];
      assert Total(ws[..1]) == ws[0] + Spacing;
    } else {
      HiddenFromSpec(ws[1..], acc2, available, i - 1);
      assert ws[1..][..i] == ws[1..i + 1];
      TotalCons(ws[..i + 1]);
      assert ws[..i + 1][1..] == ws[1..i + 1];
    }
  }

  /** The total splits off the first width. */
  lemma {:induction false} TotalCons(ws: seq<nat>)
    requires |ws| > 0
    ensures Total(ws) == ws[0] + Spacing + Total(ws[1..])
    decreases |ws|
  {
    if |ws| > 1 {
      var n := |ws| - 1;
      TotalCons(ws[..n]);
      assert ws[..n][1..] == ws[1..][..n - 1];
      assert ws[..n][0] == ws[0];
      assert ws[1..][n - 1] == ws[n];
    } else {
      assert ws[..0] == [] && ws[1..] == [];
    }
  }

  /** Once one tab overflows, so does every tab after it. */
  lemma {:induction false} HiddenSuffix(ws: seq<nat>, available: int, i: nat, j: nat)
    requires i <= j < |ws| && HiddenFrom(ws, 0, available)[i]
    ensures HiddenFrom(ws, 0, available)[j]
  {
    HiddenFromSpec(ws, 0, available, i);
    HiddenFromSpec(ws, 0, available, j);
    TotalPrefixMonotone(ws, i + 1, j + 1);
  }

  lemma {:induction false} TotalPrefixMonotone(ws: seq<nat>, a: nat, b: nat)
    requires a <= b <= |ws|
    ensures Total(ws[..a]) <= Total(ws[..b])
    decreases b - a
  {
    if a < b {
      TotalPrefixMonotone(ws, a, b - 1);
      assert ws[..b][..b - 1] == ws[..b - 1];
    }
  }

  /** The indices of the hidden tabs, in bar order. */
  function HiddenIndices(hidden: seq<bool>): (idx: seq<nat>)
    ensures forall j :: 0 <= j < |idx| ==> idx[j] < |hidden| && hidden[idx[j]]
    ensures forall i :: 0 <= i < |hidden| && hidden[i] ==> i in idx
    ensures forall a, b :: 0 <= a < b < |idx| ==> idx[a] < idx[b]
    decreases |hidden|
  {
    if |hidden| == 0 then []
    else
      var n := |hidden| - 1;
      var front := HiddenIndices(hidden[..n]);
      assert forall i :: 0 <= i < n ==> hidden[i] == hidden[..n][i];
      if hidden[n] then front + [n] else front
  }

  function ActionName(j: nat): string { "open_tab_" + NatToString(j) }

  lemma {:induction false} ActionNameInjective(a: nat, b: nat)
    requires ActionName(a) == ActionName(b)
    ensures a == b
  {
    CutPrefix("open_tab_", NatToString(a), NatToString(b));
    NatToStringInjective(a, b);
  }

  /** An overflow menu entry: the tab's title and the `win.` action. */
  datatype MenuItem = MenuItem(caption: string, action: string)

  /** The layout a pass leaves: the size request of every tab (when they
      were shrunk), the hidden flags, the menu, the compact flags and
      whether the tab bar shows. */
  datatype Layout = Layout(request: Option<int>, hidden: seq<bool>, menu: seq<MenuItem>, compact: seq<bool>, barVisible: bool)

  /** No earlier action shares the name of action `n`. */
  lemma {:induction false} ActionNameFresh(n: nat)
    ensures forall j :: 0 <= j < n ==> ActionName(j) != ActionName(n)
  {
    forall j | 0 <= j < n ensures ActionName(j) != ActionName(n) {
      if ActionName(j) == ActionName(n) {
        ActionNameInjective(j, n);
      }
    }
  }

  /** `m` holds exactly the actions `open_tab_j` for the positions of
      `numbers`, action `j` opening tab `numbers[j]`. */
  predicate ActionsFor(m: map<string, nat>, numbers: seq<nat>)
  {
    && (forall j :: 0 <= j < |numbers| ==> ActionName(j) in m && m[ActionName(j)] == numbers[j])
    && (forall a :: a in m ==> exists j :: 0 <= j < |numbers| && a == ActionName(j))
  }

  /** Adding the action of one more position keeps `ActionsFor`. */
  lemma {:induction false} ActionsForStep(m: map<string, nat>, numbers: seq<nat>)
    requires |numbers| > 0 && ActionsFor(m, numbers[..|numbers| - 1])
    ensures ActionsFor(m[ActionName(|numbers| - 1) := numbers[|numbers| - 1]], numbers)
  {
    var n := |numbers| - 1;
    var front := numbers[..n];
    var r := m[ActionName(n) := numbers[n]];
    ActionNameFresh(n);
    forall j | 0 <= j < |numbers| ensures ActionName(j) in r && r[ActionName(j)] == numbers[j] {
      if j < n {
        assert front[j] == numbers[j];
      }
    }
    forall a | a in r ensures exists j :: 0 <= j < |numbers| && a == ActionName(j) {
      if a != ActionName(n) {
        var j :| 0 <= j < |front| && a == ActionName(j);
      }
    }
  }

  /** The actions named `open_tab_0` … for the given tab numbers. */
  function ActionMap(numbers: seq<nat>): (m: map<string, nat>)
    ensures ActionsFor(m, numbers)
    decreases |numbers|
  {
    if |numbers| == 0 then map[]
    else
      var n := |numbers| - 1;
      var m := ActionMap(numbers[..n]);
      ActionsForStep(m, numbers);
      m[ActionName(n) := numbers[n]]
  }

  function ActionNames(n: nat): (names: seq<string>)
    ensures |names| == n && forall j :: 0 <= j < n ==> names[j] == ActionName(j)
  {
    seq(n, j requires 0 <= j < n => ActionName(j))
  }

  /** The numbers of the hidden tabs, in bar order. */
  function HiddenNumbers(tabs: seq<Tab>, hidden: seq<bool>): (numbers: seq<nat>)
    requires |hidden| == |tabs|
    ensures var idx := HiddenIndices(hidden);
            |numbers| == |idx| && forall j :: 0 <= j < |idx| ==> numbers[j] == tabs[idx[j]].number
  {
    var idx := HiddenIndices(hidden);
    seq(|idx|, j requires 0 <= j < |idx| => tabs[idx[j]].number)
  }

  /** The overflow menu: entry `j` shows hidden tab `j`'s title and fires
      `win.open_tab_j`. */
  function Menu(numbers: seq<nat>): (menu: seq<MenuItem>)
    ensures |menu| == |numbers|
    ensures forall j :: 0 <= j < |numbers| ==> menu[j] == MenuItem(TabTitle(numbers[j]), "win." + ActionName(j))
  {
    seq(|numbers|, j requires 0 <= j < |numbers| => MenuItem(TabTitle(numbers[j]), "win." + ActionName(j)))
  }

  /** The actions after a pass as intended: those named in
      `_currentActions` removed by name, then one per hidden tab added. */
  function ReplaceActions(actions: map<string, nat>, current: seq<string>, numbers: seq<nat>): (r: map<string, nat>)
    ensures forall j :: 0 <= j < |numbers| ==> ActionName(j) in r && r[ActionName(j)] == numbers[j]
    ensures forall a :: a in r && a !in actions ==> exists j :: 0 <= j < |numbers| && a == ActionName(j)
    ensures forall a :: a in current ==> (a in r <==> exists j :: 0 <= j < |numbers| && a == ActionName(j))
    ensures forall a :: a in actions && a !in current ==> a in r
  {
    var kept := map a | a in actions && a !in current :: actions[a];
    kept + ActionMap(numbers)
  }

  /** The compact flags: a tab is compact when its allocated width is
      positive and below 90. */
  function Compact(widths: seq<nat>): (c: seq<bool>)
    ensures |c| == |widths| && forall i :: 0 <= i < |widths| ==> (c[i] <==> 0 < widths[i] < CompactBelow)
  {
    seq(|widths|, i requires 0 <= i < |widths| => 0 < widths[i] < CompactBelow)
  }

  /** The shrink request: every tab is given the shrink width when the
      natural widths with spacing exceed the available width. */
  function Request(natural: seq<nat>, available: int): (r: Option<int>)
    requires available > 0
    ensures r.Some? <==> Total(natural) > available
    ensures r.Some? ==> |natural| > 0 && r.value == ShrinkWidth(available, |natural|)
  {
    if Total(natural) > available then Some(ShrinkWidth(available, |natural|)) else None
  }

  datatype Pass = Pass(window: Window, layout: Layout)

  /** `_updateTabs` as intended, with old actions removed by name: `None`
      when the pass returns early and nothing changes; otherwise the window
      with its actions replaced, and the layout. */
  function UpdateTabs(w: Window, windowWidth: int, m: Measures): (r: Option<Pass>)
    requires Fits(w, m)
    ensures m.tabBar == 0 || Available(m) <= 0 <==> r.None?
    ensures r.Some? ==>
              var hidden := HiddenFrom(m.shrunk, 0, Available(m));
              var numbers := HiddenNumbers(w.tabs, hidden);
              && r.value.layout.hidden == hidden
              && r.value.layout.request == Request(m.natural, Available(m))
              && r.value.layout.menu == Menu(numbers)
              && r.value.layout.compact == Compact(m.allocWidths)
              && (r.value.layout.barVisible <==> windowWidth >= HideBarBelow)
              && r.value.window == w.(actions := ReplaceActions(w.actions, w.current, numbers), current := ActionNames(|numbers|))
  {
    if m.tabBar == 0 then None
    else
      var available := Available(m);
      if available <= 0 then None
      else
        var hidden := HiddenFrom(m.shrunk, 0, available);
        var numbers := HiddenNumbers(w.tabs, hidden);
        Some(Pass(w.(actions := ReplaceActions(w.actions, w.current, numbers), current := ActionNames(|numbers|)),
                  Layout(Request(m.natural, available), hidden, Menu(numbers), Compact(m.allocWidths), windowWidth >= HideBarBelow)))
  }

  /** The menu and the actions match the hidden tabs one to one, in order:
      entry `j` and action `open_tab_j` both open the `j`-th hidden tab. */
  lemma {:induction false} UpdateMenuMatchesActions(w: Window, windowWidth: int, m: Measures, j: nat)
    requires Fits(w, m) && m.tabBar != 0 && Available(m) > 0
    ensures var p := UpdateTabs(w, windowWidth, m).value;
            var idx := HiddenIndices(p.layout.hidden);
            j < |idx| ==>
              && p.layout.menu[j] == MenuItem(TabTitle(w.tabs[idx[j]].number), "win." + ActionName(j))
              && p.window.actions[ActionName(j)] == w.tabs[idx[j]].number
              && p.window.current[j] == ActionName(j)
  {
  }

  /** The old `open_tab_` actions are gone: when every window action came
      from the previous pass, the actions are exactly the new ones, one per
      hidden tab. */
  lemma {:induction false} UpdateReplacesActions(w: Window, windowWidth: int, m: Measures, a: string)
    requires Fits(w, m) && forall b :: b in w.actions ==> b in w.current
    requires m.tabBar != 0 && Available(m) > 0
    ensures var p := UpdateTabs(w, windowWidth, m).value;
            a in p.window.actions <==> exists j :: 0 <= j < |p.layout.menu| && a == ActionName(j)
  {
  }

  // ---------------------------------------------------------------- _updateTabs as written

  /** Some name recorded in `_currentActions` is still a window action. */
  predicate StaleAction(w: Window)
  {
    exists a :: a in w.current && a in w.actions
  }

  /** `_updateTabs` as written. Line 225 hands `remove_action` the action
      object where `GActionMap.remove_action` takes the action's name, and
      GJS rejects that argument with a TypeError. So when a recorded name
      is still registered, the pass stops at the first one: the tabs are
      already shrunk and hidden and the menu replaced, but the old actions
      and `_currentActions` stay, and the compact flags and the bar keep
      the states `compact` and `barVisible` that an earlier pass left.
      Without such a name nothing is removed and the pass completes. */
  function UpdateTabsAsWritten(w: Window, windowWidth: int, m: Measures, compact: seq<bool>, barVisible: bool): (r: Option<Pass>)
    requires Fits(w, m)
    ensures r.None? <==> UpdateTabs(w, windowWidth, m).None?
    ensures !StaleAction(w) ==> r == UpdateTabs(w, windowWidth, m)
    ensures StaleAction(w) && r.Some? ==>
              var p := UpdateTabs(w, windowWidth, m).value;
              && r.value.window == w
              && r.value.layout.hidden == p.layout.hidden && r.value.layout.request == p.layout.request
              && r.value.layout.menu == p.layout.menu
              && r.value.layout.compact == compact && r.value.layout.barVisible == barVisible
  {
    var p := UpdateTabs(w, windowWidth, m);
    if p.None? || !StaleAction(w) then p
    else Some(Pass(w, p.value.layout.(compact := compact, barVisible := barVisible)))
  }

  /** Tabs 2 and 3 were hidden by the previous pass, so `open_tab_0` opens
      tab 2. In a wider bar only tab 3 overflows: the menu's one entry reads
      "Tab 3" and fires `open_tab_0`, which the pass as written leaves
      opening tab 2. */
  lemma {:induction false} UpdateTabsAsWrittenStaleMenu()
    ensures var w := Window(3, [Tab(1, true), Tab(2, false), Tab(3, false)], Some(1),
                            map[ActionName(0) := 2, ActionName(1) := 3], [ActionName(0), ActionName(1)]);
            var m := Measures(330, 30, [100, 100, 100], [100, 100, 100], [100, 100, 0]);
            var r := UpdateTabsAsWritten(w, 800, m, [false, false, false], true);
            && r.Some?
            && r.value.layout.menu == [MenuItem(TabTitle(3), "win." + ActionName(0))]
            && OpenActionAsWritten(r.value.window, ActionName(0)).visible == Some(2)
  {
    var w := Window(3, [Tab(1, true), Tab(2, false), Tab(3, false)], Some(1),
                    map[ActionName(0) := 2, ActionName(1) := 3], [ActionName(0), ActionName(1)]);
    var m := Measures(330, 30, [100, 100, 100], [100, 100, 100], [100, 100, 0]);
    ActionNameFresh(1);
    assert w.actions[ActionName(0)] == 2;
    assert StaleAction(w) by {
      assert ActionName(0) in w.current && ActionName(0) in w.actions;
    }
    var hidden := HiddenFrom(m.shrunk, 0, Available(m));
    assert Available(m) == 300;
    assert hidden == [false, false, true] by {
      var ws := m.shrunk;
      assert ws[1..] == [100, 100] && ws[1..][1..] == [100];
      assert HiddenFrom([100], 204, 300) == [true];
      assert HiddenFrom([100, 100], 102, 300) == [false, true];
    }
    assert HiddenIndices(hidden) == [2] by {
      var h2: seq<bool> := [false, false];
      assert h2[..1] == [false] && h2[..1][..0] == [];
      assert HiddenIndices([false]) == [];
      assert HiddenIndices(h2) == [];
      assert hidden[..2] == h2;
    }
    assert HiddenNumbers(w.tabs, hidden) == [3];
  }
}

=== FILE: text.dfy ===
/** String helpers with the semantics of the JavaScript string methods the
    extension relies on: the `\s` / `trim` whitespace set, ASCII case mapping,
    `startsWith`, `endsWith`, `includes`, `split` on one character, `join`, and
    the decimal rendering of integers used in template strings. */
module Text {
  import opened Wrappers

  /** The characters JavaScript's `\s` class and `String.prototype.trim` treat
      as white space (WhiteSpace and LineTerminator of ECMA-262). */
  predicate IsSpace(c: char)
  {
    var k := c as int;
    || k == 0x20 || (0x09 <= k <= 0x0D) || k == 0xA0 || k == 0x1680
    || (0x2000 <= k <= 0x200A) || k == 0x2028 || k == 0x2029 || k == 0x202F
    || k == 0x205F || k == 0x3000 || k == 0xFEFF
  }

  predicate IsDigit(c: char) { '0' <= c <= '9' }

  function ToLowerChar(c: char): char
  {
    if 'A' <= c <= 'Z' then (c as int + 32) as char else c
  }

  function ToUpperChar(c: char): char
  {
    if 'a' <= c <= 'z' then (c as int - 32) as char else c
  }

  /** `toLowerCase`, on ASCII letters. */
  function Lower(s: string): (r: string)
    ensures |r| == |s|
    ensures forall i :: 0 <= i < |s| ==> r[i] == ToLowerChar(s[i])
  {
    seq(|s|, i requires 0 <= i < |s| => ToLowerChar(s[i]))
  }

  predicate StartsWith(s: string, prefix: string)
  {
    |prefix| <= |s| && s[..|prefix|] == prefix
  }

  predicate EndsWith(s: string, suffix: string)
  {
    |suffix| <= |s| && s[|s| - |suffix|..] == suffix
  }

  /** `sub` occurs in `s` starting at index `i`. Compared character by
      character (rather than as a slice) so that searches stay cheap to
      reason about; `OccursAtIff` restates it pointwise. */
  predicate OccursAt(s: string, sub: string, i: int)
  {
    0 <= i && i + |sub| <= |s| && MatchesFrom(s, sub, i, 0)
  }

  /** The characters of `sub` from index `k` on agree with `s` from `i + k`. */
  predicate MatchesFrom(s: string, sub: string, i: nat, k: nat)
    requires i + |sub| <= |s|
    decreases |sub| - k
  {
    k >= |sub| || (s[i + k] == sub[k] && MatchesFrom(s, sub, i, k + 1))
  }

  lemma {:induction false} MatchesFromIff(s: string, sub: string, i: nat, k: nat)
    requires i + |sub| <= |s|
    ensures MatchesFrom(s, sub, i, k) <==> forall t :: k <= t < |sub| ==> s[i + t] == sub[t]
    decreases |sub| - k
  {
    if k < |sub| {
      MatchesFromIff(s, sub, i, k + 1);
    }
  }

  /** `OccursAt`, pointwise. */
  lemma {:induction false} OccursAtIff(s: string, sub: string, i: int)
    ensures OccursAt(s, sub, i) <==>
              0 <= i && i + |sub| <= |s| && forall t :: 0 <= t < |sub| ==> s[i + t] == sub[t]
  {
    if 0 <= i && i + |sub| <= |s| {
      MatchesFromIff(s, sub, i, 0);
    }
  }

  /** A prefix occurs at index 0. */
  lemma {:induction false} StartsWithOccurs(s: string, sub: string)
    requires StartsWith(s, sub)
    ensures OccursAt(s, sub, 0)
  {
    OccursAtIff(s, sub, 0);
    forall t | 0 <= t < |sub|
      ensures s[t] == sub[t]
    {
      assert s[..|sub|][t] == s[t];
    }
  }

  /** `s.includes(sub)`: `sub` occurs at some position of `s`. */
  predicate Contains(s: string, sub: string)
  {
    exists i | 0 <= i <= |s| - |sub| :: OccursAt(s, sub, i)
  }

  /** `s.indexOf(sub, from)`: the first position at or after `from` where
      `sub` occurs. The contract only bounds the position, which keeps the
      occurrence itself out of every proof that merely calls the search;
      `FindFromSpec` states what the search finds. */
  function FindFrom(s: string, sub: string, from: nat): (r: Option<nat>)
    requires from <= |s|
    ensures r.Some? ==> from <= r.value && r.value + |sub| <= |s|
    decreases |s| - from
  {
    if OccursAt(s, sub, from) then Some(from)
    else if from == |s| then None
    else FindFrom(s, sub, from + 1)
  }

  /** The search reports an occurrence and misses no earlier one, and reports
      none only when there is none at or after `from`. */
  lemma {:induction false} FindFromSpec(s: string, sub: string, from: nat)
    requires from <= |s|
    ensures FindFrom(s, sub, from).Some? ==> OccursAt(s, sub, FindFrom(s, sub, from).value)
    ensures FindFrom(s, sub, from).Some? ==>
              forall k :: from <= k < FindFrom(s, sub, from).value ==> !OccursAt(s, sub, k)
    ensures FindFrom(s, sub, from).None? ==> forall k :: from <= k ==> !OccursAt(s, sub, k)
    decreases |s| - from
  {
    if !OccursAt(s, sub, from) && from < |s| {
      FindFromSpec(s, sub, from + 1);
    }
  }

  /** The search finds `p` when `sub` occurs there and nowhere between `from`
      and `p`. */
  lemma {:induction false} FindFromIs(s: string, sub: string, from: nat, p: nat)
    requires from <= p && from <= |s|
    requires OccursAt(s, sub, p)
    requires forall k :: from <= k < p ==> !OccursAt(s, sub, k)
    ensures FindFrom(s, sub, from) == Some(p)
    decreases p - from
  {
    if from < p {
      FindFromIs(s, sub, from + 1, p);
    }
  }

  /** Occurrences in `p + x` past `p` are the occurrences in `x`, shifted. */
  lemma {:induction false} OccursShift(p: string, x: string, sub: string, m: nat)
    ensures OccursAt(p + x, sub, |p| + m) == OccursAt(x, sub, m)
  {
    OccursAtIff(p + x, sub, |p| + m);
    OccursAtIff(x, sub, m);
    if m + |sub| <= |x| {
      forall t | 0 <= t < |sub|
        ensures (p + x)[|p| + m + t] == sub[t] <==> x[m + t] == sub[t]
      {
        assert (p + x)[|p| + m + t] == x[m + t];
      }
    }
  }

  /** Searching `p + x` from `|p| + k` finds what searching `x` from `k`
      finds, shifted by `|p|`. */
  lemma {:induction false} FindFromShift(p: string, x: string, sub: string, k: nat)
    requires k <= |x|
    ensures FindFrom(x, sub, k).None? ==> FindFrom(p + x, sub, |p| + k).None?
    ensures FindFrom(x, sub, k).Some? ==> FindFrom(p + x, sub, |p| + k) == Some(|p| + FindFrom(x, sub, k).value)
    decreases |x| - k
  {
    OccursShift(p, x, sub, k);
    if !OccursAt(x, sub, k) && k < |x| {
      FindFromShift(p, x, sub, k + 1);
    }
  }

  /** An occurrence lying wholly inside `a` would be an occurrence in `a`. */
  lemma {:induction false} NoOccurrenceInside(a: string, b: string, sub: string, k: nat)
    requires !Contains(a, sub) && k + |sub| <= |a|
    ensures !OccursAt(a + b, sub, k)
  {
    assert !OccursAt(a, sub, k);
    OccursAtIff(a, sub, k);
    OccursAtIff(a + b, sub, k);
    var t :| 0 <= t < |sub| && a[k + t] != sub[t];
    assert (a + b)[k + t] == a[k + t];
  }

  /** An occurrence cannot straddle a line break when `sub` has none. */
  lemma {:induction false} NoOccurrenceAcross(a: string, b: string, sub: string, k: nat)
    requires |a| > 0 && a[|a| - 1] == '\n' && '\n' !in sub
    requires k < |a| < k + |sub|
    ensures !OccursAt(a + b, sub, k)
  {
    OccursAtIff(a + b, sub, k);
    var t := |a| - 1 - k;
    assert sub[t] != '\n';
    assert (a + b)[k + t] == '\n';
  }

  /** A text lacking one of the characters of `sub` does not contain it. */
  lemma {:induction false} MissingCharNoContains(s: string, sub: string, c: char)
    requires c in sub && c !in s
    ensures !Contains(s, sub)
  {
    var j :| 0 <= j < |sub| && sub[j] == c;
    forall i | 0 <= i <= |s| - |sub|
      ensures !OccursAt(s, sub, i)
    {
      OccursAtIff(s, sub, i);
      assert s[i + j] != sub[j];
    }
  }

  /** Drops leading white space (`trimStart`). */
  function TrimStart(s: string): (r: string)
    ensures |r| <= |s|
    ensures |r| > 0 ==> !IsSpace(r[0])
    decreases |s|
  {
    if |s| > 0 && IsSpace(s[0]) then TrimStart(s[1..]) else s
  }

  /** What `TrimStart` drops is a prefix of white space. */
  lemma {:induction false} TrimStartSpec(s: string)
    ensures var r := TrimStart(s);
            && r == s[|s| - |r|..]
            && forall i :: 0 <= i < |s| - |r| ==> IsSpace(s[i])
    decreases |s|
  {
    if |s| > 0 && IsSpace(s[0]) {
      TrimStartSpec(s[1..]);
      var r := TrimStart(s);
      assert s[1..][|s| - 1 - |r|..] == s[|s| - |r|..];
      forall i | 0 < i < |s| - |r|
        ensures IsSpace(s[i])
      {
        assert s[i] == s[1..][i - 1];
      }
    }
  }

  /** Drops trailing white space (`trimEnd`). */
  function TrimEnd(s: string): (r: string)
    ensures |r| <= |s|
    ensures |r| > 0 ==> !IsSpace(r[|r| - 1])
    decreases |s|
  {
    if |s| > 0 && IsSpace(s[|s| - 1]) then TrimEnd(s[..|s| - 1]) else s
  }

  /** What `TrimEnd` drops is a suffix of white space. */
  lemma {:induction false} TrimEndSpec(s: string)
    ensures var r := TrimEnd(s);
            && r == s[..|r|]
            && forall i :: |r| <= i < |s| ==> IsSpace(s[i])
    decreases |s|
  {
    if |s| > 0 && IsSpace(s[|s| - 1]) {
      var t := s[..|s| - 1];
      TrimEndSpec(t);
      var r := TrimEnd(s);
      assert t[..|r|] == s[..|r|];
      forall i | |r| <= i < |s| - 1
        ensures IsSpace(s[i])
      {
        assert s[i] == t[i];
      }
    }
  }

  /** `trim`: white space removed at both ends. */
  function Trim(s: string): (r: string)
    ensures |r| <= |s|
    ensures |r| > 0 ==> !IsSpace(r[0]) && !IsSpace(r[|r| - 1])
  {
    var a := TrimStart(s);
    TrimEndSpec(a);
    var r := TrimEnd(a);
    assert |r| > 0 ==> r[0] == a[0];
    r
  }

  /** Every character is white space. */
  predicate Blank(s: string)
  {
    forall i :: 0 <= i < |s| ==> IsSpace(s[i])
  }

  lemma {:induction false} BlankConcat(a: string, b: string)
    ensures Blank(a + b) <==> Blank(a) && Blank(b)
  {
    if Blank(a) && Blank(b) {
      forall i | 0 <= i < |a + b| ensures IsSpace((a + b)[i]) {
        if i >= |a| {
          assert (a + b)[i] == b[i - |a|];
        }
      }
    }
    if Blank(a + b) {
      forall i | 0 <= i < |a| ensures IsSpace(a[i]) {
        assert (a + b)[i] == a[i];
      }
      forall i | 0 <= i < |b| ensures IsSpace(b[i]) {
        assert (a + b)[|a| + i] == b[i];
      }
    }
  }

  /** `!s.trim()`: trimming leaves nothing exactly when the text is blank. */
  lemma {:induction false} TrimEmptyIffBlank(s: string)
    ensures Trim(s) == "" <==> Blank(s)
  {
    var a := TrimStart(s);
    TrimStartSpec(s);
    TrimEndSpec(a);
    if a != "" {
      assert s[|s| - |a|] == a[0];
    }
  }

  /** Trimming a text without white space at its ends changes nothing. */
  lemma {:induction false} TrimClean(s: string)
    requires |s| > 0 ==> !IsSpace(s[0]) && !IsSpace(s[|s| - 1])
    ensures Trim(s) == s
  {
  }

  /** `s.split(c)` for a one-character separator: the maximal pieces between
      occurrences of `c`, always at least one (possibly empty) piece. */
  function Split(s: string, c: char): (parts: seq<string>)
    ensures |parts| >= 1
    ensures forall k :: 0 <= k < |parts| ==> c !in parts[k]
  {
    if c !in s then [s]
    else
      var i := IndexOfChar(s, c);
      [s[..i]] + Split(s[i + 1..], c)
  }

  /** Index of the first occurrence of `c` in `s`. */
  function IndexOfChar(s: string, c: char): (i: nat)
    requires c in s
    ensures i < |s| && s[i] == c && c !in s[..i]
  {
    if s[0] == c then 0 else 1 + IndexOfChar(s[1..], c)
  }

  /** `parts.join(sep)`. */
  function Join(parts: seq<string>, sep: string): (r: string)
    ensures |parts| == 1 ==> r == parts[0]
  {
    if |parts| == 0 then ""
    else if |parts| == 1 then parts[0]
    else parts[0] + sep + Join(parts[1..], sep)
  }

  /** A character in neither the pieces nor the separator is not in the
      joined text. */
  lemma {:induction false} JoinNoChar(parts: seq<string>, sep: string, c: char)
    requires c !in sep && forall k :: 0 <= k < |parts| ==> c !in parts[k]
    ensures c !in Join(parts, sep)
  {
    if |parts| > 1 {
      JoinNoChar(parts[1..], sep, c);
    }
  }

  /** A join of non-empty pieces starts with the first piece's first character
      and ends with the last piece's last character. */
  lemma {:induction false} JoinEnds(parts: seq<string>, sep: string)
    requires |parts| > 0 && forall k :: 0 <= k < |parts| ==> parts[k] != ""
    ensures var r := Join(parts, sep);
            && |r| > 0
            && r[0] == parts[0][0]
            && r[|r| - 1] == parts[|parts| - 1][|parts[|parts| - 1]| - 1]
  {
    if |parts| > 1 {
      JoinEnds(parts[1..], sep);
      var t := Join(parts[1..], sep);
      assert Join(parts, sep) == parts[0] + sep + t;
    }
  }

  /** Joining the pieces of a split with the separator gives the text back. */
  lemma {:induction false} JoinSplit(s: string, c: char)
    ensures Join(Split(s, c), [c]) == s
  {
    if c in s {
      var i := IndexOfChar(s, c);
      var rest := s[i + 1..];
      JoinSplit(rest, c);
      assert Split(s, c) == [s[..i]] + Split(rest, c);
      assert s == s[..i] + [c] + rest;
    }
  }

  /** The first piece of a split is the text before the first separator. */
  lemma {:induction false} SplitHead(s: string, c: char)
    ensures c in s ==> Split(s, c)[0] == s[..IndexOfChar(s, c)]
    ensures c !in s ==> Split(s, c) == [s]
  {
  }

  /** Everything after the first piece, joined back, is the text after the
      first separator. */
  lemma {:induction false} SplitTail(s: string, c: char)
    requires c in s
    ensures Join(Split(s, c)[1..], [c]) == s[IndexOfChar(s, c) + 1..]
  {
    var i := IndexOfChar(s, c);
    assert Split(s, c)[1..] == Split(s[i + 1..], c);
    JoinSplit(s[i + 1..], c);
  }

  function DigitChar(d: nat): char
    requires d < 10
  {
    ('0' as int + d) as char
  }

  /** Decimal rendering of a natural number, as a template string prints it. */
  function NatToString(n: nat): (r: string)
    ensures |r| >= 1
    ensures forall i :: 0 <= i < |r| ==> IsDigit(r[i])
    ensures n < 10 ==> r == [DigitChar(n)]
  {
    if n < 10 then [DigitChar(n)] else NatToString(n / 10) + [DigitChar(n % 10)]
  }

  /** Decimal rendering of an integer, with a leading '-' when negative. */
  function IntToString(i: int): (r: string)
    ensures |r| >= 1
    ensures i >= 0 <==> IsDigit(r[0])
    ensures i < 0 <==> r[0] == '-'
  {
    if i < 0 then "-" + NatToString(-i) else NatToString(i)
  }

  /** Value of a decimal numeral. */
  function DigitsValue(s: string): nat
    requires forall i :: 0 <= i < |s| ==> IsDigit(s[i])
  {
    if |s| == 0 then 0 else DigitsValue(s[..|s| - 1]) * 10 + DigitValue(s[|s| - 1])
  }

  function DigitValue(c: char): nat
    requires IsDigit(c)
  {
    c as int - '0' as int
  }

  /** Rendering a number and reading it back gives the number. */
  lemma {:induction false} NatToStringValue(n: nat)
    ensures DigitsValue(NatToString(n)) == n
  {
    if n >= 10 {
      var r := NatToString(n);
      NatToStringValue(n / 10);
      assert r[..|r| - 1] == NatToString(n / 10);
    }
  }

  lemma {:induction false} NatToStringInjective(m: nat, n: nat)
    requires NatToString(m) == NatToString(n)
    ensures m == n
  {
    NatToStringValue(m);
    NatToStringValue(n);
  }

  /** Equal renderings come from equal integers. */
  lemma {:induction false} IntToStringInjective(i: int, j: int)
    requires IntToString(i) == IntToString(j)
    ensures i == j
  {
    var r := IntToString(i);
    if i < 0 && j < 0 {
      assert NatToString(-i) == r[1..];
      assert NatToString(-j) == r[1..];
      NatToStringInjective(-i, -j);
    } else if i >= 0 && j >= 0 {
      NatToStringInjective(i, j);
    }
  }

  /** A rendered integer holds only digits and a leading '-'. */
  lemma {:induction false} NumberNoChar(i: int, c: char)
    requires !IsDigit(c) && c != '-'
    ensures c !in IntToString(i)
  {
    if i < 0 {
      assert c !in NatToString(-i);
    }
  }

  /** The first `c` of a text that starts with a `c`-free piece and a `c`
      is just after that piece. */
  lemma {:induction false} IndexOfCharAfter(a: string, b: string, c: char)
    requires c !in a
    ensures c in a + ([c] + b) && IndexOfChar(a + ([c] + b), c) == |a|
  {
    var s := a + ([c] + b);
    assert s[|a|] == c;
    if |a| > 0 {
      IndexOfCharAfter(a[1..], b, c);
      assert s[1..] == a[1..] + ([c] + b);
    }
  }

  /** Text made of a piece free of `c`, then `c`, then a rest, is cut at
      its first `c` in only one way. */
  lemma {:induction false} CutAtChar(a: string, b: string, x: string, y: string, c: char)
    requires c !in a && c !in x
    requires a + ([c] + b) == x + ([c] + y)
    ensures a == x && b == y
  {
    var s := a + ([c] + b);
    IndexOfCharAfter(a, b, c);
    IndexOfCharAfter(x, y, c);
    assert a == s[..|a|] && x == s[..|x|];
    assert b == s[|a| + 1..] && y == s[|x| + 1..];
  }

  lemma {:induction false} CutPrefix(p: string, a: string, b: string)
    requires p + a == p + b
    ensures a == b
  {
    assert a == (p + a)[|p|..] && b == (p + b)[|p|..];
  }

  /** A suffix of a suffix is a suffix. */
  lemma {:induction false} EndsWithSuffix(s: string, k: nat, t: string)
    requires k <= |s| && EndsWith(s[k..], t)
    ensures EndsWith(s, t)
  {
    assert s[k..][|s| - k - |t|..] == s[|s| - |t|..];
  }

  /** The last piece of a split is what follows the last separator. */
  lemma {:induction false} SplitLast(s: string, c: char)
    requires c in s
    ensures var parts := Split(s, c);
            EndsWith(s, [c] + parts[|parts| - 1])
    decreases |s|
  {
    var i := IndexOfChar(s, c);
    var rest := s[i + 1..];
    SplitStep(s, c);
    if c in rest {
      SplitLast(rest, c);
      var tail := Split(rest, c);
      SuffixAfter(s, i, tail[|tail| - 1], c);
    } else {
      assert Split(rest, c) == [rest];
      SuffixAfter(s, i, rest, c);
    }
  }

  /** What ends the text after position `i`, with its separator, ends the
      text. */
  lemma {:induction false} SuffixAfter(s: string, i: nat, last: string, c: char)
    requires i < |s| && s[i] == c
    requires s[i + 1..] == last || EndsWith(s[i + 1..], [c] + last)
    ensures EndsWith(s, [c] + last)
  {
    if s[i + 1..] == last {
      assert s[i..] == [c] + last;
      EndsWithSuffix(s, i, [c] + last);
    } else {
      EndsWithSuffix(s, i + 1, [c] + last);
    }
  }

  /** A split takes the text up to the first separator, then splits the
      rest. */
  lemma {:induction false} SplitStep(s: string, c: char)
    requires c in s
    ensures var i := IndexOfChar(s, c);
            Split(s, c) == [s[..i]] + Split(s[i + 1..], c)
  {
  }
}

=== FILE: wallpaper.dfy ===
/** The wallpaper backup (`WallpaperManager` in
    app/components/wallpaper.js): on enable the five
    `org.gnome.desktop.background` strings are saved to a JSON file unless
    one is already there; on disable the non-empty saved values are written
    back and the file deleted. The JSON file is modelled as the object it
    holds. */
module Wallpaper {
  import opened Wrappers

  /** The five background keys the backup covers. */
  datatype BgKey = PictureUri | PictureUriDark | PrimaryColor | SecondaryColor | PictureOptions

  function Name(k: BgKey): string
  {
    match k
    case PictureUri => "picture-uri"
    case PictureUriDark => "picture-uri-dark"
    case PrimaryColor => "primary-color"
    case SecondaryColor => "secondary-color"
    case PictureOptions => "picture-options"
  }

  /** The background settings, one string per key. */
  datatype Background = Background(pictureUri: string, pictureUriDark: string, primaryColor: string,
                                   secondaryColor: string, pictureOptions: string)

  function Get(bg: Background, k: BgKey): string
  {
    match k
    case PictureUri => bg.pictureUri
    case PictureUriDark => bg.pictureUriDark
    case PrimaryColor => bg.primaryColor
    case SecondaryColor => bg.secondaryColor
    case PictureOptions => bg.pictureOptions
  }

  /** `set_string` on one key. */
  function Set(bg: Background, k: BgKey, v: string): (r: Background)
    ensures Get(r, k) == v
    ensures forall j :: j != k ==> Get(r, j) == Get(bg, j)
  {
    match k
    case PictureUri => bg.(pictureUri := v)
    case PictureUriDark => bg.(pictureUriDark := v)
    case PrimaryColor => bg.(primaryColor := v)
    case SecondaryColor => bg.(secondaryColor := v)
    case PictureOptions => bg.(pictureOptions := v)
  }

  /** The backup file: absent, holding a JSON object of strings, or not
      loadable or parseable (`load_contents` failing or `JSON.parse`
      throwing). */
  datatype BackupFile = Json(fields: map<string, string>) | Unusable

  datatype State = State(bg: Background, backup: Option<BackupFile>)

  /** The object `_backupWallpaper` serialises. */
  function Snapshot(bg: Background): (m: map<string, string>)
    ensures forall k :: Name(k) in m && m[Name(k)] == Get(bg, k)
    ensures m.Keys == {Name(PictureUri), Name(PictureUriDark), Name(PrimaryColor), Name(SecondaryColor), Name(PictureOptions)}
  {
    map["picture-uri" := bg.pictureUri, "picture-uri-dark" := bg.pictureUriDark,
        "primary-color" := bg.primaryColor, "secondary-color" := bg.secondaryColor,
        "picture-options" := bg.pictureOptions]
  }

  /** `_backupWallpaper`: a backup is written only when none exists. */
  function Backup(s: State): (r: State)
    ensures r.bg == s.bg
    ensures s.backup.Some? ==> r == s
    ensures s.backup.None? ==> r.backup == Some(Json(Snapshot(s.bg)))
  {
    if s.backup.Some? then s else s.(backup := Some(Json(Snapshot(s.bg))))
  }

  /** One `if (backupData[key]) set_string(key, …)` line: only a present,
      non-empty (truthy) string is written back. */
  function RestoreKey(bg: Background, fields: map<string, string>, k: BgKey): (r: Background)
    ensures forall j :: j != k ==> Get(r, j) == Get(bg, j)
  {
    if Name(k) in fields && fields[Name(k)] != "" then Set(bg, k, fields[Name(k)]) else bg
  }

  /** The five restore lines, in source order: each key ends up as its
      saved value when that is a non-empty string, and keeps its current
      value otherwise. */
  function RestoreAll(bg: Background, fields: map<string, string>): (r: Background)
    ensures forall k :: Get(r, k) == if Name(k) in fields && fields[Name(k)] != "" then fields[Name(k)] else Get(bg, k)
  {
    var b1 := RestoreKey(bg, fields, PictureUri);
    var b2 := RestoreKey(b1, fields, PictureUriDark);
    var b3 := RestoreKey(b2, fields, PrimaryColor);
    var b4 := RestoreKey(b3, fields, SecondaryColor);
    RestoreKey(b4, fields, PictureOptions)
  }

  /** `_restoreWallpaper`: with a usable backup the values are written back
      and the file deleted; with none, or one that does not load, nothing
      changes. */
  function Restore(s: State): (r: State)
    ensures s.backup.None? || s.backup == Some(Unusable) ==> r == s
    ensures s.backup.Some? && s.backup.value.Json? ==> r == State(RestoreAll(s.bg, s.backup.value.fields), None)
  {
    match s.backup
    case Some(Json(fields)) => State(RestoreAll(s.bg, fields), None)
    case _ => s
  }

  /** Enable saves the values of that moment; whatever the user sets
      meanwhile, disable writes each non-empty saved value back. */
  lemma {:induction false} BackupRestoreRoundTrip(atEnable: Background, later: Background, k: BgKey)
    ensures var saved := Backup(State(atEnable, None));
            var r := Restore(saved.(bg := later));
            && r.backup.None?
            && Get(r.bg, k) == if Get(atEnable, k) != "" then Get(atEnable, k) else Get(later, k)
  {
  }

  /** When every saved value is non-empty, disable restores the settings
      exactly. */
  lemma {:induction false} BackupRestoreExact(atEnable: Background, later: Background)
    requires forall k :: Get(atEnable, k) != ""
    ensures Restore(Backup(State(atEnable, None)).(bg := later)) == State(atEnable, None)
  {
    var r := Restore(Backup(State(atEnable, None)).(bg := later));
    forall k ensures Get(r.bg, k) == Get(atEnable, k) {
      BackupRestoreRoundTrip(atEnable, later, k);
    }
    assert r.bg.pictureUri == Get(r.bg, PictureUri);
    assert r.bg.pictureUriDark == Get(r.bg, PictureUriDark);
    assert r.bg.primaryColor == Get(r.bg, PrimaryColor);
    assert r.bg.secondaryColor == Get(r.bg, SecondaryColor);
    assert r.bg.pictureOptions == Get(r.bg, PictureOptions);
  }

  /** A backup left from an earlier session wins: enable keeps it, and
      disable restores its values rather than the current ones. */
  lemma {:induction false} StaleBackupKept(bg: Background, fields: map<string, string>, k: BgKey)
    ensures var r := Restore(Backup(State(bg, Some(Json(fields)))));
            Get(r.bg, k) == if Name(k) in fields && fields[Name(k)] != "" then fields[Name(k)] else Get(bg, k)
  {
  }
}

=== FILE: wrappers.dfy ===
/** The optional value used wherever the extension returns `null`, leaves a
    field unset or keeps a timer id that may be absent. */
module Wrappers {

  datatype Option<+T> = None | Some(value: T) {

    /** The value, or `default` when there is none (JavaScript's `x ?? d`). */
    function GetOr(default: T): T
    {
      match this
      case Some(v) => v
      case None => default
    }
  }
}
